=== FILE: README.md ===
# resize.go in Dafny

A model of `resize.go`, the program at the core of embiggen-disk. It grows
the last partition of a disk to fill the disk, then the LVM physical volume
on that partition and the logical volumes of its volume group, then the one
mounted filesystem that lives on those devices. The model covers:

- the `sfdisk -d` dump format: getPartitionTable, partitionTable.Write,
  Meta, RemoveMeta, and sfdiskLine.String, Attr, AttrInt64, SetSize;
- the decision of enlargePartition: label and type checks, the disk size,
  int64 arithmetic with a 1 MiB end reserve, and the new table;
- enlargeLVM over the `pvdisplay -c` records;
- enlargeFS: the device set, the `lvextend` loop, the mount table, and the
  grow command per filesystem type;
- main's choice of disk and the order of the stages.

The outside world is an input. This covers the entries of /sys/block, the
text of the disk size file and of /proc/mounts, and `os.Stat` (a function
from path to file identity). The outcome of each program started is also an
input, as a function of its position in the run and the command. Every stage
returns the commands it starts, in order, and either its result or the fatal
condition (`log.Fatalf` or `panic` in the source) that ends the program.

Modules, in dependency order:

| file | module | contents |
|---|---|---|
| results.dfy | Results | Option, Result, the fatal conditions, Run (trace plus result) |
| commands.dfy | Commands | the external commands as data, their outcomes, layers |
| numbers.dfy | Numbers | int64, wrap-around, strconv.ParseInt, `%d` |
| text.dfy | Text | TrimSpace, Split, Join, Fields, HasPrefix, Contains, the `\s*=\s*` replacement |
| sfdisk.dfy | Sfdisk | the table, parsing, writing, accessors |
| sfdisk_edit.dfy | SfdiskEdit | what Meta, Attr, SetSize and RemoveMeta find and change |
| sfdisk_roundtrip.dfy | SfdiskRoundTrip | writing then parsing gives the table back |
| devices.dfy | Devices | devNames, anyDeviceMapperDevs, choosing the disk, readInt64File |
| partition.dfy | Partition | enlargePartition's checks, arithmetic and new table |
| lvm.dfy | Lvm | the `-c` records, enlargeLVM, the logical volumes of a group |
| filesystem.dfy | Filesystem | enlargeFS |
| pipeline.dfy | Pipeline | enlargePartition with its commands, main, ordering properties |

## Model

| member | source | states |
|---|---|---|
| Numbers.Wrap64 | resize.go:112-113 | The int64 Go computes equals the exact value modulo 2^64, and equals it exactly when it is in range |
| Numbers.ParseFormat | resize.go:441-461 | strconv.ParseInt reads back every int64 that `%d` prints, so a size SetSize writes reads back |
| Text.CollapseIsTight | resize.go:503 | After replacing every `\s*=\s*` run by `=`, no white space touches an `=` |
| Text.CollapseOfTight | resize.go:494 | The replacement leaves text with no white space around `=` unchanged |
| Text.JoinSplit | resize.go:172-175 | Joining the pieces of strings.Split with the separator gives the text back |
| Devices.DevNamesSpec | resize.go:505-518 | devNames keeps exactly the entries other than `sr0` and `dm-*`, in directory order |
| Devices.AnyDeviceMapperDevs | resize.go:195-207 | True exactly when some entry of /sys/block starts with `dm-` |
| Devices.DevicePath | resize.go:61-63 | A name without `/` is taken to be under /dev; a name with `/` is kept |
| Devices.ChooseDevice | resize.go:49-63 | The --dev flag wins; otherwise no candidate or several are fatal, and exactly one is chosen |
| Devices.ReadInt64File | resize.go:332-343 | Succeeds exactly when the trimmed contents parse as an int64, with that value; otherwise it is fatal and names the file |
| Devices.ReadFormattedFile | resize.go:332-343 | The kernel's size file, a number and a newline, reads as that number |
| Sfdisk.ParseEntry | resize.go:485-497 | A partition line is rejected exactly when it has no `:` |
| Sfdisk.ParseEntryCanonical | resize.go:485-496 | A parsed entry's device and attributes are trimmed, without `:`, `,` or newline, and with no white space around `=` |
| Sfdisk.ParseEntriesSucceeds | resize.go:485-488 | The partition lines parse exactly when every one of them has a `:` |
| Sfdisk.ParseEntriesValues | resize.go:485-497 | A successful parse gives one entry per partition line, in order, each the parse of its line |
| Sfdisk.ParseEntriesFailure | resize.go:485-488 | A failed parse names the first partition line without `:`; every line before it has one |
| Sfdisk.ParseDump | resize.go:473-500 | Header lines are the trimmed lines before the first blank line; the parse succeeds exactly when the non-blank lines after it parse, and the entries are theirs |
| Sfdisk.ParsedIsWellFormed | resize.go:473-499 | Everything getPartitionTable produces is in parsed form |
| Sfdisk.Parse | resize.go:467-501 | A parsed table is in parsed form |
| Sfdisk.ParseWithoutBlankLine | resize.go:476-484 | Without a blank line, every line, trimmed, is a header line in order and there are no partitions |
| Sfdisk.ParseWithoutBlankLineTerminated | resize.go:472-484 | The same text with a final newline: the empty last piece ends the header, which keeps every line trimmed, and there are still no partitions |
| Sfdisk.AttrInt64 | resize.go:451-461 | Succeeds exactly when the attribute parses as an int64; a missing attribute is fatal |
| SfdiskEdit.MetaFirstMatch | resize.go:382-390 | Meta(k) is the trimmed text after `k:` on the first header line that starts with `k:` |
| SfdiskEdit.MetaNoMatch | resize.go:382-390 | Meta(k) is "" when no header line starts with `k:` |
| SfdiskEdit.RemoveMetaSpec | resize.go:392-402 | RemoveMeta drops exactly the header lines that start with `key: ` and keeps the rest in order |
| SfdiskEdit.AttrFirstMatch | resize.go:428-439 | Attr(key) is decided by the first attribute equal to `key` or starting with `key=` |
| SfdiskEdit.AttrNoMatch | resize.go:428-439 | Attr(key) is "" when no attribute matches |
| SfdiskEdit.SetSizeSpec | resize.go:441-449 | SetSize fails exactly without a `size=` attribute; otherwise it rewrites only the first one, to `size=<n>` |
| SfdiskEdit.SetSizeKeepsOthers | resize.go:441-449 | SetSize leaves the start and type of the entry unchanged |
| SfdiskEdit.SetSizeReadsBack | resize.go:441-465 | After SetSize(n), Size() reads n |
| SfdiskEdit.SetSizeThenSize | resize.go:441-465 | After SetSize(n), Size() reads n, and Start() and Type() read as before |
| SfdiskEdit.SetSizeCanonical | resize.go:441-449 | SetSize keeps an entry in parsed form |
| SfdiskEdit.MetaAfterRemove | resize.go:382-402 | Removing `key: ` lines does not change a header whose lines never start with `key: ` |
| SfdiskEdit.LabelNotLastLba | resize.go:78 | No header line is both a `label:` line and a `last-lba: ` line |
| SfdiskRoundTrip.EntryLineParses | resize.go:424-426 | sfdiskLine.String of an entry in parsed form parses back to the entry |
| SfdiskRoundTrip.JoinedAttrs | resize.go:425 | Attributes in parsed form, joined with ", ", split and normalised back into themselves |
| SfdiskRoundTrip.NormalizeTrim | resize.go:490-495 | Trimming the attribute text first changes no parsed attribute |
| SfdiskRoundTrip.WriteRoundTrip | resize.go:404-417 | Parsing what partitionTable.Write prints gives back every table in parsed form |
| SfdiskRoundTrip.ParseWriteParse | resize.go:404-417 | Parsing, writing and parsing again gives the first parse |
| Partition.LabelOf | resize.go:77-85 | The `label` header selects dos or gpt; any other value is fatal and names it |
| Partition.LastGrowable | resize.go:73-103 | Succeeds with the last partition exactly when there is one, the label is known, and its type is allowed for that label; each failure names its cause |
| Partition.DecideStages | resize.go:72-130 | A decision needs the checks, a readable disk size and the last partition's start and size, and is then the arithmetic on them |
| Partition.GrowAtMax | resize.go:111-126 | For a partition inside the disk, it is at its maximum size exactly when start + size + 2048 reaches the disk size; the plan names the last partition |
| Partition.GrowSucceeds | resize.go:127-130 | A partition with a size attribute that is not at its maximum size is always grown |
| Partition.GrowExtends | resize.go:111-134 | For a partition inside the disk, an extending plan grows it by disk size − start − size − 2048 > 0 sectors to a new size of disk size − start − 2048, larger than the old one, and carries the table resized to that size |
| Partition.GrowTwice | resize.go:111-134 | Idempotence: growing again on the grown table, with the size now written in it, finds the partition at its maximum size |
| Partition.GrowChangesOnlyLastSize | resize.go:127-134 | The new table keeps every other partition and the last one's device; the last one's attributes are the old ones with the first `size=` replaced by the new size; the header loses only the `last-lba` lines, and only in verbose mode |
| Partition.ResizedChangesOnlyLastSize | resize.go:130-134 | Resizing keeps every other partition and the last one's device, replaces only the first `size=` attribute of the last one, and drops the `last-lba` lines only in verbose mode |
| Partition.GrowRespectsReserve | resize.go:111-130 | For a partition inside the disk, start plus new size is the disk size less 2048 sectors, and the partition grew |
| Partition.ResizedWellFormed | resize.go:130-134 | Resizing keeps a table in parsed form |
| Partition.ResizedRoundTrip | resize.go:130-137 | A resized table reads back from its own script |
| Partition.GrowScriptRoundTrip | resize.go:127-137 | The script for sfdisk parses back as the new table |
| Partition.GrowKeepsLabel | resize.go:131-134 | The new table has the same label as the old |
| Partition.DecideScriptRoundTrip | resize.go:72-137 | enlargePartition's script parses back as the table it decided on, for every dump the parser accepted |
| Partition.DecideRespectsReserve | resize.go:111-134 | enlargePartition changes only the last partition, and it then ends 2048 sectors before the disk's end |
| Partition.DecideTwice | resize.go:73-134 | enlargePartition run again on the table it wrote, with the same disk, finds the partition already at its maximum size |
| Lvm.RecordsRejoin | resize.go:172-175 | Each record's fields, joined with `:`, give back the trimmed line; no field holds `:` or a newline |
| Lvm.FindVgNone | resize.go:173-192 | No volume group is found exactly when no record is for the partition |
| Lvm.FindVgFirst | resize.go:173-179 | The volume group is the one of the first record for the partition |
| Lvm.EnlargeLvmSpec | resize.go:163-193 | No LVM work without dm devices; one listing, whose failure is fatal; a resize only of the partition's physical volume, when listed and outside a dry run; a dry run or an unlisted partition succeeds with the record's group or ""; after a resize the result is Ok with the group exactly when pvresize succeeded, otherwise fatal with its stderr |
| Lvm.SelectLvsSound | resize.go:241-246 | Each selected logical volume is named by a record of the group |
| Lvm.SelectLvsComplete | resize.go:241-246 | Every record of the group contributes its logical volume |
| Lvm.LvExtendVerdict | resize.go:251-261 | An lvextend failure is harmless exactly when its stderr says "matches existing size" |
| Filesystem.ExtendLvs | resize.go:241-263 | The loop starts only lvextend commands, none in a dry run, at most one per record |
| Filesystem.ExtendLvsComplete | resize.go:241-263 | A completed loop stat'ed every logical volume of the group and, outside a dry run, extended each, in order |
| Filesystem.ExtendLvsVerdicts | resize.go:241-263 | The loop completes exactly when every logical volume of the group stats and no lvextend fails fatally ("matches existing size" is not fatal); otherwise it stops at the first one that fails, naming the unstat-able device or the lvextend and its stderr, with the lvextends up to that one as its commands |
| Filesystem.DeviceSetSpec | resize.go:212-264 | The device set is the partition, then exactly the group's logical volumes in listing order |
| Filesystem.DeviceSetFailures | resize.go:212-263 | A partition device that cannot be stat'ed is fatal before any command; with a volume group, a failed `lvdisplay -c` is fatal with its stderr right after that one command; a successful listing gives a device set exactly when every logical volume of the group stats and none of its lvextends fails fatally |
| Filesystem.SelectMountsOk | resize.go:219-223 | Reading the mounts succeeds exactly when every considered source can be stat'ed; otherwise it names one that cannot |
| Filesystem.SelectMountsSound | resize.go:277-294 | Every mount kept comes from a line whose source is in the device set |
| Filesystem.SelectMountsComplete | resize.go:277-294 | Every line whose source is in the device set contributes its mount |
| Filesystem.SelectMountsIsFilter | resize.go:277-294 | A successful selection is exactly one mount per line on the device set, in line order, so a filesystem mounted twice is selected twice |
| Filesystem.OnDeviceMountsTwo | resize.go:277-294 | Two lines on the device set give at least two mounts |
| Filesystem.EnlargeFsStacked | resize.go:277-302 | Two mount lines on the device set, such as one filesystem mounted twice, are fatal with the number of mounts, and no grow command starts |
| Filesystem.GrowCommand | resize.go:304-314 | ext2, ext3 and ext4 map to resize2fs on the device; xfs maps to xfs_growfs on the mount point; btrfs maps to `btrfs filesystem resize max` on the mount point; any other type is fatal, naming the type |
| Filesystem.GrowVerdict | resize.go:320-329 | A grow command's failure is fatal exactly when its exit status is non-zero |
| Filesystem.NothingToDoStillFails | resize.go:322-329 | Printing "Nothing to do!" does not rescue a failed grow |
| Filesystem.GrowFilesystemSpec | resize.go:295-329 | A grow command starts only for exactly one filesystem, outside a dry run, and is the one for its type; no filesystem succeeds; several are fatal; an unknown type is fatal even in a dry run; a dry run of a known type succeeds; a started grow command succeeds exactly when it exits successfully |
| Filesystem.EnlargeFsShape | resize.go:232-329 | enlargeFS lists volumes first, then only extends them, and starts at most one grow command, last |
| Filesystem.EnlargeFsGrowsOne | resize.go:295-329 | A grow command means exactly one mounted filesystem on the devices, and it is that filesystem's command |
| Filesystem.EnlargeFsOneMount | resize.go:295-329 | With one mounted filesystem on the device set, enlargeFS fails for an unknown type even in a dry run, succeeds without a grow command in a dry run, and otherwise ends with the grow command, succeeding exactly when it exits successfully |
| Filesystem.EnlargeFsStops | resize.go:232-302 | A failure while collecting the device set, or while reading the mounts, ends enlargeFS with that fault and the commands run so far, so no grow command starts |
| Pipeline.PlanScriptRoundTrip | resize.go:136-137 | The script of a plan made from a dump parses back as the plan's table |
| Pipeline.PlanFromDumpSpec | resize.go:467-500 | A failed `sfdisk -d` is fatal; a dump that does not parse is fatal with the parse fault; otherwise the plan is the one decided for the parsed table |
| Pipeline.ApplyPlanSpec | resize.go:123-160 | After the dump, at most the write and partprobe run, in order; the write only outside a dry run for a partition not at its maximum size; once the write has run, the stage succeeds exactly when both the write and partprobe succeed |
| Pipeline.EnlargePartitionWritesPlan | resize.go:72-152 | What enlargePartition writes is the table it decided on for the dump it read |
| Pipeline.MainOrdered | resize.go:49-70 | main handles the layers in order, a dry run only lists, and a grow command is the last command |
| Pipeline.AfterPartitionGrowsLast | resize.go:65-67 | After the partition stage, a grow command is the run's last command, never in a dry run |
| Pipeline.MainWritesPlan | resize.go:49-70 | The only table main writes is its second command, outside a dry run, for the chosen disk, with the decided table |
| Pipeline.MainAtMaxWritesNothing | resize.go:123-126 | A partition already at its maximum size is never rewritten |
| Pipeline.AfterPartitionStops | resize.go:65-67 | A failed partition stage ends the run with its fault and starts nothing more; a failed LVM stage ends it after the LVM commands, with no logical volume or filesystem command |
| Pipeline.AfterPartitionOk | resize.go:65-69 | The run after the partition stage succeeds exactly when the LVM and filesystem stages both succeed |
| Pipeline.MainStopsEarly | resize.go:49-67 | Without a disk main starts nothing; a failed `sfdisk -d` ends it after that single command; any other failure of the partition stage ends it before any LVM command |
| Pipeline.MainStopsLate | resize.go:49-70 | A failed LVM stage ends main before any logical volume or filesystem command; main succeeds exactly when a disk is chosen and all three stages succeed |

## Behaviour of the code worth noting

- The `last-lba` header line is dropped only with --verbose
  (resize.go:131-134). Without it the new table keeps `last-lba`.
  `Partition.Resized` does the same.
- A grow program that exits with an error is fatal even when its output
  says "Nothing to do!". That output only selects a shorter message
  (resize.go:320-329). See `Filesystem.GrowVerdict` and
  `Filesystem.NothingToDoStillFails`.
- The disk's capacity is always read from /sys/block/sda/size, whatever
  device is chosen (resize.go:111). `Partition.Decide` reads the same fixed
  file, named by `Partition.SizeFile`.

## Left out

- Running programs: each program's outcome is an input function of its
  position in the run and the command. Standard output, standard error and
  exit status are not otherwise modelled.
- Reading /sys/block, the size file and /proc/mounts: their contents are
  inputs. Read errors of these files are not modelled.
- os.Stat: a function from path to an optional file identity. os.SameFile
  compares identities.
- Printing and logging: what the program prints, including the float GiB
  figure, is not modelled. Fatal conditions are values.
- bufio.Scanner's 64 KiB line limit is not modelled. Its lines are modelled
  as strings.Split on newlines. The extra empty last piece and a trailing
  carriage return make no difference, because those lines are trimmed or
  split into fields first.
- Strings are sequences of code points. Invalid UTF-8 is not modelled.
- The `partprobe` not-found message (resize.go:155-157) is folded into the
  partprobe failure.
- filepath.Base on /sys/block entries is the identity for directory entry
  names and is omitted.
- Filesystem.GrowVerdict: the fatal condition does not carry the error text
  of the grow program.
- Partition.GrowAtMax: the exact-arithmetic statement covers only a last
  partition within the disk (non-negative start and size, ending by the
  disk's end). Outside that range `Partition.Grow` follows Go's wrapping
  int64 arithmetic, and no lemma describes the outcome.
- Partition.GrowExtends: the same range restriction as GrowAtMax, for the
  same reason.
- Partition.GrowTwice: the same range restriction as GrowAtMax; the last
  partition must also already carry a readable size.
- Partition.DecideTwice: the same range restriction as GrowAtMax, on the
  start and size read from the dump and the disk size read from the file.
- Pipeline.Main: /sys/block is read twice by the code (devNames and
  anyDeviceMapperDevs). The model gives both the same listing.

=== FILE: commands.dfy ===
/** The external programs resize.go starts, as data. The model never runs a
    program: it records the command it would start and receives the
    program's outcome as an input. */
module Commands {

  datatype Command =
    | DumpTable(dev: string)                   // sfdisk -d <dev>
    | WriteTable(dev: string, script: string)  // sfdisk -f --no-reread --no-tell-kernel <dev>, script on stdin
    | Partprobe                                // partprobe
    | PvDisplay                                // pvdisplay -c
    | PvResize(pv: string)                     // pvresize <pv>
    | LvDisplay                                // lvdisplay -c
    | LvExtend(lv: string)                     // lvextend -l +100%FREE <lv>
    | Resize2fs(dev: string)                   // resize2fs <dev>
    | XfsGrowfs(mount: string)                 // xfs_growfs -d <mount>
    | BtrfsResize(mount: string)               // btrfs filesystem resize max <mount>

  /** How a program finished: whether its exit status was zero, its standard
      output and its standard error. For the filesystem grow programs, whose
      interleaved output is read as one text, `stdout` holds that text. */
  datatype Outcome = Outcome(success: bool, stdout: string, stderr: string)

  /** The layer a command acts on, in the order the layers must be handled:
      partition table, kernel re-probe, LVM physical volume, LVM logical
      volumes, filesystem. */
  function Layer(c: Command): nat {
    match c
    case DumpTable(_) => 0
    case WriteTable(_, _) => 1
    case Partprobe => 2
    case PvDisplay => 3
    case PvResize(_) => 4
    case LvDisplay => 5
    case LvExtend(_) => 6
    case Resize2fs(_) => 7
    case XfsGrowfs(_) => 7
    case BtrfsResize(_) => 7
  }

  /** Commands that only read the current state. */
  predicate IsQuery(c: Command) {
    c.DumpTable? || c.PvDisplay? || c.LvDisplay?
  }

  /** Commands that grow a filesystem. */
  predicate IsFilesystemGrow(c: Command) {
    c.Resize2fs? || c.XfsGrowfs? || c.BtrfsResize?
  }
}

=== FILE: devices.dfy ===
/** Choosing the disk: devNames and anyDeviceMapperDevs over the entries of
    /sys/block, the device-name normalisation of main, and readInt64File
    for the sector count. The directory listing and the file contents are
    inputs. */
module Devices {
  import opened Text
  import opened Results
  import opened Numbers

  /** Block devices devNames never offers: the optical drive `sr0` and the
      device-mapper devices `dm-*`. */
  predicate Skipped(name: string) {
    name == "sr0" || HasPrefix(name, "dm-")
  }

  /** devNames: the names under /sys/block that are candidate disks, in
      directory order. */
  function DevNames(names: seq<string>): seq<string> {
    if |names| == 0 then []
    else if Skipped(names[0]) then DevNames(names[1..])
    else [names[0]] + DevNames(names[1..])
  }

  /** DevNames keeps exactly the names that are not skipped, in their
      order. */
  lemma {:induction false} DevNamesSpec(names: seq<string>)
    ensures forall i :: 0 <= i < |DevNames(names)| ==> !Skipped(DevNames(names)[i]) && DevNames(names)[i] in names
    ensures forall j :: 0 <= j < |names| && !Skipped(names[j]) ==> names[j] in DevNames(names)
    ensures IsSubsequence(DevNames(names), names)
  {
    if |names| > 0 {
      DevNamesSpec(names[1..]);
      var r := DevNames(names[1..]);
      forall j | 0 < j < |names| && !Skipped(names[j]) ensures names[j] in DevNames(names) {
        assert names[j] == names[1..][j - 1];
      }
      if !Skipped(names[0]) {
        assert ([names[0]] + r)[1..] == r;
        assert DevNames(names)[0] == names[0];
      } else if |r| > 0 {
        SubsequenceSkip(r, names);
      }
    }
  }

  /** anyDeviceMapperDevs: whether some entry of /sys/block is a
      device-mapper device. */
  function AnyDeviceMapperDevs(names: seq<string>): (b: bool)
    ensures b <==> exists i :: 0 <= i < |names| && HasPrefix(names[i], "dm-")
  {
    if |names| == 0 then false
    else if HasPrefix(names[0], "dm-") then true
    else
      var b := AnyDeviceMapperDevs(names[1..]);
      assert forall i :: 1 <= i < |names| ==> names[i] == names[1..][i - 1];
      b
  }

  /** A name without `/` is taken to live under /dev. */
  function DevicePath(name: string): (p: string)
    ensures '/' in p
    ensures '/' in name ==> p == name
    ensures '/' !in name ==> p == "/dev/" + name
  {
    if '/' in name then name
    else
      assert ("/dev/" + name)[0] == '/';
      "/dev/" + name
  }

  /** main: the --dev flag when given, otherwise the only candidate disk;
      no candidate or several candidates are fatal. */
  function ChooseDevice(flag: string, names: seq<string>): (r: Result<string>)
    ensures flag != "" ==> r == Ok(DevicePath(flag))
    ensures flag == "" && |DevNames(names)| == 0 ==> r == Fail(NoDevicesFound)
    ensures flag == "" && |DevNames(names)| > 1 ==> r == Fail(AmbiguousDevice(DevNames(names)))
    ensures flag == "" && |DevNames(names)| == 1 ==> r == Ok(DevicePath(DevNames(names)[0]))
  {
    var name :- if flag != "" then Ok(flag) else
      var candidates := DevNames(names);
      if |candidates| == 0 then Fail(NoDevicesFound)
      else if |candidates| > 1 then Fail(AmbiguousDevice(candidates))
      else Ok(candidates[0]);
    Ok(DevicePath(name))
  }

  /** Normalising a device path a second time changes nothing. */
  lemma DevicePathIdempotent(name: string)
    ensures DevicePath(DevicePath(name)) == DevicePath(name)
  {
  }

  /** readInt64File: the file's text with surrounding white space removed,
      read as a decimal int64; anything else is fatal. */
  function ReadInt64File(path: string, content: string): (r: Result<Int64>)
    ensures r.Ok? <==> ParseInt64(Trim(content)).Some?
    ensures r.Ok? ==> Some(r.value) == ParseInt64(Trim(content))
    ensures r.Fail? ==> r.fault == NonIntegerFile(path, Trim(content))
  {
    match ParseInt64(Trim(content))
    case None => Fail(NonIntegerFile(path, Trim(content)))
    case Some(n) => Ok(n)
  }

  /** The kernel's size file, a decimal number and a newline, reads back as
      that number. */
  lemma ReadFormattedFile(path: string, n: Int64)
    ensures ReadInt64File(path, FormatInt(n) + "\n") == Ok(n)
  {
    var s := FormatInt(n);
    FormatIntChars(n);
    assert IsSpace('\n');
    TrimSnocSpace(s, '\n');
    TrimOfTrimmed(s);
    ParseFormat(n);
  }
}

=== FILE: filesystem.dfy ===
/** enlargeFS: the set of devices the filesystem may live on (the grown
    partition and the logical volumes of its group, extended on the way),
    the mounted filesystem on one of them, and the command that grows it.
    os.Stat becomes a function from path to file identity; os.SameFile
    compares identities. */
module Filesystem {
  import opened Text
  import opened Results
  import opened Commands
  import opened Lvm

  /** What os.SameFile compares: the device and inode numbers. */
  datatype FileId = FileId(device: nat, inode: nat)

  /** One line of /proc/mounts: source device, mount point, type. */
  datatype Mount = Mount(dev: string, mount: string, fstype: string)

  /** The LV loop of enlargeFS over the `lvdisplay -c` records: each
      logical volume of `vg` joins the device set (a failed stat is fatal)
      and, unless this is a dry run, is extended to all free space. */
  function ExtendLvs(run: (nat, Command) -> Outcome, base: nat, stat: string -> Option<FileId>,
                     records: seq<seq<string>>, vg: string, dry: bool): (r: Run<seq<FileId>>)
    ensures forall i :: 0 <= i < |r.trace| ==> r.trace[i].LvExtend?
    ensures dry ==> r.trace == []
    ensures |r.trace| <= |records|
    decreases |records|
  {
    if |records| == 0 then Run([], Ok([]))
    else if !IsLvRecord(records[0], vg) then ExtendLvs(run, base, stat, records[1..], vg, dry)
    else
      var lv := records[0][0];
      match stat(lv)
      case None => Run([], Fail(StatFailed(lv)))
      case Some(id) =>
        var (mine, next) := if dry then ([], base) else ([LvExtend(lv)], base + 1);
        var verdict := if dry then Ok(()) else LvExtendVerdict(lv, run(base, LvExtend(lv)));
        if verdict.Fail? then Run(mine, Fail(verdict.fault))
        else
          var rest := ExtendLvs(run, next, stat, records[1..], vg, dry);
          Run(mine + rest.trace, if rest.result.Fail? then rest.result else Ok([id] + rest.result.value))
  }

  /** When the loop completes, it has extended exactly the logical volumes
      of `vg`, in listing order, outside a dry run, and added the identity
      of each of them to the device set. */
  lemma {:induction false} ExtendLvsComplete(run: (nat, Command) -> Outcome, base: nat, stat: string -> Option<FileId>,
                                             records: seq<seq<string>>, vg: string, dry: bool)
    requires ExtendLvs(run, base, stat, records, vg, dry).result.Ok?
    ensures var r := ExtendLvs(run, base, stat, records, vg, dry);
      var lvs := SelectLvs(records, vg);
      && |r.result.value| == |lvs|
      && (forall k :: 0 <= k < |lvs| ==> stat(lvs[k]) == Some(r.result.value[k]))
      && (!dry ==> |r.trace| == |lvs| && forall k :: 0 <= k < |lvs| ==> r.trace[k] == LvExtend(lvs[k]))
    decreases |records|
  {
    if |records| > 0 {
      var dryNext := if dry then base else base + 1;
      if IsLvRecord(records[0], vg) {
        ExtendLvsComplete(run, dryNext, stat, records[1..], vg, dry);
      } else {
        ExtendLvsComplete(run, base, stat, records[1..], vg, dry);
      }
    }
  }

  /** The `k`-th logical volume of `lvs` passes the loop, started at
      command `base`: its device can be stat'ed and, outside a dry run, its
      `lvextend` (the loop's `k`-th command) is not fatal. */
  predicate LvStepOk(run: (nat, Command) -> Outcome, base: nat, stat: string -> Option<FileId>,
                     lvs: seq<string>, k: nat, dry: bool)
    requires k < |lvs|
  {
    stat(lvs[k]).Some? && (dry || LvExtendVerdict(lvs[k], run(base + k, LvExtend(lvs[k]))).Ok?)
  }

  /** Every logical volume of `lvs` passes the loop started at `base`. */
  predicate AllLvStepsOk(run: (nat, Command) -> Outcome, base: nat, stat: string -> Option<FileId>,
                         lvs: seq<string>, dry: bool)
  {
    forall k :: 0 <= k < |lvs| ==> LvStepOk(run, base, stat, lvs, k, dry)
  }

  /** The `k`-th logical volume is the first one that does not pass. */
  predicate FirstLvFailure(run: (nat, Command) -> Outcome, base: nat, stat: string -> Option<FileId>,
                           lvs: seq<string>, k: nat, dry: bool)
  {
    && k < |lvs|
    && !LvStepOk(run, base, stat, lvs, k, dry)
    && forall j :: 0 <= j < k ==> LvStepOk(run, base, stat, lvs, j, dry)
  }

  /** How the loop stops at the `k`-th logical volume: a failed stat names
      the device, and a fatal `lvextend` names the command and its standard
      error; outside a dry run the commands started are the `lvextend`s up
      to and including the fatal one. */
  predicate StopsAt(r: Run<seq<FileId>>, run: (nat, Command) -> Outcome, base: nat,
                    stat: string -> Option<FileId>, lvs: seq<string>, k: nat, dry: bool)
    requires k < |lvs|
  {
    && r.result.Fail?
    && (stat(lvs[k]).None? ==> r.result.fault == StatFailed(lvs[k]))
    && (stat(lvs[k]).Some? ==> r.result.fault == ToolFailed(LvExtend(lvs[k]), run(base + k, LvExtend(lvs[k])).stderr))
    && (!dry ==>
          && |r.trace| == (if stat(lvs[k]).Some? then k + 1 else k)
          && forall i :: 0 <= i < |r.trace| ==> r.trace[i] == LvExtend(lvs[i]))
  }

  /** The loop over the group's logical volumes completes exactly when each
      of them stats and no `lvextend` is fatal ("matches existing size" is
      not); otherwise it stops at the first one that fails, with that
      failure. */
  lemma {:induction false} ExtendLvsVerdicts(run: (nat, Command) -> Outcome, base: nat, stat: string -> Option<FileId>,
                                             records: seq<seq<string>>, vg: string, dry: bool)
    ensures var r := ExtendLvs(run, base, stat, records, vg, dry);
      var lvs := SelectLvs(records, vg);
      && (r.result.Ok? <==> forall k :: 0 <= k < |lvs| ==> LvStepOk(run, base, stat, lvs, k, dry))
      && (r.result.Fail? ==> exists k :: FirstLvFailure(run, base, stat, lvs, k, dry) && StopsAt(r, run, base, stat, lvs, k, dry))
    decreases |records|
  {
    if |records| > 0 {
      if !IsLvRecord(records[0], vg) {
        ExtendLvsVerdicts(run, base, stat, records[1..], vg, dry);
        assert SelectLvs(records, vg) == SelectLvs(records[1..], vg);
        assert ExtendLvs(run, base, stat, records, vg, dry) == ExtendLvs(run, base, stat, records[1..], vg, dry);
      } else {
        var next: nat := if dry then base else base + 1;
        var lv := records[0][0];
        var tail := SelectLvs(records[1..], vg);
        var r := ExtendLvs(run, base, stat, records, vg, dry);
        var rest := ExtendLvs(run, next, stat, records[1..], vg, dry);
        ExtendLvsVerdicts(run, next, stat, records[1..], vg, dry);
        assert var r := ExtendLvs(run, next, stat, records[1..], vg, dry);
          var lvs := SelectLvs(records[1..], vg);
          (r.result.Ok? <==> forall k :: 0 <= k < |lvs| ==> LvStepOk(run, next, stat, lvs, k, dry));
        assert SelectLvs(records, vg) == [lv] + tail;
        if !LvStepOk(run, base, stat, [lv] + tail, 0, dry) {
          assert FirstLvFailure(run, base, stat, [lv] + tail, 0, dry);
          assert StopsAt(r, run, base, stat, [lv] + tail, 0, dry);
        } else {
          assert r.trace == (if dry then [] else [LvExtend(lv)]) + rest.trace;
          assert r.result == (if rest.result.Fail? then rest.result else Ok([stat(lv).value] + rest.result.value));
          LvLoopStep(run, base, next, stat, lv, tail, dry, r, rest);
        }
      }
    }
  }

  /** Passing the `j`-th logical volume of the rest of the loop is passing
      the `j + 1`-th of the whole loop. */
  lemma LvStepShift(run: (nat, Command) -> Outcome, base: nat, stat: string -> Option<FileId>,
                    lv: string, tail: seq<string>, j: nat, dry: bool)
    requires j < |tail|
    ensures LvStepOk(run, base, stat, [lv] + tail, j + 1, dry)
      == LvStepOk(run, if dry then base else base + 1, stat, tail, j, dry)
  {
    assert ([lv] + tail)[j + 1] == tail[j];
  }

  /** The inductive step of ExtendLvsVerdicts past a logical volume that
      passes, for a loop `r` that continues as the loop `rest`. */
  lemma LvLoopStep(run: (nat, Command) -> Outcome, base: nat, next: nat, stat: string -> Option<FileId>,
                   lv: string, tail: seq<string>, dry: bool, r: Run<seq<FileId>>, rest: Run<seq<FileId>>)
    requires next == if dry then base else base + 1
    requires LvStepOk(run, base, stat, [lv] + tail, 0, dry)
    requires r.trace == (if dry then [] else [LvExtend(lv)]) + rest.trace
    requires r.result == (if rest.result.Fail? then rest.result else Ok([stat(lv).value] + rest.result.value))
    requires rest.result.Ok? <==> forall k :: 0 <= k < |tail| ==> LvStepOk(run, next, stat, tail, k, dry)
    requires rest.result.Fail? ==> exists k :: FirstLvFailure(run, next, stat, tail, k, dry) && StopsAt(rest, run, next, stat, tail, k, dry)
    ensures r.result.Ok? <==> forall k :: 0 <= k < |[lv] + tail| ==> LvStepOk(run, base, stat, [lv] + tail, k, dry)
    ensures r.result.Fail? ==> exists k :: FirstLvFailure(run, base, stat, [lv] + tail, k, dry) && StopsAt(r, run, base, stat, [lv] + tail, k, dry)
  {
    var lvs := [lv] + tail;
    forall j | 0 <= j < |tail|
      ensures LvStepOk(run, base, stat, lvs, j + 1, dry) == LvStepOk(run, next, stat, tail, j, dry)
    {
      LvStepShift(run, base, stat, lv, tail, j, dry);
    }
    if rest.result.Ok? {
      forall k | 0 <= k < |lvs| ensures LvStepOk(run, base, stat, lvs, k, dry) {
        if k > 0 {
          assert LvStepOk(run, next, stat, tail, k - 1, dry);
        }
      }
    } else {
      var k: nat :| FirstLvFailure(run, next, stat, tail, k, dry) && StopsAt(rest, run, next, stat, tail, k, dry);
      LvStopStep(run, base, next, stat, lv, tail, k, dry, r, rest);
    }
  }

  /** The failing half of LvLoopStep: the rest of the loop stopping at its
      `k`-th logical volume is the whole loop stopping at its `k + 1`-th. */
  lemma LvStopStep(run: (nat, Command) -> Outcome, base: nat, next: nat, stat: string -> Option<FileId>,
                   lv: string, tail: seq<string>, k: nat, dry: bool, r: Run<seq<FileId>>, rest: Run<seq<FileId>>)
    requires next == if dry then base else base + 1
    requires LvStepOk(run, base, stat, [lv] + tail, 0, dry)
    requires r.trace == (if dry then [] else [LvExtend(lv)]) + rest.trace
    requires rest.result.Fail? && r.result == rest.result
    requires FirstLvFailure(run, next, stat, tail, k, dry) && StopsAt(rest, run, next, stat, tail, k, dry)
    ensures FirstLvFailure(run, base, stat, [lv] + tail, k + 1, dry)
    ensures StopsAt(r, run, base, stat, [lv] + tail, k + 1, dry)
  {
    var lvs := [lv] + tail;
    LvStepShift(run, base, stat, lv, tail, k, dry);
    forall j | 0 <= j < k + 1 ensures LvStepOk(run, base, stat, lvs, j, dry) {
      if j > 0 {
        assert LvStepOk(run, next, stat, tail, j - 1, dry);
        LvStepShift(run, base, stat, lv, tail, j - 1, dry);
      }
    }
    LvStopTrace(run, base, next, stat, lv, tail, k, dry, r, rest);
  }

  /** The fault and trace half of LvStopStep. */
  lemma LvStopTrace(run: (nat, Command) -> Outcome, base: nat, next: nat, stat: string -> Option<FileId>,
                    lv: string, tail: seq<string>, k: nat, dry: bool, r: Run<seq<FileId>>, rest: Run<seq<FileId>>)
    requires next == if dry then base else base + 1
    requires r.trace == (if dry then [] else [LvExtend(lv)]) + rest.trace
    requires rest.result.Fail? && r.result == rest.result
    requires k < |tail| && !LvStepOk(run, next, stat, tail, k, dry) && StopsAt(rest, run, next, stat, tail, k, dry)
    ensures StopsAt(r, run, base, stat, [lv] + tail, k + 1, dry)
  {
    var lvs := [lv] + tail;
    assert lvs[k + 1] == tail[k];
    if !dry {
      assert base + (k + 1) == next + k;
      forall i | 1 <= i < |r.trace| ensures r.trace[i] == LvExtend(lvs[i]) {
        assert r.trace[i] == rest.trace[i - 1];
        assert lvs[i] == tail[i - 1];
      }
    }
  }

  /** A mount line enlargeFS considers: three fields or more, an absolute
      source. */
  predicate Considered(line: string) {
    |Fields(line)| >= 3 && HasPrefix(Fields(line)[0], "/")
  }

  /** The source, mount point and type of a considered mount line. */
  function MountOf(line: string): Mount
    requires Considered(line)
  {
    var f := Fields(line);
    Mount(f[0], f[1], f[2])
  }

  /** The mount lines enlargeFS keeps: those with at least three fields
      whose source is an absolute path naming a device in `ids`. Stat is
      applied to every absolute source, and its failure is fatal. */
  function SelectMounts(lines: seq<string>, stat: string -> Option<FileId>, ids: seq<FileId>): Result<seq<Mount>> {
    if |lines| == 0 then Ok([])
    else if !Considered(lines[0]) then SelectMounts(lines[1..], stat, ids)
    else
      var source := Fields(lines[0])[0];
      match stat(source)
      case None => Fail(StatFailed(source))
      case Some(id) =>
        var rest :- SelectMounts(lines[1..], stat, ids);
        if id in ids then Ok([MountOf(lines[0])] + rest) else Ok(rest)
  }

  /** A mount line whose source is one of the devices in `ids`. */
  predicate OnDevice(line: string, stat: string -> Option<FileId>, ids: seq<FileId>) {
    Considered(line) && stat(Fields(line)[0]).Some? && stat(Fields(line)[0]).value in ids
  }

  /** Every considered source among `lines` can be stat'ed. */
  predicate AllStat(lines: seq<string>, stat: string -> Option<FileId>) {
    forall i :: 0 <= i < |lines| && Considered(lines[i]) ==> stat(Fields(lines[i])[0]).Some?
  }

  /** A mount that some line on a device of `ids` describes. */
  predicate FromDeviceLine(lines: seq<string>, stat: string -> Option<FileId>, ids: seq<FileId>, m: Mount) {
    exists i :: 0 <= i < |lines| && OnDevice(lines[i], stat, ids) && m == MountOf(lines[i])
  }

  /** SelectMounts succeeds exactly when every considered source can be
      stat'ed; otherwise it names a source that cannot. */
  lemma {:induction false} SelectMountsOk(lines: seq<string>, stat: string -> Option<FileId>, ids: seq<FileId>)
    ensures SelectMounts(lines, stat, ids).Ok? <==> AllStat(lines, stat)
    ensures SelectMounts(lines, stat, ids).Fail? ==>
      exists i :: 0 <= i < |lines| && Considered(lines[i]) && stat(Fields(lines[i])[0]).None? &&
        SelectMounts(lines, stat, ids).fault == StatFailed(Fields(lines[i])[0])
  {
    if |lines| > 0 {
      var tail := lines[1..];
      SelectMountsOk(tail, stat, ids);
      assert forall i :: 1 <= i < |lines| ==> lines[i] == tail[i - 1];
      if SelectMounts(lines, stat, ids).Fail? && Considered(lines[0]) && stat(Fields(lines[0])[0]).Some? {
        var i :| 0 <= i < |tail| && Considered(tail[i]) && stat(Fields(tail[i])[0]).None? &&
          SelectMounts(tail, stat, ids).fault == StatFailed(Fields(tail[i])[0]);
        assert lines[i + 1] == tail[i];
      }
    }
  }

  /** Every mount SelectMounts keeps comes from a line on a device of
      `ids`. */
  lemma {:induction false} SelectMountsSound(lines: seq<string>, stat: string -> Option<FileId>, ids: seq<FileId>)
    ensures SelectMounts(lines, stat, ids).Ok? ==>
      forall k :: 0 <= k < |SelectMounts(lines, stat, ids).value| ==>
        FromDeviceLine(lines, stat, ids, SelectMounts(lines, stat, ids).value[k])
  {
    if |lines| > 0 && SelectMounts(lines, stat, ids).Ok? {
      SelectMountsOkStep(lines, stat, ids);
      SelectMountsSound(lines[1..], stat, ids);
      SoundStep(lines, stat, ids, SelectMounts(lines[1..], stat, ids).value);
    }
  }

  /** A mount described by a later line is described by the lines. */
  lemma FromDeviceLineTail(lines: seq<string>, stat: string -> Option<FileId>, ids: seq<FileId>, m: Mount)
    requires |lines| > 0 && FromDeviceLine(lines[1..], stat, ids, m)
    ensures FromDeviceLine(lines, stat, ids, m)
  {
    var i :| 0 <= i < |lines[1..]| && OnDevice(lines[1..][i], stat, ids) && m == MountOf(lines[1..][i]);
    assert lines[i + 1] == lines[1..][i];
  }

  /** The inductive step of SelectMountsSound, for the selection `rest`
      from the later lines. */
  lemma SoundStep(lines: seq<string>, stat: string -> Option<FileId>, ids: seq<FileId>, rest: seq<Mount>)
    requires |lines| > 0 && SelectMounts(lines, stat, ids).Ok?
    requires forall k :: 0 <= k < |rest| ==> FromDeviceLine(lines[1..], stat, ids, rest[k])
    requires OnDevice(lines[0], stat, ids) ==> SelectMounts(lines, stat, ids).value == [MountOf(lines[0])] + rest
    requires !OnDevice(lines[0], stat, ids) ==> SelectMounts(lines, stat, ids).value == rest
    ensures forall k :: 0 <= k < |SelectMounts(lines, stat, ids).value| ==>
      FromDeviceLine(lines, stat, ids, SelectMounts(lines, stat, ids).value[k])
  {
    var r := SelectMounts(lines, stat, ids).value;
    var d := if OnDevice(lines[0], stat, ids) then 1 else 0;
    forall k | 0 <= k < |r| ensures FromDeviceLine(lines, stat, ids, r[k]) {
      if k < d {
        assert OnDevice(lines[0], stat, ids) && r[k] == MountOf(lines[0]);
      } else {
        assert r[k] == rest[k - d];
        FromDeviceLineTail(lines, stat, ids, r[k]);
      }
    }
  }

  /** One step of a successful selection: the first line's mount, when it
      is on a device of `ids`, followed by the selection from the rest. */
  lemma SelectMountsOkStep(lines: seq<string>, stat: string -> Option<FileId>, ids: seq<FileId>)
    requires |lines| > 0 && SelectMounts(lines, stat, ids).Ok?
    ensures SelectMounts(lines[1..], stat, ids).Ok?
    ensures OnDevice(lines[0], stat, ids) ==>
      SelectMounts(lines, stat, ids).value == [MountOf(lines[0])] + SelectMounts(lines[1..], stat, ids).value
    ensures !OnDevice(lines[0], stat, ids) ==>
      SelectMounts(lines, stat, ids).value == SelectMounts(lines[1..], stat, ids).value
  {
  }

  /** Every line on a device of `ids` contributes its mount. */
  lemma {:induction false} SelectMountsComplete(lines: seq<string>, stat: string -> Option<FileId>, ids: seq<FileId>)
    ensures SelectMounts(lines, stat, ids).Ok? ==>
      forall i :: 0 <= i < |lines| && OnDevice(lines[i], stat, ids) ==>
        MountOf(lines[i]) in SelectMounts(lines, stat, ids).value
  {
    if |lines| > 0 {
      var tail := lines[1..];
      SelectMountsComplete(tail, stat, ids);
      var r := SelectMounts(lines, stat, ids);
      if r.Ok? {
        var rest := SelectMounts(tail, stat, ids);
        assert rest.Ok?;
        assert forall x :: x in rest.value ==> x in r.value;
        forall i | 1 <= i < |lines| && OnDevice(lines[i], stat, ids) ensures MountOf(lines[i]) in r.value {
          assert lines[i] == tail[i - 1];
        }
      }
    }
  }

  /** The mounts of the lines on a device of `ids`, one per line and in
      line order, stacked mounts of one device included. */
  function OnDeviceMounts(lines: seq<string>, stat: string -> Option<FileId>, ids: seq<FileId>): seq<Mount> {
    if |lines| == 0 then []
    else (if OnDevice(lines[0], stat, ids) then [MountOf(lines[0])] else []) + OnDeviceMounts(lines[1..], stat, ids)
  }

  /** A successful selection is exactly the mounts of the lines on the
      devices, with their count and order: a line mounted twice is
      selected twice. */
  lemma {:induction false} SelectMountsIsFilter(lines: seq<string>, stat: string -> Option<FileId>, ids: seq<FileId>)
    ensures SelectMounts(lines, stat, ids).Ok? ==> SelectMounts(lines, stat, ids).value == OnDeviceMounts(lines, stat, ids)
  {
    if |lines| > 0 && SelectMounts(lines, stat, ids).Ok? {
      SelectMountsOkStep(lines, stat, ids);
      SelectMountsIsFilter(lines[1..], stat, ids);
    }
  }

  /** A line on the devices contributes at least one mount. */
  lemma {:induction false} OnDeviceMountsHas(lines: seq<string>, stat: string -> Option<FileId>, ids: seq<FileId>, i: nat)
    requires i < |lines| && OnDevice(lines[i], stat, ids)
    ensures |OnDeviceMounts(lines, stat, ids)| >= 1
  {
    if i > 0 {
      OnDeviceMountsHas(lines[1..], stat, ids, i - 1);
    }
  }

  /** Two lines on the devices, such as two mounts of the same filesystem,
      contribute at least two mounts. */
  lemma {:induction false} OnDeviceMountsTwo(lines: seq<string>, stat: string -> Option<FileId>, ids: seq<FileId>, i: nat, j: nat)
    requires i < j < |lines| && OnDevice(lines[i], stat, ids) && OnDevice(lines[j], stat, ids)
    ensures |OnDeviceMounts(lines, stat, ids)| >= 2
  {
    if i > 0 {
      OnDeviceMountsTwo(lines[1..], stat, ids, i - 1, j - 1);
    } else {
      OnDeviceMountsHas(lines[1..], stat, ids, j - 1);
    }
  }

  /** The command that grows a filesystem of the given type, or a fatal
      error for a type enlargeFS does not know. */
  function GrowCommand(m: Mount): (r: Result<Command>)
    ensures r.Ok? <==> m.fstype in {"ext2", "ext3", "ext4", "xfs", "btrfs"}
    ensures r.Ok? ==> IsFilesystemGrow(r.value)
    ensures m.fstype in {"ext2", "ext3", "ext4"} ==> r == Ok(Resize2fs(m.dev))
    ensures m.fstype == "xfs" ==> r == Ok(XfsGrowfs(m.mount))
    ensures m.fstype == "btrfs" ==> r == Ok(BtrfsResize(m.mount))
    ensures r.Fail? ==> r.fault == UnknownFilesystemType(m.fstype)
  {
    match m.fstype
    case "ext2" => Ok(Resize2fs(m.dev))
    case "ext3" => Ok(Resize2fs(m.dev))
    case "ext4" => Ok(Resize2fs(m.dev))
    case "xfs" => Ok(XfsGrowfs(m.mount))
    case "btrfs" => Ok(BtrfsResize(m.mount))
    case _ => Fail(UnknownFilesystemType(m.fstype))
  }

  /** The text by which the grow programs report that there was nothing to
      grow; enlargeFS only uses it to shorten what it prints. */
  const NothingToDo: string := "Nothing to do!"

  /** How enlargeFS takes the grow program's outcome: any failure is fatal,
      whatever the program printed. */
  function GrowVerdict(c: Command, o: Outcome): (r: Result<()>)
    ensures r.Ok? <==> o.success
    ensures r.Fail? ==> r.fault == ToolFailed(c, "")
  {
    if o.success then Ok(()) else Fail(ToolFailed(c, ""))
  }

  /** Reporting "nothing to do" does not rescue a failed grow. */
  lemma NothingToDoStillFails(c: Command, o: Outcome)
    requires !o.success && Contains(o.stdout, NothingToDo)
    ensures GrowVerdict(c, o).Fail?
  {
  }

  /** The step after the mounts are known: no filesystem on the devices is
      nothing to do, more than one is fatal, exactly one is grown (unless
      this is a dry run) with the command for its type. */
  function GrowFilesystem(run: (nat, Command) -> Outcome, base: nat, ms: seq<Mount>, dry: bool): Run<()> {
    if |ms| == 0 then Run([], Ok(()))
    else if |ms| > 1 then Run([], Fail(SeveralFilesystems(|ms|)))
    else match GrowCommand(ms[0])
      case Fail(f) => Run([], Fail(f))
      case Ok(c) =>
        if dry then Run([], Ok(()))
        else Run([c], GrowVerdict(c, run(base, c)))
  }

  /** A grow command is started only for exactly one filesystem on the
      devices, outside a dry run, and it is the command for that
      filesystem's type. */
  lemma GrowFilesystemSpec(run: (nat, Command) -> Outcome, base: nat, ms: seq<Mount>, dry: bool)
    ensures var r := GrowFilesystem(run, base, ms, dry);
      && |r.trace| <= 1
      && (|r.trace| == 1 <==> !dry && |ms| == 1 && GrowCommand(ms[0]).Ok?)
      && (|r.trace| == 1 ==> r.trace[0] == GrowCommand(ms[0]).value)
      && (|ms| > 1 ==> r.result == Fail(SeveralFilesystems(|ms|)))
      && (|ms| == 0 ==> r.result == Ok(()))
      && (|ms| == 1 && GrowCommand(ms[0]).Fail? ==> r.result == Fail(UnknownFilesystemType(ms[0].fstype)))
      && (|ms| == 1 && dry && GrowCommand(ms[0]).Ok? ==> r.result == Ok(()))
      && (|r.trace| == 1 ==>
            && (r.result.Ok? <==> run(base, r.trace[0]).success)
            && (r.result.Fail? ==> r.result.fault == ToolFailed(r.trace[0], "")))
  {
  }

  /** The device set of enlargeFS, from `base` earlier commands on: the
      identity of `partDev`, then, for a volume group, the `lvdisplay -c`
      listing and the LV loop over it. */
  function DeviceSet(run: (nat, Command) -> Outcome, base: nat, stat: string -> Option<FileId>,
                     partDev: string, vg: string, dry: bool): Run<seq<FileId>>
  {
    match stat(partDev)
    case None => Run([], Fail(StatFailed(partDev)))
    case Some(partId) =>
      if vg == "" then Run([], Ok([partId]))
      else
        var listing := run(base, LvDisplay);
        if !listing.success then Run([LvDisplay], Fail(ToolFailed(LvDisplay, listing.stderr)))
        else
          var ext := ExtendLvs(run, base + 1, stat, Records(listing.stdout), vg, dry);
          Run([LvDisplay] + ext.trace, if ext.result.Fail? then Fail(ext.result.fault) else Ok([partId] + ext.result.value))
  }

  /** The device set holds the grown partition first and then exactly the
      logical volumes of the volume group, in listing order; without a
      volume group nothing is listed or extended. */
  lemma DeviceSetSpec(run: (nat, Command) -> Outcome, base: nat, stat: string -> Option<FileId>,
                      partDev: string, vg: string, dry: bool)
    requires DeviceSet(run, base, stat, partDev, vg, dry).result.Ok?
    ensures var r := DeviceSet(run, base, stat, partDev, vg, dry);
      && stat(partDev).Some?
      && |r.result.value| >= 1 && r.result.value[0] == stat(partDev).value
      && (vg == "" ==> r.trace == [] && r.result.value == [stat(partDev).value])
      && (vg != "" ==>
            var lvs := SelectLvs(Records(run(base, LvDisplay).stdout), vg);
            && |r.result.value| == 1 + |lvs|
            && (forall k :: 0 <= k < |lvs| ==> stat(lvs[k]) == Some(r.result.value[k + 1]))
            && r.trace[0] == LvDisplay
            && (!dry ==> |r.trace| == 1 + |lvs| && forall k :: 0 <= k < |lvs| ==> r.trace[k + 1] == LvExtend(lvs[k])))
  {
    if vg != "" {
      var records := Records(run(base, LvDisplay).stdout);
      var ext := ExtendLvs(run, base + 1, stat, records, vg, dry);
      ExtendLvsComplete(run, base + 1, stat, records, vg, dry);
      DevicesAfterListing(stat, stat(partDev).value, ext.trace, ext.result.value, SelectLvs(records, vg), dry);
    }
  }

  /** The listing and the partition's identity put in front of the LV
      loop's trace and identities shift its correspondence with the
      logical volumes by one. */
  lemma DevicesAfterListing(stat: string -> Option<FileId>, partId: FileId, trace: seq<Command>,
                            ids: seq<FileId>, lvs: seq<string>, dry: bool)
    requires |ids| == |lvs| && forall k :: 0 <= k < |lvs| ==> stat(lvs[k]) == Some(ids[k])
    requires !dry ==> |trace| == |lvs| && forall k :: 0 <= k < |lvs| ==> trace[k] == LvExtend(lvs[k])
    ensures var t, v := [LvDisplay] + trace, [partId] + ids;
      && |v| == 1 + |lvs| && v[0] == partId
      && (forall k :: 0 <= k < |lvs| ==> stat(lvs[k]) == Some(v[k + 1]))
      && t[0] == LvDisplay
      && (!dry ==> |t| == 1 + |lvs| && forall k :: 0 <= k < |lvs| ==> t[k + 1] == LvExtend(lvs[k]))
  {
  }

  /** How the device set fails: an unknown partition device is fatal
      before any command; with a volume group, a failed `lvdisplay -c` is
      fatal with its standard error and nothing after it runs; after a
      listing, the set is obtained exactly when every logical volume of
      the group stats and no `lvextend` is fatal. */
  lemma DeviceSetFailures(run: (nat, Command) -> Outcome, base: nat, stat: string -> Option<FileId>,
                          partDev: string, vg: string, dry: bool)
    ensures var r := DeviceSet(run, base, stat, partDev, vg, dry);
      var listing := run(base, LvDisplay);
      && (stat(partDev).None? ==> r == Run([], Fail(StatFailed(partDev))))
      && (stat(partDev).Some? && vg != "" && !listing.success ==>
            r == Run([LvDisplay], Fail(ToolFailed(LvDisplay, listing.stderr))))
      && (stat(partDev).Some? && vg != "" && listing.success ==>
            var lvs := SelectLvs(Records(listing.stdout), vg);
            (r.result.Ok? <==> AllLvStepsOk(run, base + 1, stat, lvs, dry)))
  {
    if stat(partDev).Some? && vg != "" && run(base, LvDisplay).success {
      ExtendLvsVerdicts(run, base + 1, stat, Records(run(base, LvDisplay).stdout), vg, dry);
    }
  }

  /** enlargeFS, from `base` earlier commands on: the device set, then the
      mount table text `mounts`, then the grow step. */
  function EnlargeFs(run: (nat, Command) -> Outcome, base: nat, stat: string -> Option<FileId>,
                     mounts: string, partDev: string, vg: string, dry: bool): Run<()>
  {
    var devs := DeviceSet(run, base, stat, partDev, vg, dry);
    if devs.result.Fail? then Run(devs.trace, Fail(devs.result.fault))
    else match SelectMounts(Split(mounts, '\n'), stat, devs.result.value)
      case Fail(f) => Run(devs.trace, Fail(f))
      case Ok(ms) =>
        var grow := GrowFilesystem(run, base + |devs.trace|, ms, dry);
        Run(devs.trace + grow.trace, grow.result)
  }

  /** A filesystem is grown only when exactly one mounted filesystem lies
      on the device set, and with the command for its type; the grow
      command is the last command enlargeFS starts. */
  lemma EnlargeFsGrowsOne(run: (nat, Command) -> Outcome, base: nat, stat: string -> Option<FileId>,
                          mounts: string, partDev: string, vg: string, dry: bool, i: nat)
    requires var r := EnlargeFs(run, base, stat, mounts, partDev, vg, dry);
      i < |r.trace| && IsFilesystemGrow(r.trace[i])
    ensures var r := EnlargeFs(run, base, stat, mounts, partDev, vg, dry);
      var devs := DeviceSet(run, base, stat, partDev, vg, dry);
      && !dry
      && i == |r.trace| - 1
      && devs.result.Ok?
      && SelectMounts(Split(mounts, '\n'), stat, devs.result.value).Ok?
      && |SelectMounts(Split(mounts, '\n'), stat, devs.result.value).value| == 1
      && GrowCommand(SelectMounts(Split(mounts, '\n'), stat, devs.result.value).value[0]) == Ok(r.trace[i])
  {
    var r := EnlargeFs(run, base, stat, mounts, partDev, vg, dry);
    var devs := DeviceSet(run, base, stat, partDev, vg, dry);
    EnlargeFsShape(run, base, stat, mounts, partDev, vg, dry);
    var ms := SelectMounts(Split(mounts, '\n'), stat, devs.result.value).value;
    GrowFilesystemSpec(run, base + |devs.trace|, ms, dry);
  }

  /** The commands enlargeFS starts: the volume listing first, when there
      is one, then only `lvextend`s, and at most one grow command, last,
      which only a run that got past the device set and the mounts
      reaches. A dry run starts the listing at most. */
  lemma EnlargeFsShape(run: (nat, Command) -> Outcome, base: nat, stat: string -> Option<FileId>,
                       mounts: string, partDev: string, vg: string, dry: bool)
    ensures var r := EnlargeFs(run, base, stat, mounts, partDev, vg, dry);
      var devs := DeviceSet(run, base, stat, partDev, vg, dry);
      && r.trace[..|devs.trace|] == devs.trace
      && |r.trace| <= |devs.trace| + 1
      && (forall k :: 0 <= k < |devs.trace| ==> (k == 0 <==> devs.trace[k] == LvDisplay) && (k > 0 <==> devs.trace[k].LvExtend?))
      && (|r.trace| > |devs.trace| ==>
            && devs.result.Ok?
            && SelectMounts(Split(mounts, '\n'), stat, devs.result.value).Ok?
            && var ms := SelectMounts(Split(mounts, '\n'), stat, devs.result.value).value;
            && r.trace[|devs.trace|..] == GrowFilesystem(run, base + |devs.trace|, ms, dry).trace
            && IsFilesystemGrow(r.trace[|r.trace| - 1]))
      && (dry ==> |r.trace| <= 1 && forall k :: 0 <= k < |r.trace| ==> r.trace[k] == LvDisplay)
  {
    var devs := DeviceSet(run, base, stat, partDev, vg, dry);
    if devs.result.Ok? && SelectMounts(Split(mounts, '\n'), stat, devs.result.value).Ok? {
      var ms := SelectMounts(Split(mounts, '\n'), stat, devs.result.value).value;
      GrowFilesystemSpec(run, base + |devs.trace|, ms, dry);
    }
  }

  /** Two mount lines on the device set, for instance one filesystem
      mounted at two places, make enlargeFS fail before it starts any grow
      command, naming the number of mounts found. */
  lemma EnlargeFsStacked(run: (nat, Command) -> Outcome, base: nat, stat: string -> Option<FileId>,
                         mounts: string, partDev: string, vg: string, dry: bool, i: nat, j: nat)
    requires DeviceSet(run, base, stat, partDev, vg, dry).result.Ok?
    requires AllStat(Split(mounts, '\n'), stat)
    requires var lines, ids := Split(mounts, '\n'), DeviceSet(run, base, stat, partDev, vg, dry).result.value;
      i < j < |lines| && OnDevice(lines[i], stat, ids) && OnDevice(lines[j], stat, ids)
    ensures var r := EnlargeFs(run, base, stat, mounts, partDev, vg, dry);
      var devs := DeviceSet(run, base, stat, partDev, vg, dry);
      var n := |OnDeviceMounts(Split(mounts, '\n'), stat, devs.result.value)|;
      && n >= 2
      && r.result == Fail(SeveralFilesystems(n))
      && r.trace == devs.trace
  {
    var lines, ids := Split(mounts, '\n'), DeviceSet(run, base, stat, partDev, vg, dry).result.value;
    SelectMountsOk(lines, stat, ids);
    SelectMountsIsFilter(lines, stat, ids);
    OnDeviceMountsTwo(lines, stat, ids, i, j);
  }

  /** With exactly one mounted filesystem on the device set, enlargeFS
      ends as its grow step does: an unknown type is fatal even in a dry
      run, a dry run of a known type succeeds without a grow command, and
      otherwise the grow command runs last and its exit status decides. */
  lemma EnlargeFsOneMount(run: (nat, Command) -> Outcome, base: nat, stat: string -> Option<FileId>,
                          mounts: string, partDev: string, vg: string, dry: bool)
    requires DeviceSet(run, base, stat, partDev, vg, dry).result.Ok?
    requires var ms := SelectMounts(Split(mounts, '\n'), stat, DeviceSet(run, base, stat, partDev, vg, dry).result.value);
      ms.Ok? && |ms.value| == 1
    ensures var r := EnlargeFs(run, base, stat, mounts, partDev, vg, dry);
      var devs := DeviceSet(run, base, stat, partDev, vg, dry);
      var m := SelectMounts(Split(mounts, '\n'), stat, devs.result.value).value[0];
      && (GrowCommand(m).Fail? ==> r.result == Fail(UnknownFilesystemType(m.fstype)) && r.trace == devs.trace)
      && (GrowCommand(m).Ok? && dry ==> r.result == Ok(()) && r.trace == devs.trace)
      && (GrowCommand(m).Ok? && !dry ==>
            && r.trace == devs.trace + [GrowCommand(m).value]
            && (r.result.Ok? <==> run(base + |devs.trace|, GrowCommand(m).value).success))
  {
    var devs := DeviceSet(run, base, stat, partDev, vg, dry);
    var ms := SelectMounts(Split(mounts, '\n'), stat, devs.result.value).value;
    GrowFilesystemSpec(run, base + |devs.trace|, ms, dry);
  }

  /** enlargeFS stops at a fatal step: when the device set or the mount
      table cannot be obtained it fails with that fault, and starts nothing
      after the device set's own commands. */
  lemma EnlargeFsStops(run: (nat, Command) -> Outcome, base: nat, stat: string -> Option<FileId>,
                       mounts: string, partDev: string, vg: string, dry: bool)
    ensures var r := EnlargeFs(run, base, stat, mounts, partDev, vg, dry);
      var devs := DeviceSet(run, base, stat, partDev, vg, dry);
      && (devs.result.Fail? ==> r == Run(devs.trace, Fail(devs.result.fault)))
      && (devs.result.Ok? && SelectMounts(Split(mounts, '\n'), stat, devs.result.value).Fail? ==>
            r == Run(devs.trace, Fail(SelectMounts(Split(mounts, '\n'), stat, devs.result.value).fault)))
  {
  }
}

=== FILE: lvm.dfy ===
/** The LVM layer: the colon-separated records of `pvdisplay -c` and
    `lvdisplay -c`, the physical volume on the grown partition and its
    volume group (enlargeLVM), the logical volumes of that group, and which
    `lvextend` failures are harmless. */
module Lvm {
  import opened Text
  import opened Results
  import opened Commands
  import opened Devices

  /** The records of a `-c` listing: every line, trimmed, split at `:`. */
  function Records(text: string): seq<seq<string>> {
    var lines := Split(text, '\n');
    seq(|lines|, i requires 0 <= i < |lines| => Split(Trim(lines[i]), ':'))
  }

  /** Each record holds the fields of one trimmed line: joined with `:`
      they give the line back, and no field holds a `:` or a line break. */
  lemma RecordsRejoin(text: string)
    ensures |Records(text)| == |Split(text, '\n')|
    ensures forall i :: 0 <= i < |Records(text)| ==>
      Join(Records(text)[i], [':']) == Trim(Split(text, '\n')[i])
    ensures forall i, j :: 0 <= i < |Records(text)| && 0 <= j < |Records(text)[i]| ==>
      ':' !in Records(text)[i][j] && '\n' !in Records(text)[i][j]
  {
    var lines := Split(text, '\n');
    forall i | 0 <= i < |lines|
      ensures Join(Records(text)[i], [':']) == Trim(lines[i])
      ensures forall j :: 0 <= j < |Records(text)[i]| ==> '\n' !in Records(text)[i][j]
    {
      JoinSplit(Trim(lines[i]), ':');
      TrimKeepsAbsence(lines[i], '\n');
      SplitKeepsAbsence(Trim(lines[i]), ':', '\n');
    }
  }

  // ---------------------------------------------------------------------
  // Physical volumes
  // ---------------------------------------------------------------------

  /** A `pvdisplay -c` record for the physical volume `partDev`: its first
      field is the device, its second the volume group. */
  predicate IsPvRecord(f: seq<string>, partDev: string) {
    |f| >= 2 && f[0] == partDev
  }

  /** The volume group of the first record for `partDev`, if any. */
  function FindVg(records: seq<seq<string>>, partDev: string): Option<string> {
    if |records| == 0 then None
    else if IsPvRecord(records[0], partDev) then Some(records[0][1])
    else FindVg(records[1..], partDev)
  }

  /** No volume group is found exactly when no record is for `partDev`. */
  lemma {:induction false} FindVgNone(records: seq<seq<string>>, partDev: string)
    ensures FindVg(records, partDev).None? <==>
      forall i :: 0 <= i < |records| ==> !IsPvRecord(records[i], partDev)
  {
    if |records| > 0 {
      FindVgNone(records[1..], partDev);
      assert forall i :: 1 <= i < |records| ==> records[i] == records[1..][i - 1];
    }
  }

  /** The volume group found is that of the first record for `partDev`;
      later records for the same device are not looked at. */
  lemma {:induction false} FindVgFirst(records: seq<seq<string>>, partDev: string, i: nat)
    requires i < |records| && IsPvRecord(records[i], partDev)
    requires forall j :: 0 <= j < i ==> !IsPvRecord(records[j], partDev)
    ensures FindVg(records, partDev) == Some(records[i][1])
  {
    if i > 0 {
      assert !IsPvRecord(records[0], partDev);
      assert forall j :: 0 <= j < i - 1 ==> records[1..][j] == records[j + 1];
      FindVgFirst(records[1..], partDev, i - 1);
    }
  }

  /** enlargeLVM, from `base` earlier commands on. Without device-mapper
      devices under /sys/block there is no LVM to grow. Otherwise the
      physical volumes are listed; the one on `partDev` names the volume
      group, and, unless this is a dry run, is resized. The group is
      reported even in a dry run; "" means none. */
  function EnlargeLvm(run: (nat, Command) -> Outcome, base: nat, blockNames: seq<string>,
                      partDev: string, dry: bool): Run<string>
  {
    if !AnyDeviceMapperDevs(blockNames) then Run([], Ok(""))
    else
      var listing := run(base, PvDisplay);
      if !listing.success then Run([PvDisplay], Fail(ToolFailed(PvDisplay, "")))
      else match FindVg(Records(listing.stdout), partDev)
        case None => Run([PvDisplay], Ok(""))
        case Some(vg) =>
          if dry then Run([PvDisplay], Ok(vg))
          else
            var resize := run(base + 1, PvResize(partDev));
            if !resize.success then Run([PvDisplay, PvResize(partDev)], Fail(ToolFailed(PvResize(partDev), resize.stderr)))
            else Run([PvDisplay, PvResize(partDev)], Ok(vg))
  }

  /** What enlargeLVM does, case by case: nothing without device-mapper
      devices; one listing; a resize only of the physical volume on
      `partDev`, only outside a dry run and only when the listing has a
      record for it; the reported group is that record's. */
  lemma EnlargeLvmSpec(run: (nat, Command) -> Outcome, base: nat, blockNames: seq<string>,
                       partDev: string, dry: bool)
    ensures var r := EnlargeLvm(run, base, blockNames, partDev, dry);
      var listing := run(base, PvDisplay);
      var found := FindVg(Records(listing.stdout), partDev);
      && (!AnyDeviceMapperDevs(blockNames) <==> r.trace == [])
      && (!AnyDeviceMapperDevs(blockNames) ==> r.result == Ok(""))
      && (AnyDeviceMapperDevs(blockNames) ==> r.trace[0] == PvDisplay)
      && (r.trace == [PvDisplay, PvResize(partDev)] <==>
            AnyDeviceMapperDevs(blockNames) && listing.success && found.Some? && !dry)
      && (r.result.Ok? && r.result.value != "" ==> found == Some(r.result.value))
      && (r.result.Ok? && AnyDeviceMapperDevs(blockNames) ==> found == Some(r.result.value) || (found.None? && r.result.value == ""))
      && r.trace in {[], [PvDisplay], [PvDisplay, PvResize(partDev)]}
      && (dry ==> |r.trace| <= 1)
      && (AnyDeviceMapperDevs(blockNames) && !listing.success ==> r.result == Fail(ToolFailed(PvDisplay, "")))
      && (AnyDeviceMapperDevs(blockNames) && listing.success && (dry || found.None?) ==>
            r.result == Ok(if found.Some? then found.value else ""))
      && (r.trace == [PvDisplay, PvResize(partDev)] ==>
            var resize := run(base + 1, PvResize(partDev));
            && (r.result.Ok? <==> resize.success)
            && (r.result.Ok? ==> r.result.value == found.value)
            && (r.result.Fail? ==> r.result.fault == ToolFailed(PvResize(partDev), resize.stderr)))
  {
  }

  // ---------------------------------------------------------------------
  // Logical volumes
  // ---------------------------------------------------------------------

  /** An `lvdisplay -c` record of a logical volume in group `vg`: its first
      field is the device, its second the group. */
  predicate IsLvRecord(f: seq<string>, vg: string) {
    |f| >= 2 && f[1] == vg
  }

  /** The devices of the logical volumes of `vg`, in listing order. */
  function SelectLvs(records: seq<seq<string>>, vg: string): seq<string> {
    if |records| == 0 then []
    else if IsLvRecord(records[0], vg) then [records[0][0]] + SelectLvs(records[1..], vg)
    else SelectLvs(records[1..], vg)
  }

  /** A device some record of `vg` names in its first field. */
  predicate NamedByLvRecord(records: seq<seq<string>>, vg: string, lv: string) {
    exists i :: 0 <= i < |records| && IsLvRecord(records[i], vg) && records[i][0] == lv
  }

  /** SelectLvs yields at most one device per record, and only devices
      that a record of `vg` names. */
  lemma {:induction false} SelectLvsSound(records: seq<seq<string>>, vg: string)
    ensures |SelectLvs(records, vg)| <= |records|
    ensures forall k :: 0 <= k < |SelectLvs(records, vg)| ==> NamedByLvRecord(records, vg, SelectLvs(records, vg)[k])
  {
    if |records| > 0 {
      var tail := records[1..];
      var rest := SelectLvs(tail, vg);
      SelectLvsSound(tail, vg);
      forall lv | NamedByLvRecord(tail, vg, lv) ensures NamedByLvRecord(records, vg, lv) {
        var i :| 0 <= i < |tail| && IsLvRecord(tail[i], vg) && tail[i][0] == lv;
        assert records[i + 1] == tail[i];
      }
      if IsLvRecord(records[0], vg) {
        var r := SelectLvs(records, vg);
        assert r == [records[0][0]] + rest;
        assert NamedByLvRecord(records, vg, r[0]);
        forall k | 1 <= k < |r| ensures NamedByLvRecord(records, vg, r[k]) {
          assert r[k] == rest[k - 1];
        }
      } else {
        assert SelectLvs(records, vg) == rest;
      }
    }
  }

  /** Every record of `vg` contributes its device to SelectLvs. */
  lemma {:induction false} SelectLvsComplete(records: seq<seq<string>>, vg: string)
    ensures forall i :: 0 <= i < |records| && IsLvRecord(records[i], vg) ==> records[i][0] in SelectLvs(records, vg)
  {
    if |records| > 0 {
      var tail := records[1..];
      SelectLvsComplete(tail, vg);
      forall i | 1 <= i < |records| && IsLvRecord(records[i], vg) ensures records[i][0] in SelectLvs(records, vg) {
        assert records[i] == tail[i - 1];
      }
    }
  }

  /** The stderr text by which `lvextend` says the volume is already as
      large as it can be. */
  const AlreadyMaxSize: string := "matches existing size"

  /** How enlargeFS takes the outcome of `lvextend` on `lv`: success, or a
      failure that only says the volume already has its full size, lets the
      program go on; any other failure is fatal. */
  function LvExtendVerdict(lv: string, o: Outcome): (r: Result<()>)
    ensures r.Ok? <==> o.success || Contains(o.stderr, AlreadyMaxSize)
    ensures r.Fail? ==> r.fault == ToolFailed(LvExtend(lv), o.stderr)
  {
    if o.success || Contains(o.stderr, AlreadyMaxSize) then Ok(())
    else Fail(ToolFailed(LvExtend(lv), o.stderr))
  }
}

=== FILE: numbers.dfy ===
/** Go's int64: two's-complement wrap-around, strconv.ParseInt(s, 10, 64)
    and fmt's `%d`. */
module Numbers {
  import opened Results

  const MinInt64: int := -0x8000_0000_0000_0000
  const MaxInt64: int := 0x7FFF_FFFF_FFFF_FFFF
  const TwoTo64: int := 0x1_0000_0000_0000_0000

  type Int64 = x: int | MinInt64 <= x <= MaxInt64

  /** The int64 that Go's wrapping arithmetic yields for the exact value `x`. */
  function Wrap64(x: int): (r: Int64)
    ensures (r - x) % TwoTo64 == 0
    ensures MinInt64 <= x <= MaxInt64 ==> r == x
  {
    (x - MinInt64) % TwoTo64 + MinInt64
  }

  predicate IsDigit(c: char) {
    '0' <= c <= '9'
  }

  predicate AllDigits(s: string) {
    forall i :: 0 <= i < |s| ==> IsDigit(s[i])
  }

  /** The value of a string of decimal digits (leading zeros allowed). */
  function DigitsValue(s: string): nat
    requires AllDigits(s)
  {
    if |s| == 0 then 0
    else DigitsValue(s[..|s| - 1]) * 10 + (s[|s| - 1] as int - '0' as int)
  }

  /** The decimal digits of `n`, without leading zeros. */
  function NatText(n: nat): (r: string)
    ensures |r| > 0 && AllDigits(r)
    ensures DigitsValue(r) == n
  {
    var d := [('0' as int + n % 10) as char];
    if n < 10 then
      assert d[..0] == [];
      d
    else
      var r := NatText(n / 10) + d;
      assert r[..|r| - 1] == NatText(n / 10);
      r
  }

  /** fmt.Sprintf("%d", n). */
  function FormatInt(n: int): string {
    if n < 0 then "-" + NatText(-n) else NatText(n)
  }

  /** strconv.ParseInt(s, 10, 64): an optional sign, then one or more
      decimal digits, and a value that fits in an int64. */
  function ParseInt64(s: string): (r: Option<Int64>)
    ensures r.Some? ==> |s| > 0
    ensures |s| > 0 && !IsDigit(s[0]) && s[0] != '+' && s[0] != '-' ==> r.None?
  {
    var negative := |s| > 0 && s[0] == '-';
    var digits := if |s| > 0 && (s[0] == '-' || s[0] == '+') then s[1..] else s;
    if |digits| == 0 || !AllDigits(digits) then None
    else
      var magnitude: int := DigitsValue(digits);
      var v := if negative then -magnitude else magnitude;
      if MinInt64 <= v <= MaxInt64 then Some(v) else None
  }

  /** strconv.ParseInt reads back what `%d` prints, for every int64. */
  lemma ParseFormat(n: Int64)
    ensures ParseInt64(FormatInt(n)) == Some(n)
  {
    if n < 0 {
      var m: int := n; assert ("-" + NatText(-m))[1..] == NatText(-m);
    }
  }

  /** What `%d` prints holds only digits and a leading minus sign. */
  lemma FormatIntChars(n: int)
    ensures |FormatInt(n)| > 0
    ensures forall i :: 0 <= i < |FormatInt(n)| ==> IsDigit(FormatInt(n)[i]) || (i == 0 && FormatInt(n)[i] == '-')
    ensures IsDigit(FormatInt(n)[|FormatInt(n)| - 1])
  {
  }
}

=== FILE: partition.dfy ===
/** enlargePartition's decision: which partition may grow, by how much, and
    the partition table to hand to `sfdisk -f`. Reading the dump and the
    disk size, printing and running sfdisk and partprobe are left to the
    pipeline; this module is the pure step between them. */
module Partition {
  import opened Text
  import opened Results
  import opened Numbers
  import opened Sfdisk
  import opened SfdiskEdit
  import opened SfdiskRoundTrip
  import opened Devices

  /** GPT type GUID of an LVM physical volume. */
  const LvmGptType: string := "E6D6D379-F507-44C2-A23C-238F2A3DF928"
  /** GPT type GUID of an x86-64 root partition. */
  const RootX8664GptType: string := "4F68BCE3-E8CD-4DB1-96E7-FBCAF984B709"
  /** MBR type code of a Linux native partition. */
  const LinuxMbrType: string := "83"

  /** The sector size the arithmetic assumes. */
  const SectorSize: int := 512
  /** Sectors left free at the end of the disk: 1 MiB. */
  const EndReserve: int := 0x10_0000 / SectorSize

  /** The disk size file the source reads, whatever the disk. */
  const SizeFile: string := "/sys/block/sda/size"

  datatype Label = Dos | Gpt

  /** The partition table kind named by the `label` header. */
  function LabelOf(t: Table): (r: Result<Label>)
    ensures r == Ok(Dos) <==> Meta(t.meta, "label") == "dos"
    ensures r == Ok(Gpt) <==> Meta(t.meta, "label") == "gpt"
    ensures r.Fail? <==> Meta(t.meta, "label") != "dos" && Meta(t.meta, "label") != "gpt"
    ensures r.Fail? ==> r.fault == UnsupportedLabel(Meta(t.meta, "label"))
  {
    var l := Meta(t.meta, "label");
    if l == "dos" then Ok(Dos)
    else if l == "gpt" then Ok(Gpt)
    else Fail(UnsupportedLabel(l))
  }

  /** The partition types that may be grown under each table kind. */
  predicate TypeAllowed(l: Label, partType: string) {
    match l
    case Gpt => partType == LvmGptType || partType == RootX8664GptType
    case Dos => partType == LinuxMbrType
  }

  /** The checks before any arithmetic: the table has a partition, a known
      label, and a last partition of an allowed type. Yields that last
      partition. */
  function LastGrowable(t: Table, dev: string): (r: Result<Entry>)
    ensures r.Ok? <==>
      && |t.parts| > 0
      && LabelOf(t).Ok?
      && TypeAllowed(LabelOf(t).value, Type(t.parts[|t.parts| - 1]))
    ensures r.Ok? ==> r.value == t.parts[|t.parts| - 1]
    ensures |t.parts| == 0 ==> r == Fail(NoPartitions(dev))
    ensures |t.parts| > 0 && LabelOf(t).Fail? ==> r == Fail(LabelOf(t).fault)
    ensures (|t.parts| > 0 && LabelOf(t) == Ok(Gpt) && !TypeAllowed(Gpt, Type(t.parts[|t.parts| - 1])))
              ==> r == Fail(UnknownGptType(Type(t.parts[|t.parts| - 1]), t.parts[|t.parts| - 1].dev))
    ensures (|t.parts| > 0 && LabelOf(t) == Ok(Dos) && !TypeAllowed(Dos, Type(t.parts[|t.parts| - 1])))
              ==> r == Fail(UnknownMbrType(Type(t.parts[|t.parts| - 1]), t.parts[|t.parts| - 1].dev))
  {
    if |t.parts| == 0 then Fail(NoPartitions(dev))
    else
      var kind :- LabelOf(t);
      var part := t.parts[|t.parts| - 1];
      var partType := Type(part);
      if TypeAllowed(kind, partType) then Ok(part)
      else if kind == Gpt then Fail(UnknownGptType(partType, part.dev))
      else Fail(UnknownMbrType(partType, part.dev))
  }

  /** What enlargePartition decided for the last partition `partDev`. */
  datatype Plan =
    | AtMaxSize(partDev: string)
    | Extend(partDev: string, extendBy: Int64, newSize: Int64, table: Table)

  /** The new table: the last partition's size set to `newSize`, and, in
      verbose mode only, the `last-lba` header dropped. */
  function Resized(t: Table, newSize: Int64, verbose: bool): Result<Table>
    requires |t.parts| > 0
  {
    var n := |t.parts|;
    var part :- SetSize(t.parts[n - 1], newSize);
    var meta := if verbose then RemoveMeta(t.meta, "last-lba") else t.meta;
    Ok(Table(meta, t.parts[..n - 1] + [part]))
  }

  /** The arithmetic of enlargePartition for the last partition of `t`,
      which starts at `start` and spans `size` sectors of a disk of `total`
      sectors: the end of the partition and the room after it, in wrapping
      int64 arithmetic as Go computes them. With at most EndReserve sectors
      of room the partition is at its maximum size; otherwise it grows by
      the room less EndReserve. */
  function Grow(t: Table, total: Int64, start: Int64, size: Int64, verbose: bool): Result<Plan>
    requires |t.parts| > 0
  {
    var partDev := t.parts[|t.parts| - 1].dev;
    var remain := Wrap64(total - Wrap64(start + size));
    if remain <= EndReserve then Ok(AtMaxSize(partDev))
    else
      var extend := remain - EndReserve;
      var newSize := Wrap64(size + extend);
      var table :- Resized(t, newSize, verbose);
      Ok(Extend(partDev, extend, newSize, table))
  }

  /** enlargePartition from the parsed dump onwards: the checks, the disk
      size read from `sizeText` (the contents of the size file), the start
      and size of the last partition, then the arithmetic. */
  function Decide(t: Table, dev: string, sizeText: string, verbose: bool): Result<Plan> {
    var part :- LastGrowable(t, dev);
    var total :- ReadInt64File(SizeFile, sizeText);
    var start :- Start(part);
    var size :- Size(part);
    Grow(t, total, start, size, verbose)
  }

  /** The sfdisk script for a plan that extends: partitionTable.Write of
      the new table. */
  function Script(p: Plan): string
    requires p.Extend?
  {
    Write(p.table)
  }

  // ---------------------------------------------------------------------
  // Properties
  // ---------------------------------------------------------------------

  /** Every plan is about the last partition of an allowed type; a table
      without partitions, with an unknown label or with a last partition of
      another type yields no plan at all. A plan also needs a readable disk
      size and a start and size on the last partition, and is then what the
      arithmetic gives for them. */
  lemma DecideStages(t: Table, dev: string, sizeText: string, verbose: bool)
    requires Decide(t, dev, sizeText, verbose).Ok?
    ensures |t.parts| > 0
    ensures LabelOf(t).Ok?
    ensures TypeAllowed(LabelOf(t).value, Type(t.parts[|t.parts| - 1]))
    ensures ReadInt64File(SizeFile, sizeText).Ok?
    ensures Start(t.parts[|t.parts| - 1]).Ok? && Size(t.parts[|t.parts| - 1]).Ok?
    ensures Decide(t, dev, sizeText, verbose) ==
      Grow(t, ReadInt64File(SizeFile, sizeText).value,
           Start(t.parts[|t.parts| - 1]).value, Size(t.parts[|t.parts| - 1]).value, verbose)
    ensures Decide(t, dev, sizeText, verbose).value.partDev == t.parts[|t.parts| - 1].dev
  {
  }

  /** For a last partition that lies within the disk, the partition is at
      its maximum size exactly when it ends EndReserve sectors or fewer
      before the end of the disk. */
  lemma GrowAtMax(t: Table, total: Int64, start: Int64, size: Int64, verbose: bool)
    requires |t.parts| > 0 && Grow(t, total, start, size, verbose).Ok?
    requires 0 <= start && 0 <= size && start + size <= total
    ensures Grow(t, total, start, size, verbose).value.AtMaxSize?
      <==> start + size + EndReserve >= total
    ensures Grow(t, total, start, size, verbose).value.partDev == t.parts[|t.parts| - 1].dev
  {
  }

  /** A partition that is not at its maximum size is always grown when it
      has a size attribute to rewrite. */
  lemma GrowSucceeds(t: Table, total: Int64, start: Int64, size: Int64, verbose: bool)
    requires |t.parts| > 0 && Size(t.parts[|t.parts| - 1]).Ok?
    ensures Grow(t, total, start, size, verbose).Ok?
  {
    var part := t.parts[|t.parts| - 1];
    var remain := Wrap64(total - Wrap64(start + size));
    if remain > EndReserve {
      SetSizeThenSize(part, Wrap64(size + (remain - EndReserve)));
    }
  }

  /** The new table differs from the old one only in the size of the last
      partition and, in verbose mode, the dropped `last-lba` header lines. */
  lemma GrowChangesOnlyLastSize(t: Table, total: Int64, start: Int64, size: Int64, verbose: bool)
    requires |t.parts| > 0 && Grow(t, total, start, size, verbose).Ok?
    requires Grow(t, total, start, size, verbose).value.Extend?
    ensures var p := Grow(t, total, start, size, verbose).value;
      var n := |t.parts|;
      && |p.table.parts| == n
      && p.table.parts[..n - 1] == t.parts[..n - 1]
      && p.table.parts[n - 1].dev == t.parts[n - 1].dev
      && p.table.parts[n - 1].attrs
           == t.parts[n - 1].attrs[SizeIndex(t.parts[n - 1].attrs) := "size=" + FormatInt(p.newSize)]
      && Start(p.table.parts[n - 1]) == Start(t.parts[n - 1])
      && Type(p.table.parts[n - 1]) == Type(t.parts[n - 1])
      && p.table.meta == (if verbose then RemoveMeta(t.meta, "last-lba") else t.meta)
  {
    GrowUnfolds(t, total, start, size, verbose);
    ResizedChangesOnlyLastSize(t, Grow(t, total, start, size, verbose).value.newSize, verbose);
  }

  /** Resizing touches only the size of the last partition and, in verbose
      mode, the `last-lba` header lines. */
  lemma ResizedChangesOnlyLastSize(t: Table, newSize: Int64, verbose: bool)
    requires |t.parts| > 0 && Resized(t, newSize, verbose).Ok?
    ensures var u := Resized(t, newSize, verbose).value;
      var n := |t.parts|;
      && |u.parts| == n
      && u.parts[..n - 1] == t.parts[..n - 1]
      && u.parts[n - 1].dev == t.parts[n - 1].dev
      && u.parts[n - 1].attrs
           == t.parts[n - 1].attrs[SizeIndex(t.parts[n - 1].attrs) := "size=" + FormatInt(newSize)]
      && Start(u.parts[n - 1]) == Start(t.parts[n - 1])
      && Type(u.parts[n - 1]) == Type(t.parts[n - 1])
      && u.meta == (if verbose then RemoveMeta(t.meta, "last-lba") else t.meta)
  {
    var n := |t.parts|;
    var u := Resized(t, newSize, verbose).value;
    SetSizeSpec(t.parts[n - 1], newSize);
    SetSizeKeepsOthers(t.parts[n - 1], newSize);
    assert u.parts[n - 1] == SetSize(t.parts[n - 1], newSize).value;
    assert u.parts[..n - 1] == t.parts[..n - 1];
  }

  /** For a last partition that lies within the disk, growing it leaves
      exactly EndReserve sectors after it: start plus new size is the disk
      size less EndReserve, and the partition grew. */
  lemma GrowRespectsReserve(t: Table, total: Int64, start: Int64, size: Int64, verbose: bool)
    requires |t.parts| > 0 && Grow(t, total, start, size, verbose).Ok?
    requires Grow(t, total, start, size, verbose).value.Extend?
    requires Size(t.parts[|t.parts| - 1]).Ok?
    requires 0 <= start && 0 <= size && start + size <= total
    ensures var p := Grow(t, total, start, size, verbose).value;
      && p.extendBy == total - (start + size) - EndReserve
      && p.extendBy > 0
      && Size(p.table.parts[|p.table.parts| - 1]).Ok?
      && start + Size(p.table.parts[|p.table.parts| - 1]).value == total - EndReserve
  {
    var n := |t.parts|;
    var p := Grow(t, total, start, size, verbose).value;
    var newSize := Wrap64(size + p.extendBy);
    SetSizeThenSize(t.parts[n - 1], newSize);
    assert p.table.parts[n - 1] == SetSize(t.parts[n - 1], newSize).value;
  }

  /** Resizing keeps a table in the form the parser produces. */
  lemma ResizedWellFormed(t: Table, newSize: Int64, verbose: bool)
    requires WellFormed(t) && |t.parts| > 0 && Resized(t, newSize, verbose).Ok?
    ensures WellFormed(Resized(t, newSize, verbose).value)
  {
    var r := Resized(t, newSize, verbose).value;
    var n := |t.parts|;
    assert r.parts[n - 1] == SetSize(t.parts[n - 1], newSize).value;
    SetSizeCanonical(t.parts[n - 1], newSize);
    RemoveMetaKeeps(t.meta, "last-lba");
    forall k | 0 <= k < n ensures CanonicalEntry(r.parts[k]) {
      if k < n - 1 {
        assert r.parts[k] == t.parts[k];
      }
    }
  }

  /** The fields of an extending plan, in the int64 arithmetic of the code. */
  lemma GrowUnfolds(t: Table, total: Int64, start: Int64, size: Int64, verbose: bool)
    requires |t.parts| > 0 && Grow(t, total, start, size, verbose).Ok?
    requires Grow(t, total, start, size, verbose).value.Extend?
    ensures var p := Grow(t, total, start, size, verbose).value;
      && p.newSize == Wrap64(size + p.extendBy)
      && Resized(t, p.newSize, verbose) == Ok(p.table)
  {
  }

  /** For a last partition that lies within the disk, an extending plan
      grows it by the room after it less EndReserve, to a new size that
      ends EndReserve sectors before the disk's end, and carries the table
      resized to that size. */
  lemma GrowExtends(t: Table, total: Int64, start: Int64, size: Int64, verbose: bool)
    requires |t.parts| > 0 && Grow(t, total, start, size, verbose).Ok?
    requires Grow(t, total, start, size, verbose).value.Extend?
    requires 0 <= start && 0 <= size && start + size <= total
    ensures var p := Grow(t, total, start, size, verbose).value;
      && p.extendBy == total - start - size - EndReserve
      && p.extendBy > 0
      && p.newSize == total - start - EndReserve
      && p.newSize > size
      && p.partDev == t.parts[|t.parts| - 1].dev
      && Resized(t, p.newSize, verbose) == Ok(p.table)
  {
  }

  /** Growing is idempotent: deciding again on the grown table, with the
      size now written in it, finds the partition at its maximum size. */
  lemma GrowTwice(t: Table, total: Int64, start: Int64, size: Int64, verbose: bool, verbose': bool)
    requires |t.parts| > 0 && Grow(t, total, start, size, verbose).Ok?
    requires Grow(t, total, start, size, verbose).value.Extend?
    requires Size(t.parts[|t.parts| - 1]).Ok?
    requires 0 <= start && 0 <= size && start + size <= total
    ensures var p := Grow(t, total, start, size, verbose).value;
      var n := |p.table.parts|;
      && n > 0
      && Size(p.table.parts[n - 1]).Ok?
      && Grow(p.table, total, start, Size(p.table.parts[n - 1]).value, verbose') == Ok(AtMaxSize(p.partDev))
  {
    var p := Grow(t, total, start, size, verbose).value;
    GrowRespectsReserve(t, total, start, size, verbose);
    ResizedChangesOnlyLastSize(t, p.newSize, verbose);
  }

  /** A resized table reads back from its own script. */
  lemma ResizedRoundTrip(t: Table, newSize: Int64, verbose: bool)
    requires WellFormed(t) && |t.parts| > 0 && Resized(t, newSize, verbose).Ok?
    ensures Parse(Write(Resized(t, newSize, verbose).value)) == Ok(Resized(t, newSize, verbose).value)
  {
    ResizedWellFormed(t, newSize, verbose);
    WriteRoundTrip(Resized(t, newSize, verbose).value);
  }

  /** The script handed to sfdisk reads back, with the same parser, as the
      new table, whenever the dump came from that parser. */
  lemma GrowScriptRoundTrip(t: Table, total: Int64, start: Int64, size: Int64, verbose: bool)
    requires WellFormed(t)
    requires |t.parts| > 0 && Grow(t, total, start, size, verbose).Ok?
    requires Grow(t, total, start, size, verbose).value.Extend?
    ensures var p := Grow(t, total, start, size, verbose).value;
      Parse(Script(p)) == Ok(p.table)
  {
    GrowUnfolds(t, total, start, size, verbose);
    ResizedRoundTrip(t, Grow(t, total, start, size, verbose).value.newSize, verbose);
  }

  /** The `label` the checks read is the same in the new table. */
  lemma GrowKeepsLabel(t: Table, total: Int64, start: Int64, size: Int64, verbose: bool)
    requires |t.parts| > 0 && Grow(t, total, start, size, verbose).Ok?
    requires Grow(t, total, start, size, verbose).value.Extend?
    ensures LabelOf(Grow(t, total, start, size, verbose).value.table) == LabelOf(t)
  {
    var p := Grow(t, total, start, size, verbose).value;
    if verbose {
      assert p.table.meta == RemoveMeta(t.meta, "last-lba");
      forall i | 0 <= i < |t.meta| ensures !(HasPrefix(t.meta[i], "label:") && HasPrefix(t.meta[i], "last-lba: ")) {
        LabelNotLastLba(t.meta[i]);
      }
      MetaAfterRemove(t.meta, "label", "last-lba");
    }
  }

  /** enlargePartition's script reads back as the table it means to write,
      for any dump the parser accepted. */
  lemma DecideScriptRoundTrip(t: Table, dev: string, sizeText: string, verbose: bool)
    requires WellFormed(t)
    requires Decide(t, dev, sizeText, verbose).Ok? && Decide(t, dev, sizeText, verbose).value.Extend?
    ensures Parse(Script(Decide(t, dev, sizeText, verbose).value)) == Ok(Decide(t, dev, sizeText, verbose).value.table)
  {
    DecideStages(t, dev, sizeText, verbose);
    var part := t.parts[|t.parts| - 1];
    GrowScriptRoundTrip(t, ReadInt64File(SizeFile, sizeText).value, Start(part).value, Size(part).value, verbose);
  }

  /** enlargePartition grows a last partition that lies within the disk up
      to EndReserve sectors before the disk's end, and changes nothing else
      in the table but the dropped `last-lba` header of verbose mode. */
  lemma DecideRespectsReserve(t: Table, dev: string, sizeText: string, verbose: bool)
    requires Decide(t, dev, sizeText, verbose).Ok? && Decide(t, dev, sizeText, verbose).value.Extend?
    requires |t.parts| > 0
    requires var part := t.parts[|t.parts| - 1];
      && Start(part).Ok? && Size(part).Ok? && ReadInt64File(SizeFile, sizeText).Ok?
      && 0 <= Start(part).value && 0 <= Size(part).value
      && Start(part).value + Size(part).value <= ReadInt64File(SizeFile, sizeText).value
    ensures var p := Decide(t, dev, sizeText, verbose).value;
      var n := |t.parts|;
      && |p.table.parts| == n
      && p.table.parts[..n - 1] == t.parts[..n - 1]
      && Start(p.table.parts[n - 1]) == Start(t.parts[n - 1])
      && Size(p.table.parts[n - 1]).Ok?
      && Start(t.parts[n - 1]).value + Size(p.table.parts[n - 1]).value
           == ReadInt64File(SizeFile, sizeText).value - EndReserve
  {
    DecideStages(t, dev, sizeText, verbose);
    var part := t.parts[|t.parts| - 1];
    var total, start, size := ReadInt64File(SizeFile, sizeText).value, Start(part).value, Size(part).value;
    GrowChangesOnlyLastSize(t, total, start, size, verbose);
    GrowRespectsReserve(t, total, start, size, verbose);
  }

  /** Running enlargePartition again on the table it wrote, with the same
      disk, finds the partition already at its maximum size: the resize is
      idempotent. */
  lemma DecideTwice(t: Table, dev: string, sizeText: string, verbose: bool, verbose': bool)
    requires Decide(t, dev, sizeText, verbose).Ok? && Decide(t, dev, sizeText, verbose).value.Extend?
    requires |t.parts| > 0
    requires var part := t.parts[|t.parts| - 1];
      && Start(part).Ok? && Size(part).Ok? && ReadInt64File(SizeFile, sizeText).Ok?
      && 0 <= Start(part).value && 0 <= Size(part).value
      && Start(part).value + Size(part).value <= ReadInt64File(SizeFile, sizeText).value
    ensures var p := Decide(t, dev, sizeText, verbose).value;
      Decide(p.table, dev, sizeText, verbose') == Ok(AtMaxSize(p.partDev))
  {
    DecideStages(t, dev, sizeText, verbose);
    var part := t.parts[|t.parts| - 1];
    var total, start, size := ReadInt64File(SizeFile, sizeText).value, Start(part).value, Size(part).value;
    var p := Grow(t, total, start, size, verbose).value;
    GrowChangesOnlyLastSize(t, total, start, size, verbose);
    GrowKeepsLabel(t, total, start, size, verbose);
    GrowTwice(t, total, start, size, verbose, verbose');
    var n := |p.table.parts|;
    assert LastGrowable(p.table, dev) == Ok(p.table.parts[n - 1]);
  }
}

=== FILE: pipeline.dfy ===
/** The whole program, main: choose the disk, enlarge the last partition,
    then the LVM physical volume, then the logical volumes and the
    filesystem. The outside world is an input: the entries of /sys/block,
    the text of the disk size file and of /proc/mounts, os.Stat, and the
    outcome of each program started, which may depend on its position in
    the run and on the command. */
module Pipeline {
  import opened Results
  import opened Commands
  import opened Sfdisk
  import opened Devices
  import opened Partition
  import opened Lvm
  import opened Filesystem

  /** The command-line flags: --dev, --dry-run and --verbose. */
  datatype Config = Config(devFlag: string, dry: bool, verbose: bool)

  /** What the program reads from the machine. */
  datatype Machine = Machine(
    blockNames: seq<string>,
    sizeText: string,
    mounts: string,
    stat: string -> Option<FileId>,
    run: (nat, Command) -> Outcome)

  /** enlargePartition up to its decision: the outcome of `sfdisk -d`,
      parsed, then decided on. */
  function PlanFromDump(dump: Outcome, dev: string, sizeText: string, verbose: bool): Result<Plan> {
    if !dump.success then Fail(ToolFailed(DumpTable(dev), ""))
    else
      var t :- Parse(dump.stdout);
      Decide(t, dev, sizeText, verbose)
  }

  /** The script of a plan made from a dump reads back as the plan's table. */
  lemma PlanScriptRoundTrip(dump: Outcome, dev: string, sizeText: string, verbose: bool)
    requires PlanFromDump(dump, dev, sizeText, verbose).Ok?
    requires PlanFromDump(dump, dev, sizeText, verbose).value.Extend?
    ensures var plan := PlanFromDump(dump, dev, sizeText, verbose).value;
      Parse(Script(plan)) == Ok(plan.table)
  {
    DecideScriptRoundTrip(Parse(dump.stdout).value, dev, sizeText, verbose);
  }

  /** enlargePartition after its decision `plan`: unless deciding failed,
      this is a dry run or the partition is already at its maximum size,
      write the new table and have the kernel re-read it. Yields the last
      partition's device. */
  function ApplyPlan(run: (nat, Command) -> Outcome, dev: string, plan: Result<Plan>, dry: bool): Run<string> {
    match plan
    case Fail(f) => Run([DumpTable(dev)], Fail(f))
    case Ok(p) =>
      if p.AtMaxSize? || dry then Run([DumpTable(dev)], Ok(p.partDev))
      else
        var write := WriteTable(dev, Script(p));
        if !run(1, write).success then Run([DumpTable(dev), write], Fail(ToolFailed(write, "")))
        else
          var probe := run(2, Partprobe);
          if !probe.success then Run([DumpTable(dev), write, Partprobe], Fail(ToolFailed(Partprobe, probe.stdout)))
          else Run([DumpTable(dev), write, Partprobe], Ok(p.partDev))
  }

  /** enlargePartition: dump the table of `dev`, decide, apply. */
  function EnlargePartition(run: (nat, Command) -> Outcome, dev: string, sizeText: string,
                            dry: bool, verbose: bool): Run<string>
  {
    ApplyPlan(run, dev, PlanFromDump(run(0, DumpTable(dev)), dev, sizeText, verbose), dry)
  }

  /** main: choose the disk, then enlarge the partition and the rest. */
  function Main(cfg: Config, m: Machine): Run<()> {
    match ChooseDevice(cfg.devFlag, m.blockNames)
    case Fail(f) => Run([], Fail(f))
    case Ok(dev) => AfterPartition(cfg, m, EnlargePartition(m.run, dev, m.sizeText, cfg.dry, cfg.verbose))
  }

  /** main after enlargePartition ran as `part`: stop at its failure,
      otherwise enlarge the LVM physical volume and then the logical volumes
      and the filesystem. */
  function AfterPartition(cfg: Config, m: Machine, part: Run<string>): Run<()> {
    if part.result.Fail? then Run(part.trace, Fail(part.result.fault))
    else
      var lvm := EnlargeLvm(m.run, |part.trace|, m.blockNames, part.result.value, cfg.dry);
      var sofar := part.trace + lvm.trace;
      if lvm.result.Fail? then Run(sofar, Fail(lvm.result.fault))
      else
        var fs := EnlargeFs(m.run, |sofar|, m.stat, m.mounts, part.result.value, lvm.result.value, cfg.dry);
        Run(sofar + fs.trace, fs.result)
  }

  // ---------------------------------------------------------------------
  // The partition stage
  // ---------------------------------------------------------------------

  /** The commands of enlargePartition after the dump: at most the write
      and the re-probe, in that order; the write only outside a dry run,
      for a partition that is not at its maximum size, with the script of
      the plan; a partition at its maximum size leaves the disk alone. The
      device reported is the last partition's in every case. */
  lemma ApplyPlanSpec(run: (nat, Command) -> Outcome, dev: string, plan: Result<Plan>, dry: bool)
    ensures var r := ApplyPlan(run, dev, plan, dry);
      && 1 <= |r.trace| <= 3
      && r.trace[0] == DumpTable(dev)
      && (|r.trace| >= 2 <==> !dry && plan.Ok? && plan.value.Extend?)
      && (|r.trace| >= 2 ==> r.trace[1] == WriteTable(dev, Script(plan.value)))
      && (|r.trace| == 3 ==> r.trace[2] == Partprobe)
      && (r.result.Ok? ==> plan.Ok? && r.result.value == plan.value.partDev)
      && (r.result.Ok? && !dry && plan.value.Extend? ==> |r.trace| == 3)
      && (|r.trace| >= 2 ==> (r.result.Ok? <==> run(1, r.trace[1]).success && run(2, Partprobe).success))
  {
  }

  /** `w` writes to `dev` the table decided on for the outcome `dump` of
      `sfdisk -d`: the dump succeeded and parsed, its last partition has an
      allowed type, the decision was to extend it, and the script reads
      back as the decided table. */
  predicate WritesDecision(w: Command, dump: Outcome, dev: string, sizeText: string, verbose: bool) {
    && w.WriteTable? && w.dev == dev
    && dump.success && Parse(dump.stdout).Ok?
    && var t := Parse(dump.stdout).value;
    && Decide(t, dev, sizeText, verbose).Ok?
    && Decide(t, dev, sizeText, verbose).value.Extend?
    && Parse(w.script) == Ok(Decide(t, dev, sizeText, verbose).value.table)
    && |t.parts| > 0 && LabelOf(t).Ok?
    && TypeAllowed(LabelOf(t).value, Type(t.parts[|t.parts| - 1]))
  }

  /** What enlargePartition writes is the table it decided on: the script
      reads back as that table, the table's last partition was of an
      allowed type, and the dump it came from parsed. */
  lemma EnlargePartitionWritesPlan(run: (nat, Command) -> Outcome, dev: string, sizeText: string,
                                   dry: bool, verbose: bool)
    requires |EnlargePartition(run, dev, sizeText, dry, verbose).trace| >= 2
    ensures WritesDecision(EnlargePartition(run, dev, sizeText, dry, verbose).trace[1],
                           run(0, DumpTable(dev)), dev, sizeText, verbose)
  {
    var dump := run(0, DumpTable(dev));
    ApplyPlanSpec(run, dev, PlanFromDump(dump, dev, sizeText, verbose), dry);
    PlanScriptRoundTrip(dump, dev, sizeText, verbose);
    DecideStages(Parse(dump.stdout).value, dev, sizeText, verbose);
  }

  // ---------------------------------------------------------------------
  // The order of the commands
  // ---------------------------------------------------------------------

  /** The commands act on the layers in order: partition table, kernel,
      physical volume, logical volumes, filesystem. */
  predicate Ordered(t: seq<Command>) {
    forall i, j :: 0 <= i < j < |t| ==> Layer(t[i]) <= Layer(t[j])
  }

  /** Every command of `t` acts on a layer from `lo` to `hi`. */
  predicate Within(t: seq<Command>, lo: nat, hi: nat) {
    forall i :: 0 <= i < |t| ==> lo <= Layer(t[i]) <= hi
  }

  /** The run's shape, stage by stage: its order, and what a dry run may
      start. */
  predicate StageShape(t: seq<Command>, lo: nat, hi: nat, dry: bool) {
    && Ordered(t) && Within(t, lo, hi)
    && (dry ==> forall i :: 0 <= i < |t| ==> IsQuery(t[i]))
  }

  /** Ordered runs on consecutive layer ranges make an ordered run. */
  lemma ShapeConcat(a: seq<Command>, b: seq<Command>, lo: nat, mid: nat, hi: nat, dry: bool)
    requires lo <= mid < hi
    requires StageShape(a, lo, mid, dry) && StageShape(b, mid + 1, hi, dry)
    ensures StageShape(a + b, lo, hi, dry)
  {
    forall i | 0 <= i < |a + b| ensures lo <= Layer((a + b)[i]) <= hi && (dry ==> IsQuery((a + b)[i])) {
      if i < |a| {
        assert (a + b)[i] == a[i];
      } else {
        assert (a + b)[i] == b[i - |a|];
      }
    }
    forall i, j | 0 <= i < j < |a + b| ensures Layer((a + b)[i]) <= Layer((a + b)[j]) {
      if j < |a| {
        assert (a + b)[i] == a[i] && (a + b)[j] == a[j];
      } else if i < |a| {
        assert (a + b)[i] == a[i] && (a + b)[j] == b[j - |a|];
      } else {
        assert (a + b)[i] == b[i - |a|] && (a + b)[j] == b[j - |a|];
      }
    }
  }

  /** The partition stage acts on layers 0 to 2 in order; in a dry run it
      only dumps the table. */
  lemma PartitionStageShape(run: (nat, Command) -> Outcome, dev: string, plan: Result<Plan>, dry: bool)
    ensures StageShape(ApplyPlan(run, dev, plan, dry).trace, 0, 2, dry)
  {
    ApplyPlanSpec(run, dev, plan, dry);
  }

  /** The LVM stage acts on layers 3 and 4 in order; in a dry run it only
      lists. */
  lemma LvmStageShape(run: (nat, Command) -> Outcome, base: nat, blockNames: seq<string>,
                      partDev: string, dry: bool)
    ensures StageShape(EnlargeLvm(run, base, blockNames, partDev, dry).trace, 3, 4, dry)
  {
    EnlargeLvmSpec(run, base, blockNames, partDev, dry);
    var t := EnlargeLvm(run, base, blockNames, partDev, dry).trace;
    if t == [PvDisplay, PvResize(partDev)] {
      assert Layer(t[0]) == 3 && Layer(t[1]) == 4;
    }
  }

  /** A listing, then `lvextend`s, then at most one grow command, is in
      layer order. */
  lemma FsTraceShape(d: seq<Command>, g: seq<Command>, dry: bool)
    requires forall k :: 0 <= k < |d| ==> (k == 0 <==> d[k] == LvDisplay) && (k > 0 <==> d[k].LvExtend?)
    requires |g| <= 1 && forall k :: 0 <= k < |g| ==> IsFilesystemGrow(g[k])
    requires dry ==> |d| <= 1 && |g| == 0
    ensures StageShape(d + g, 5, 7, dry)
  {
    forall i | 0 <= i < |d + g|
      ensures Layer((d + g)[i]) == if i == 0 && |d| > 0 then 5 else if i < |d| then 6 else 7
    {
      if i < |d| {
        assert (d + g)[i] == d[i];
      } else {
        assert (d + g)[i] == g[i - |d|];
      }
    }
  }

  /** The filesystem stage acts on layers 5 to 7 in order; in a dry run it
      only lists. */
  lemma FsStageShape(run: (nat, Command) -> Outcome, base: nat, stat: string -> Option<FileId>,
                     mounts: string, partDev: string, vg: string, dry: bool)
    ensures StageShape(EnlargeFs(run, base, stat, mounts, partDev, vg, dry).trace, 5, 7, dry)
  {
    var r := EnlargeFs(run, base, stat, mounts, partDev, vg, dry).trace;
    var d := DeviceSet(run, base, stat, partDev, vg, dry).trace;
    EnlargeFsShape(run, base, stat, mounts, partDev, vg, dry);
    var g := r[|d|..];
    assert r == d + g;
    FsTraceShape(d, g, dry);
  }

  // ---------------------------------------------------------------------
  // Properties of the whole run
  // ---------------------------------------------------------------------

  /** Three runs on layers 0 to 2, 3 and 4, and 5 to 7 make one ordered
      run, whose commands after the first part are on layer 3 or above. */
  lemma ThreeStages(a: seq<Command>, b: seq<Command>, c: seq<Command>, dry: bool)
    requires StageShape(a, 0, 2, dry) && StageShape(b, 3, 4, dry) && StageShape(c, 5, 7, dry)
    ensures StageShape(a + b + c, 0, 7, dry)
    ensures (a + b + c)[..|a|] == a
    ensures forall i :: |a| <= i < |a + b + c| ==> Layer((a + b + c)[i]) >= 3
  {
    ShapeConcat(b, c, 3, 4, 7, dry);
    ShapeConcat(a, b + c, 0, 2, 7, dry);
    assert a + b + c == a + (b + c);
    forall i | |a| <= i < |a + b + c| ensures Layer((a + b + c)[i]) >= 3 {
      assert (a + b + c)[i] == (b + c)[i - |a|];
    }
  }

  /** After the partition stage, the run continues on layers 3 to 7 in
      order, a dry run only listing. */
  lemma AfterPartitionShape(cfg: Config, m: Machine, part: Run<string>)
    requires StageShape(part.trace, 0, 2, cfg.dry)
    ensures var t := AfterPartition(cfg, m, part).trace;
      && StageShape(t, 0, 7, cfg.dry)
      && t[..|part.trace|] == part.trace
      && (forall i :: |part.trace| <= i < |t| ==> Layer(t[i]) >= 3)
  {
    var t := AfterPartition(cfg, m, part).trace;
    if part.result.Fail? {
      ThreeStages(part.trace, [], [], cfg.dry);
      assert t == part.trace + [] + [];
    } else {
      var lvm := EnlargeLvm(m.run, |part.trace|, m.blockNames, part.result.value, cfg.dry);
      LvmStageShape(m.run, |part.trace|, m.blockNames, part.result.value, cfg.dry);
      var sofar := part.trace + lvm.trace;
      if lvm.result.Fail? {
        ThreeStages(part.trace, lvm.trace, [], cfg.dry);
        assert t == part.trace + lvm.trace + [];
      } else {
        var fs := EnlargeFs(m.run, |sofar|, m.stat, m.mounts, part.result.value, lvm.result.value, cfg.dry);
        FsStageShape(m.run, |sofar|, m.stat, m.mounts, part.result.value, lvm.result.value, cfg.dry);
        ThreeStages(part.trace, lvm.trace, fs.trace, cfg.dry);
      }
    }
  }

  /** A grow command is the last command of the run after the partition
      stage, and a dry run starts none. */
  lemma AfterPartitionGrowsLast(cfg: Config, m: Machine, part: Run<string>, i: nat)
    requires StageShape(part.trace, 0, 2, cfg.dry)
    requires i < |AfterPartition(cfg, m, part).trace| && IsFilesystemGrow(AfterPartition(cfg, m, part).trace[i])
    ensures i == |AfterPartition(cfg, m, part).trace| - 1 && !cfg.dry
  {
    if part.result.Ok? {
      var lvm := EnlargeLvm(m.run, |part.trace|, m.blockNames, part.result.value, cfg.dry);
      LvmStageShape(m.run, |part.trace|, m.blockNames, part.result.value, cfg.dry);
      ShapeConcat(part.trace, lvm.trace, 0, 2, 4, cfg.dry);
      var sofar := part.trace + lvm.trace;
      if lvm.result.Ok? {
        var fs := EnlargeFs(m.run, |sofar|, m.stat, m.mounts, part.result.value, lvm.result.value, cfg.dry);
        GrowBeyond(sofar, fs.trace, i);
        EnlargeFsGrowsOne(m.run, |sofar|, m.stat, m.mounts, part.result.value, lvm.result.value, cfg.dry, i - |sofar|);
      }
    }
  }

  /** A grow command in a run that starts with commands on layers up to 4
      lies after them. */
  lemma GrowBeyond(a: seq<Command>, b: seq<Command>, i: nat)
    requires Within(a, 0, 4)
    requires i < |a + b| && IsFilesystemGrow((a + b)[i])
    ensures |a| <= i && b[i - |a|] == (a + b)[i]
  {
    forall k | 0 <= k < |a| ensures !IsFilesystemGrow((a + b)[k]) {
      assert (a + b)[k] == a[k];
    }
  }

  /** main handles the layers in order, from the partition table up to the
      filesystem, and a dry run only ever starts listing commands. A
      filesystem grow command is always the last command of the run, so
      there is at most one, and a dry run starts none. */
  lemma MainOrdered(cfg: Config, m: Machine)
    ensures StageShape(Main(cfg, m).trace, 0, 7, cfg.dry)
    ensures forall i :: 0 <= i < |Main(cfg, m).trace| && IsFilesystemGrow(Main(cfg, m).trace[i]) ==>
      i == |Main(cfg, m).trace| - 1 && !cfg.dry
  {
    if ChooseDevice(cfg.devFlag, m.blockNames).Ok? {
      var dev := ChooseDevice(cfg.devFlag, m.blockNames).value;
      var plan := PlanFromDump(m.run(0, DumpTable(dev)), dev, m.sizeText, cfg.verbose);
      var part := EnlargePartition(m.run, dev, m.sizeText, cfg.dry, cfg.verbose);
      PartitionStageShape(m.run, dev, plan, cfg.dry);
      AfterPartitionShape(cfg, m, part);
      forall i | 0 <= i < |Main(cfg, m).trace| && IsFilesystemGrow(Main(cfg, m).trace[i])
        ensures i == |Main(cfg, m).trace| - 1 && !cfg.dry
      {
        AfterPartitionGrowsLast(cfg, m, part, i);
      }
    }
  }

  /** The only partition table main writes is the second command of the
      run, outside a dry run, for the disk it chose; its script reads back
      as the table enlargePartition decided on for the dump it read, whose
      last partition has an allowed type. */
  lemma MainWritesPlan(cfg: Config, m: Machine, i: nat)
    requires i < |Main(cfg, m).trace| && Main(cfg, m).trace[i].WriteTable?
    ensures i == 1 && !cfg.dry
    ensures ChooseDevice(cfg.devFlag, m.blockNames).Ok?
    ensures var dev := ChooseDevice(cfg.devFlag, m.blockNames).value;
      WritesDecision(Main(cfg, m).trace[1], m.run(0, DumpTable(dev)), dev, m.sizeText, cfg.verbose)
  {
    MainWriteInPartition(cfg, m, i);
    var dev := ChooseDevice(cfg.devFlag, m.blockNames).value;
    PartitionWriteAt(m.run, dev, m.sizeText, cfg.dry, cfg.verbose, i);
    EnlargePartitionWritesPlan(m.run, dev, m.sizeText, cfg.dry, cfg.verbose);
  }

  /** A table write of main's run is a command of enlargePartition, at the
      same position. */
  lemma MainWriteInPartition(cfg: Config, m: Machine, i: nat)
    requires i < |Main(cfg, m).trace| && Main(cfg, m).trace[i].WriteTable?
    ensures ChooseDevice(cfg.devFlag, m.blockNames).Ok?
    ensures var part := EnlargePartition(m.run, ChooseDevice(cfg.devFlag, m.blockNames).value, m.sizeText, cfg.dry, cfg.verbose);
      && i < |part.trace| && part.trace[i] == Main(cfg, m).trace[i]
      && (1 < |part.trace| ==> part.trace[1] == Main(cfg, m).trace[1])
  {
    var dev := ChooseDevice(cfg.devFlag, m.blockNames).value;
    var plan := PlanFromDump(m.run(0, DumpTable(dev)), dev, m.sizeText, cfg.verbose);
    var part := EnlargePartition(m.run, dev, m.sizeText, cfg.dry, cfg.verbose);
    PartitionStageShape(m.run, dev, plan, cfg.dry);
    AfterPartitionShape(cfg, m, part);
    var t := Main(cfg, m).trace;
    assert i < |part.trace|;
    PrefixAt(t, part.trace, i);
    if 1 < |part.trace| {
      PrefixAt(t, part.trace, 1);
    }
  }

  /** A run that starts with `p` agrees with `p` on its positions. */
  lemma PrefixAt(t: seq<Command>, p: seq<Command>, i: nat)
    requires |p| <= |t| && t[..|p|] == p && i < |p|
    ensures t[i] == p[i]
  {
    assert t[..|p|][i] == t[i];
  }

  /** enlargePartition writes the table only second, and only outside a
      dry run. */
  lemma PartitionWriteAt(run: (nat, Command) -> Outcome, dev: string, sizeText: string,
                         dry: bool, verbose: bool, i: nat)
    requires i < |EnlargePartition(run, dev, sizeText, dry, verbose).trace|
    requires EnlargePartition(run, dev, sizeText, dry, verbose).trace[i].WriteTable?
    ensures i == 1 && !dry
  {
    ApplyWriteAt(run, dev, PlanFromDump(run(0, DumpTable(dev)), dev, sizeText, verbose), dry, i);
  }

  /** Applying a plan writes the table only second, and only outside a dry
      run. */
  lemma ApplyWriteAt(run: (nat, Command) -> Outcome, dev: string, plan: Result<Plan>, dry: bool, i: nat)
    requires i < |ApplyPlan(run, dev, plan, dry).trace|
    requires ApplyPlan(run, dev, plan, dry).trace[i].WriteTable?
    ensures i == 1 && !dry
  {
    ApplyPlanSpec(run, dev, plan, dry);
  }

  /** A partition that is already at its maximum size is never rewritten. */
  lemma MainAtMaxWritesNothing(cfg: Config, m: Machine)
    requires ChooseDevice(cfg.devFlag, m.blockNames).Ok?
    requires var dev := ChooseDevice(cfg.devFlag, m.blockNames).value;
      var plan := PlanFromDump(m.run(0, DumpTable(dev)), dev, m.sizeText, cfg.verbose);
      plan.Ok? && plan.value.AtMaxSize?
    ensures forall i :: 0 <= i < |Main(cfg, m).trace| ==> !Main(cfg, m).trace[i].WriteTable?
  {
    forall i | 0 <= i < |Main(cfg, m).trace| ensures !Main(cfg, m).trace[i].WriteTable? {
      if Main(cfg, m).trace[i].WriteTable? {
        MainWritesPlan(cfg, m, i);
      }
    }
  }

  // ---------------------------------------------------------------------
  // A fatal step ends the run
  // ---------------------------------------------------------------------

  /** enlargePartition up to its decision: a failed `sfdisk -d` is fatal,
      and so is a dump that does not parse, each with its own fault; a
      parsed dump yields the decision made on it. */
  lemma PlanFromDumpSpec(dump: Outcome, dev: string, sizeText: string, verbose: bool)
    ensures var r := PlanFromDump(dump, dev, sizeText, verbose);
      && (!dump.success ==> r == Fail(ToolFailed(DumpTable(dev), "")))
      && (dump.success && Parse(dump.stdout).Fail? ==> r == Fail(Parse(dump.stdout).fault))
      && (dump.success && Parse(dump.stdout).Ok? ==> r == Decide(Parse(dump.stdout).value, dev, sizeText, verbose))
  {
  }

  /** The LVM stage that main runs after a successful partition stage. */
  function LvmRun(cfg: Config, m: Machine, part: Run<string>): Run<string>
    requires part.result.Ok?
  {
    EnlargeLvm(m.run, |part.trace|, m.blockNames, part.result.value, cfg.dry)
  }

  /** The partition stage, the LVM stage and the filesystem stage that
      main runs after them all succeed. */
  predicate StagesOk(cfg: Config, m: Machine, part: Run<string>) {
    && part.result.Ok?
    && var lvm := LvmRun(cfg, m, part);
    && lvm.result.Ok?
    && EnlargeFs(m.run, |part.trace + lvm.trace|, m.stat, m.mounts, part.result.value, lvm.result.value, cfg.dry).result.Ok?
  }

  /** After the partition stage `part`, a failure of it ends the run with
      its fault and starts nothing more; a failure of the LVM stage ends
      the run after the LVM commands, before any logical volume or
      filesystem command. */
  lemma AfterPartitionStops(cfg: Config, m: Machine, part: Run<string>)
    requires StageShape(part.trace, 0, 2, cfg.dry)
    ensures part.result.Fail? ==> AfterPartition(cfg, m, part) == Run(part.trace, Fail(part.result.fault))
    ensures part.result.Ok? && LvmRun(cfg, m, part).result.Fail? ==>
      && AfterPartition(cfg, m, part) == Run(part.trace + LvmRun(cfg, m, part).trace, Fail(LvmRun(cfg, m, part).result.fault))
      && Within(AfterPartition(cfg, m, part).trace, 0, 4)
  {
    if part.result.Ok? {
      var lvm := LvmRun(cfg, m, part);
      if lvm.result.Fail? {
        assert AfterPartition(cfg, m, part) == Run(part.trace + lvm.trace, Fail(lvm.result.fault));
        LvmStageShape(m.run, |part.trace|, m.blockNames, part.result.value, cfg.dry);
        ShapeConcat(part.trace, lvm.trace, 0, 2, 4, cfg.dry);
      }
    }
  }

  /** The run after the partition stage succeeds exactly when all three
      stages do. */
  lemma AfterPartitionOk(cfg: Config, m: Machine, part: Run<string>)
    ensures AfterPartition(cfg, m, part).result.Ok? <==> StagesOk(cfg, m, part)
  {
    if part.result.Ok? && LvmRun(cfg, m, part).result.Ok? {
      var lvm := LvmRun(cfg, m, part);
      var fs := EnlargeFs(m.run, |part.trace + lvm.trace|, m.stat, m.mounts, part.result.value, lvm.result.value, cfg.dry);
      assert AfterPartition(cfg, m, part) == Run(part.trace + lvm.trace + fs.trace, fs.result);
    }
  }

  /** main ends at its first fatal step before the LVM stage: without a
      disk it starts nothing, a failed `sfdisk -d` ends it after that one
      command, and any other failure of the partition stage ends it before
      any LVM command. */
  lemma MainStopsEarly(cfg: Config, m: Machine)
    ensures ChooseDevice(cfg.devFlag, m.blockNames).Fail? ==>
      Main(cfg, m) == Run([], Fail(ChooseDevice(cfg.devFlag, m.blockNames).fault))
    ensures ChooseDevice(cfg.devFlag, m.blockNames).Ok? ==>
      var dev := ChooseDevice(cfg.devFlag, m.blockNames).value;
      !m.run(0, DumpTable(dev)).success ==> Main(cfg, m) == Run([DumpTable(dev)], Fail(ToolFailed(DumpTable(dev), "")))
    ensures ChooseDevice(cfg.devFlag, m.blockNames).Ok? ==>
      var part := EnlargePartition(m.run, ChooseDevice(cfg.devFlag, m.blockNames).value, m.sizeText, cfg.dry, cfg.verbose);
      part.result.Fail? ==> Main(cfg, m).result == Fail(part.result.fault) && Within(Main(cfg, m).trace, 0, 2)
  {
    var choice := ChooseDevice(cfg.devFlag, m.blockNames);
    if choice.Ok? {
      var dev := choice.value;
      var plan := PlanFromDump(m.run(0, DumpTable(dev)), dev, m.sizeText, cfg.verbose);
      PlanFromDumpSpec(m.run(0, DumpTable(dev)), dev, m.sizeText, cfg.verbose);
      PartitionStageShape(m.run, dev, plan, cfg.dry);
    }
  }

  /** main after the partition stage: a failed LVM stage ends the run
      before any logical volume or filesystem command, and the run
      succeeds exactly when the disk is chosen and every stage succeeds. */
  lemma MainStopsLate(cfg: Config, m: Machine)
    ensures ChooseDevice(cfg.devFlag, m.blockNames).Ok? ==>
      var part := EnlargePartition(m.run, ChooseDevice(cfg.devFlag, m.blockNames).value, m.sizeText, cfg.dry, cfg.verbose);
      part.result.Ok? && LvmRun(cfg, m, part).result.Fail? ==>
        Main(cfg, m).result == Fail(LvmRun(cfg, m, part).result.fault) && Within(Main(cfg, m).trace, 0, 4)
    ensures Main(cfg, m).result.Ok? <==>
      && ChooseDevice(cfg.devFlag, m.blockNames).Ok?
      && StagesOk(cfg, m, EnlargePartition(m.run, ChooseDevice(cfg.devFlag, m.blockNames).value, m.sizeText, cfg.dry, cfg.verbose))
  {
    var choice := ChooseDevice(cfg.devFlag, m.blockNames);
    if choice.Ok? {
      var dev := choice.value;
      var plan := PlanFromDump(m.run(0, DumpTable(dev)), dev, m.sizeText, cfg.verbose);
      var part := EnlargePartition(m.run, dev, m.sizeText, cfg.dry, cfg.verbose);
      PartitionStageShape(m.run, dev, plan, cfg.dry);
      AfterPartitionStops(cfg, m, part);
      AfterPartitionOk(cfg, m, part);
    }
  }
}

=== FILE: results.dfy ===
/** Fatal conditions of resize.go (each a log.Fatalf or panic there) as
    values, and the Option and Result wrappers that carry them. */
module Results {
  import opened Commands

  datatype Option<+T> = None | Some(value: T)

  datatype Fault =
    | NoDevicesFound
    | AmbiguousDevice(names: seq<string>)
    | ToolFailed(cmd: Command, diagnostic: string)
    | UnsupportedDumpLine(line: string)
    | NoPartitions(dev: string)
    | UnsupportedLabel(labelName: string)
    | UnknownGptType(partType: string, dev: string)
    | UnknownMbrType(partType: string, dev: string)
    | MissingAttribute(dev: string, key: string)
    | NonIntegerAttribute(dev: string, key: string, value: string)
    | NoSizeAttribute(dev: string)
    | NonIntegerFile(path: string, text: string)
    | StatFailed(path: string)
    | SeveralFilesystems(count: nat)
    | UnknownFilesystemType(fstype: string)

  datatype Result<+T> = Ok(value: T) | Fail(fault: Fault) {
    predicate IsFailure() {
      Fail?
    }

    function PropagateFailure<U>(): Result<U>
      requires Fail?
    {
      Fail(fault)
    }

    function Extract(): T
      requires Ok?
    {
      value
    }
  }

  /** What a stage of the program did: the commands it started, in order,
      and how it ended. */
  datatype Run<+T> = Run(trace: seq<Command>, result: Result<T>)
}

=== FILE: sfdisk.dfy ===
/** The text format of `sfdisk -d` and the table resize.go reads from it
    and writes back: header lines such as `label: gpt`, a blank line, then
    one `<device> : <attr>, <attr>, ...` line per partition. Attributes are
    kept as raw text, because they are looked up by text prefix. */
module Sfdisk {
  import opened Text
  import opened Results
  import opened Numbers

  /** One partition line: its device and its attributes (`start=2048`,
      `size=497664`, `type=83`, `bootable`), in order. */
  datatype Entry = Entry(dev: string, attrs: seq<string>)

  /** A partition-table dump: header lines and partition lines, in order. */
  datatype Table = Table(meta: seq<string>, parts: seq<Entry>)

  predicate IsBlank(line: string) {
    |Trim(line)| == 0
  }

  // ---------------------------------------------------------------------
  // The forms parsing produces
  // ---------------------------------------------------------------------

  predicate CanonicalMeta(m: string) {
    |m| > 0 && Trimmed(m) && '\n' !in m
  }

  predicate CanonicalAttr(a: string) {
    Trimmed(a) && EqualsTight(a) && ',' !in a && '\n' !in a
  }

  predicate CanonicalEntry(e: Entry) {
    && Trimmed(e.dev) && ':' !in e.dev && '\n' !in e.dev
    && |e.attrs| >= 1
    && forall i :: 0 <= i < |e.attrs| ==> CanonicalAttr(e.attrs[i])
  }

  /** Every header line and partition line is in the form parsing yields. */
  predicate WellFormed(t: Table) {
    && (forall i :: 0 <= i < |t.meta| ==> CanonicalMeta(t.meta[i]))
    && (forall i :: 0 <= i < |t.parts| ==> CanonicalEntry(t.parts[i]))
  }

  // ---------------------------------------------------------------------
  // Parsing
  // ---------------------------------------------------------------------

  /** One attribute as the parser stores it: trimmed, with `\s*=\s*`
      replaced by `=`. */
  function NormalizeAttr(p: string): string {
    CollapseEquals(Trim(p))
  }

  /** A piece without `,` or newline normalises to an attribute in parsed
      form. */
  lemma NormalizeAttrCanonical(p: string)
    requires ',' !in p && '\n' !in p
    ensures CanonicalAttr(NormalizeAttr(p))
  {
    var t := Trim(p);
    TrimKeepsAbsence(p, ',');
    TrimKeepsAbsence(p, '\n');
    CollapseIsTight(t);
    CollapseKeepsTrimmed(t);
    CollapseKeepsAbsence(t, ',');
    CollapseKeepsAbsence(t, '\n');
  }

  /** Normalising an attribute already in parsed form changes nothing. */
  lemma NormalizeCanonical(a: string)
    requires CanonicalAttr(a)
    ensures NormalizeAttr(a) == a
  {
    TrimOfTrimmed(a);
    CollapseOfTight(a);
  }

  function NormalizeAttrs(ps: seq<string>): (r: seq<string>)
    ensures |r| == |ps|
    ensures forall i :: 0 <= i < |ps| ==> r[i] == NormalizeAttr(ps[i])
  {
    if |ps| == 0 then [] else [NormalizeAttr(ps[0])] + NormalizeAttrs(ps[1..])
  }

  /** Pieces without `,` or newline normalise to attributes in parsed
      form. */
  lemma NormalizeAttrsCanonical(ps: seq<string>)
    requires forall i :: 0 <= i < |ps| ==> ',' !in ps[i] && '\n' !in ps[i]
    ensures forall i :: 0 <= i < |ps| ==> CanonicalAttr(NormalizeAttrs(ps)[i])
  {
    forall i | 0 <= i < |ps| ensures CanonicalAttr(NormalizeAttrs(ps)[i]) {
      NormalizeAttrCanonical(ps[i]);
    }
  }

  /** A trimmed, non-blank line after the header: the device is the text
      before the first `:`, the attributes are the comma-separated pieces
      after it. A line without `:` is not a partition line. */
  function ParseEntry(line: string): (r: Option<Entry>)
    ensures r.None? <==> ':' !in line
  {
    var i := IndexOf(line, ':');
    if i == |line| then None
    else Some(Entry(Trim(line[..i]), NormalizeAttrs(Split(Trim(line[i + 1..]), ','))))
  }

  /** A partition line without newline parses to an entry in parsed form. */
  lemma ParseEntryCanonical(line: string)
    requires ':' in line && '\n' !in line
    ensures CanonicalEntry(ParseEntry(line).value)
  {
    var i := IndexOf(line, ':');
    var rest := Trim(line[i + 1..]);
    assert ':' !in line[..i];
    assert '\n' !in line[..i] && '\n' !in line[i + 1..];
    TrimKeepsAbsence(line[..i], ':');
    TrimKeepsAbsence(line[..i], '\n');
    TrimKeepsAbsence(line[i + 1..], '\n');
    SplitKeepsAbsence(rest, ',', '\n');
    NormalizeAttrsCanonical(Split(rest, ','));
  }

  /** The trimmed non-blank lines, in order: the lines the parser looks at
      once the header is over. */
  function NonBlank(lines: seq<string>): (r: seq<string>)
    ensures |r| <= |lines|
  {
    if |lines| == 0 then []
    else if IsBlank(lines[0]) then NonBlank(lines[1..])
    else [Trim(lines[0])] + NonBlank(lines[1..])
  }

  lemma {:induction false} NonBlankShape(lines: seq<string>)
    requires forall j :: 0 <= j < |lines| ==> '\n' !in lines[j]
    ensures forall k :: 0 <= k < |NonBlank(lines)| ==> CanonicalMeta(NonBlank(lines)[k])
    decreases |lines|
  {
    if |lines| > 0 {
      NonBlankShape(lines[1..]);
      TrimKeepsAbsence(lines[0], '\n');
    }
  }

  /** The entries parsed from the given trimmed partition lines, one each. */
  predicate ParsedFrom(es: seq<Entry>, ls: seq<string>) {
    |es| == |ls| && forall k :: 0 <= k < |es| ==> ParseEntry(ls[k]) == Some(es[k])
  }

  /** Parses trimmed partition lines in order, stopping with an error at
      the first one that has no `:`. */
  function ParseEntries(ls: seq<string>): Result<seq<Entry>>
  {
    if |ls| == 0 then Ok([])
    else match ParseEntry(ls[0])
      case None => Fail(UnsupportedDumpLine(ls[0]))
      case Some(e) =>
        match ParseEntries(ls[1..])
        case Fail(f) => Fail(f)
        case Ok(es) => Ok([e] + es)
  }

  /** The partition lines after the first blank line: blank lines are
      skipped, the others trimmed and parsed. */
  function ParseBody(lines: seq<string>): Result<seq<Entry>> {
    ParseEntries(NonBlank(lines))
  }

  /** A partition line must have a `:` between device and attributes. */
  predicate HasColon(line: string) {
    ':' in line
  }

  /** Parsing succeeds exactly when every line has a `:`. */
  lemma {:induction false} ParseEntriesSucceeds(ls: seq<string>)
    ensures ParseEntries(ls).Ok? <==> forall k :: 0 <= k < |ls| ==> HasColon(ls[k])
  {
    if |ls| > 0 {
      ParseEntriesSucceeds(ls[1..]);
      assert forall k :: 0 < k < |ls| ==> ls[k] == ls[1..][k - 1];
    }
  }

  /** A successful parse yields one entry per line, in order. */
  lemma {:induction false} ParseEntriesValues(ls: seq<string>)
    requires ParseEntries(ls).Ok?
    ensures ParsedFrom(ParseEntries(ls).value, ls)
  {
    if |ls| > 0 {
      ParseEntriesOkStep(ls);
      ParseEntriesValues(ls[1..]);
      ParsedFromCons(ParseEntry(ls[0]).value, ParseEntries(ls[1..]).value, ls);
    }
  }

  /** One step of a successful parse: the first line parses, and so does
      the rest. */
  lemma ParseEntriesOkStep(ls: seq<string>)
    requires ParseEntries(ls).Ok? && |ls| > 0
    ensures ParseEntry(ls[0]).Some? && ParseEntries(ls[1..]).Ok?
    ensures ParseEntries(ls).value == [ParseEntry(ls[0]).value] + ParseEntries(ls[1..]).value
  {
  }

  /** A line that parses to `e` in front of lines that parse to `es`. */
  lemma ParsedFromCons(e: Entry, es: seq<Entry>, ls: seq<string>)
    requires |ls| > 0 && ParseEntry(ls[0]) == Some(e) && ParsedFrom(es, ls[1..])
    ensures ParsedFrom([e] + es, ls)
  {
    var r := [e] + es;
    forall k | 0 <= k < |ls| ensures ParseEntry(ls[k]) == Some(r[k]) {
      if k > 0 {
        assert ls[k] == ls[1..][k - 1];
        assert r[k] == es[k - 1];
      }
    }
  }

  /** A failed parse names the first line without a `:`. */
  lemma {:induction false} ParseEntriesFailure(ls: seq<string>)
    requires ParseEntries(ls).Fail?
    ensures exists k :: (0 <= k < |ls| && !HasColon(ls[k])
      && ParseEntries(ls).fault == UnsupportedDumpLine(ls[k])
      && forall j :: 0 <= j < k ==> HasColon(ls[j]))
  {
    ParseEntriesFailStep(ls);
    if HasColon(ls[0]) {
      var rest := ls[1..];
      ParseEntriesFailure(rest);
      var k :| 0 <= k < |rest| && !HasColon(rest[k])
        && ParseEntries(rest).fault == UnsupportedDumpLine(rest[k])
        && forall j :: 0 <= j < k ==> HasColon(rest[j]);
      assert ls[k + 1] == rest[k];
      forall j | 0 <= j < k + 1 ensures HasColon(ls[j]) {
        if j > 0 { assert ls[j] == rest[j - 1]; }
      }
    }
  }

  /** One step of a failed parse: the first line has no `:`, or the rest
      fails with the same fault. */
  lemma ParseEntriesFailStep(ls: seq<string>)
    requires ParseEntries(ls).Fail?
    ensures |ls| > 0
    ensures !HasColon(ls[0]) ==> ParseEntries(ls).fault == UnsupportedDumpLine(ls[0])
    ensures HasColon(ls[0]) ==> ParseEntries(ls[1..]).Fail? && ParseEntries(ls).fault == ParseEntries(ls[1..]).fault
  {
  }

  /** Position of the first blank line, or the number of lines. */
  function FirstBlank(lines: seq<string>): (k: nat)
    ensures k <= |lines|
    ensures k < |lines| ==> IsBlank(lines[k])
    ensures forall j :: 0 <= j < k ==> !IsBlank(lines[j])
  {
    if |lines| == 0 then 0
    else if IsBlank(lines[0]) then 0
    else 1 + FirstBlank(lines[1..])
  }

  /** The lines after the first blank line (none when there is none). */
  function BodyLines(lines: seq<string>): seq<string> {
    var k := FirstBlank(lines);
    if k < |lines| then lines[k + 1..] else []
  }

  /** The lines of a dump: trimmed lines before the first blank line are the
      header, the non-blank lines after it are partition lines. */
  function ParseDump(lines: seq<string>): (r: Result<Table>)
    ensures r.Ok? <==> ParseBody(BodyLines(lines)).Ok?
    ensures r.Ok? ==>
      && r.value.parts == ParseBody(BodyLines(lines)).value
      && |r.value.meta| == FirstBlank(lines)
      && forall i :: 0 <= i < |r.value.meta| ==> r.value.meta[i] == Trim(lines[i])
    ensures r.Fail? ==> r.fault == ParseBody(BodyLines(lines)).fault
    decreases |lines|
  {
    if |lines| == 0 then Ok(Table([], []))
    else
      var line := Trim(lines[0]);
      if |line| == 0 then
        match ParseBody(lines[1..])
        case Fail(f) => Fail(f)
        case Ok(es) => Ok(Table([], es))
      else
        assert BodyLines(lines) == BodyLines(lines[1..]);
        match ParseDump(lines[1..])
        case Fail(f) => Fail(f)
        case Ok(t) =>
          HeaderCons(lines, t.meta);
          Ok(Table([line] + t.meta, t.parts))
  }

  /** A header line put in front of the header of the later lines. */
  lemma HeaderCons(lines: seq<string>, meta: seq<string>)
    requires 0 < |lines| && |meta| < |lines|
    requires forall i :: 0 <= i < |meta| ==> meta[i] == Trim(lines[1..][i])
    ensures forall i :: 0 <= i < |meta| + 1 ==> ([Trim(lines[0])] + meta)[i] == Trim(lines[i])
  {
    forall i | 0 < i < |meta| + 1 ensures ([Trim(lines[0])] + meta)[i] == Trim(lines[i]) {
      assert lines[1..][i - 1] == lines[i];
    }
  }

  /** getPartitionTable: parses the output of `sfdisk -d`. */
  function Parse(text: string): (r: Result<Table>)
    ensures r.Ok? ==> WellFormed(r.value)
  {
    var lines := Split(text, '\n');
    var r := ParseDump(lines);
    if r.Ok? then
      ParsedIsWellFormed(lines);
      r
    else
      r
  }

  lemma ParsedIsWellFormed(lines: seq<string>)
    requires forall j :: 0 <= j < |lines| ==> '\n' !in lines[j]
    requires ParseDump(lines).Ok?
    ensures WellFormed(ParseDump(lines).value)
  {
    MetaCanonical(lines);
    BodyCanonical(lines);
  }

  /** The header lines of a parsed dump are in parsed form. */
  lemma MetaCanonical(lines: seq<string>)
    requires forall j :: 0 <= j < |lines| ==> '\n' !in lines[j]
    requires ParseDump(lines).Ok?
    ensures forall i :: 0 <= i < |ParseDump(lines).value.meta| ==> CanonicalMeta(ParseDump(lines).value.meta[i])
  {
    var t := ParseDump(lines).value;
    forall i | 0 <= i < |t.meta| ensures CanonicalMeta(t.meta[i]) {
      TrimKeepsAbsence(lines[i], '\n');
    }
  }

  /** The partition entries of a parsed dump are in parsed form. */
  lemma BodyCanonical(lines: seq<string>)
    requires forall j :: 0 <= j < |lines| ==> '\n' !in lines[j]
    requires ParseBody(BodyLines(lines)).Ok?
    ensures forall k :: 0 <= k < |ParseBody(BodyLines(lines)).value| ==> CanonicalEntry(ParseBody(BodyLines(lines)).value[k])
  {
    var body := BodyLines(lines);
    assert forall j :: 0 <= j < |body| ==> '\n' !in body[j];
    NonBlankShape(body);
    EntriesCanonical(NonBlank(body));
  }

  /** Partition lines without newlines parse to entries in parsed form. */
  lemma EntriesCanonical(ls: seq<string>)
    requires ParseEntries(ls).Ok?
    requires forall j :: 0 <= j < |ls| ==> CanonicalMeta(ls[j])
    ensures forall k :: 0 <= k < |ParseEntries(ls).value| ==> CanonicalEntry(ParseEntries(ls).value[k])
  {
    var es := ParseEntries(ls).value;
    ParseEntriesValues(ls);
    forall k | 0 <= k < |es| ensures CanonicalEntry(es[k]) {
      assert ParseEntry(ls[k]) == Some(es[k]);
      ParseEntryCanonical(ls[k]);
    }
  }

  /** With no blank line every non-empty line is a header line and the table
      has no partitions. */
  lemma ParseWithoutBlankLine(text: string)
    requires forall j :: 0 <= j < |Split(text, '\n')| ==> !IsBlank(Split(text, '\n')[j])
    ensures Parse(text).Ok?
    ensures Parse(text).value.parts == []
    ensures |Parse(text).value.meta| == |Split(text, '\n')|
    ensures forall i :: 0 <= i < |Split(text, '\n')| ==> Parse(text).value.meta[i] == Trim(Split(text, '\n')[i])
  {
    var lines := Split(text, '\n');
    assert FirstBlank(lines) == |lines|;
    assert BodyLines(lines) == [];
  }

  /** The same for a text ending in a newline, as a dump does: the empty
      piece after the final newline ends the header and there are still no
      partitions. */
  lemma ParseWithoutBlankLineTerminated(text: string)
    requires forall j :: 0 <= j < |Split(text, '\n')| ==> !IsBlank(Split(text, '\n')[j])
    ensures Parse(text + "\n").Ok?
    ensures Parse(text + "\n").value.parts == []
    ensures |Parse(text + "\n").value.meta| == |Split(text, '\n')|
    ensures forall i :: 0 <= i < |Split(text, '\n')| ==> Parse(text + "\n").value.meta[i] == Trim(Split(text, '\n')[i])
  {
    var lines := Split(text, '\n');
    SplitSepSnoc(text, '\n');
    var all := Split(text + "\n", '\n');
    assert all == lines + [""];
    assert IsBlank(all[|lines|]);
    assert forall j :: 0 <= j < |lines| ==> all[j] == lines[j];
    assert FirstBlank(all) == |lines|;
    assert BodyLines(all) == [];
  }

  // ---------------------------------------------------------------------
  // Writing
  // ---------------------------------------------------------------------

  /** sfdiskLine.String: `<device> : <attr>, <attr>, ...`. */
  function EntryLine(e: Entry): string {
    e.dev + " : " + Join(e.attrs, ", ")
  }

  function MetaText(meta: seq<string>): string {
    if |meta| == 0 then "" else meta[0] + "\n" + MetaText(meta[1..])
  }

  function BodyText(parts: seq<Entry>): string {
    if |parts| == 0 then "" else EntryLine(parts[0]) + "\n" + BodyText(parts[1..])
  }

  /** partitionTable.Write: each header line and a newline, one blank line,
      then each partition line and a newline. */
  function Write(t: Table): string {
    MetaText(t.meta) + "\n" + BodyText(t.parts)
  }

  // ---------------------------------------------------------------------
  // Accessors and mutators
  // ---------------------------------------------------------------------

  /** partitionTable.Meta: the trimmed text after `k:` on the first header
      line that starts with `k:`, or "" when no line does. */
  function Meta(rows: seq<string>, k: string): string {
    if |rows| == 0 then ""
    else if HasPrefix(rows[0], k + ":") then Trim(rows[0][|k| + 1..])
    else Meta(rows[1..], k)
  }

  /** Number of rows that start with `p`. */
  function CountWithPrefix(rows: seq<string>, p: string): nat {
    if |rows| == 0 then 0
    else (if HasPrefix(rows[0], p) then 1 else 0) + CountWithPrefix(rows[1..], p)
  }

  /** partitionTable.RemoveMeta: drops the header lines that start with
      `key: `. */
  function RemoveMeta(rows: seq<string>, key: string): seq<string> {
    if |rows| == 0 then []
    else if HasPrefix(rows[0], key + ": ") then RemoveMeta(rows[1..], key)
    else [rows[0]] + RemoveMeta(rows[1..], key)
  }

  /** An attribute that Attr(key) stops at: the bare flag `key` or `key=...`. */
  predicate AttrMatches(a: string, key: string) {
    a == key || HasPrefix(a, key + "=")
  }

  /** sfdiskLine.Attr over the attribute list. */
  function AttrIn(attrs: seq<string>, key: string): string {
    if |attrs| == 0 then ""
    else if key == attrs[0] then key
    else if HasPrefix(attrs[0], key + "=") then Trim(attrs[0][|key| + 1..])
    else AttrIn(attrs[1..], key)
  }

  function Attr(e: Entry, key: string): string {
    AttrIn(e.attrs, key)
  }

  /** sfdiskLine.AttrInt64: the attribute's value as an int64; a missing or
      non-integer value is fatal. */
  function AttrInt64(e: Entry, key: string): (r: Result<Int64>)
    ensures r.Ok? <==> ParseInt64(Attr(e, key)).Some?
    ensures r.Ok? ==> Some(r.value) == ParseInt64(Attr(e, key))
    ensures Attr(e, key) == "" ==> r == Fail(MissingAttribute(e.dev, key))
  {
    var v := Attr(e, key);
    if v == "" then Fail(MissingAttribute(e.dev, key))
    else match ParseInt64(v)
      case None => Fail(NonIntegerAttribute(e.dev, key, v))
      case Some(n) => Ok(n)
  }

  function Type(e: Entry): string {
    Attr(e, "type")
  }

  function Start(e: Entry): Result<Int64> {
    AttrInt64(e, "start")
  }

  function Size(e: Entry): Result<Int64> {
    AttrInt64(e, "size")
  }

  /** Position of the first attribute starting with `size=`, or the number
      of attributes. */
  function SizeIndex(attrs: seq<string>): (i: nat)
    ensures i <= |attrs|
    ensures i < |attrs| ==> HasPrefix(attrs[i], "size=")
    ensures forall j :: 0 <= j < i ==> !HasPrefix(attrs[j], "size=")
  {
    if |attrs| == 0 then 0
    else if HasPrefix(attrs[0], "size=") then 0
    else 1 + SizeIndex(attrs[1..])
  }

  /** sfdiskLine.SetSize: rewrites the first `size=` attribute to
      `size=<n>`; with no such attribute the source panics. */
  function SetSize(e: Entry, n: Int64): Result<Entry> {
    var i := SizeIndex(e.attrs);
    if i == |e.attrs| then Fail(NoSizeAttribute(e.dev))
    else Ok(Entry(e.dev, e.attrs[i := "size=" + FormatInt(n)]))
  }
}

=== FILE: sfdisk_edit.dfy ===
/** How the accessors and mutators of the partition table interact: what
    sfdiskLine.SetSize and partitionTable.RemoveMeta change, and what they
    leave alone. */
module SfdiskEdit {
  import opened Text
  import opened Results
  import opened Numbers
  import opened Sfdisk

  /** Meta returns the trimmed text after `k:` on the first header line
      that starts with `k:`. */
  lemma {:induction false} MetaFirstMatch(rows: seq<string>, k: string, i: nat)
    requires i < |rows| && HasPrefix(rows[i], k + ":")
    requires forall j :: 0 <= j < i ==> !HasPrefix(rows[j], k + ":")
    ensures Meta(rows, k) == Trim(rows[i][|k| + 1..])
  {
    if i > 0 {
      MetaFirstMatch(rows[1..], k, i - 1);
    }
  }

  /** Meta is "" when no header line starts with `k:`. */
  lemma {:induction false} MetaNoMatch(rows: seq<string>, k: string)
    requires forall j :: 0 <= j < |rows| ==> !HasPrefix(rows[j], k + ":")
    ensures Meta(rows, k) == ""
  {
    if |rows| > 0 {
      MetaNoMatch(rows[1..], k);
    }
  }

  /** RemoveMeta drops exactly the lines that start with `key: ` and keeps
      the others in their order. */
  lemma {:induction false} RemoveMetaSpec(rows: seq<string>, key: string)
    ensures forall i :: 0 <= i < |RemoveMeta(rows, key)| ==> !HasPrefix(RemoveMeta(rows, key)[i], key + ": ")
    ensures |RemoveMeta(rows, key)| + CountWithPrefix(rows, key + ": ") == |rows|
    ensures IsSubsequence(RemoveMeta(rows, key), rows)
  {
    if |rows| > 0 {
      RemoveMetaSpec(rows[1..], key);
      var r := RemoveMeta(rows[1..], key);
      if !HasPrefix(rows[0], key + ": ") {
        assert ([rows[0]] + r)[1..] == r;
      } else if |r| > 0 {
        SubsequenceSkip(r, rows);
      }
    }
  }

  /** Attr(key) is decided by the first attribute that matches `key`: the
      key itself for a bare flag, else the trimmed text after `key=`. */
  lemma {:induction false} AttrFirstMatch(attrs: seq<string>, key: string, i: nat)
    requires i < |attrs| && AttrMatches(attrs[i], key)
    requires forall j :: 0 <= j < i ==> !AttrMatches(attrs[j], key)
    ensures AttrIn(attrs, key) == (if attrs[i] == key then key else Trim(attrs[i][|key| + 1..]))
  {
    if i > 0 {
      AttrFirstMatch(attrs[1..], key, i - 1);
    }
  }

  /** Attr(key) is "" when no attribute matches `key`. */
  lemma {:induction false} AttrNoMatch(attrs: seq<string>, key: string)
    requires forall j :: 0 <= j < |attrs| ==> !AttrMatches(attrs[j], key)
    ensures AttrIn(attrs, key) == ""
  {
    if |attrs| > 0 {
      AttrNoMatch(attrs[1..], key);
    }
  }

  /** SetSize fails exactly when there is no `size=` attribute; otherwise it
      keeps the device and the attribute count and rewrites only the first
      `size=` attribute, to `size=<n>`. */
  lemma SetSizeSpec(e: Entry, n: Int64)
    ensures SetSize(e, n).Ok? <==> exists i :: 0 <= i < |e.attrs| && HasPrefix(e.attrs[i], "size=")
    ensures SetSize(e, n).Fail? ==> SetSize(e, n).fault == NoSizeAttribute(e.dev)
    ensures SetSize(e, n).Ok? ==>
      var r := SetSize(e, n).value;
      && r.dev == e.dev
      && |r.attrs| == |e.attrs|
      && exists i :: (0 <= i < |e.attrs|
           && HasPrefix(e.attrs[i], "size=")
           && (forall j :: 0 <= j < i ==> !HasPrefix(e.attrs[j], "size="))
           && r.attrs[i] == "size=" + FormatInt(n)
           && (forall j :: 0 <= j < |e.attrs| && j != i ==> r.attrs[j] == e.attrs[j]))
  {
    var i := SizeIndex(e.attrs);
    if i < |e.attrs| {
      assert HasPrefix(e.attrs[i], "size=");
    }
  }

  /** Replacing an attribute that does not match `key` by another that does
      not either leaves the lookup of `key` unchanged. */
  lemma {:induction false} AttrInUpdate(attrs: seq<string>, i: nat, v: string, key: string)
    requires i < |attrs|
    requires !AttrMatches(attrs[i], key) && !AttrMatches(v, key)
    ensures AttrIn(attrs[i := v], key) == AttrIn(attrs, key)
  {
    if i > 0 {
      AttrInUpdate(attrs[1..], i - 1, v, key);
      assert attrs[i := v][1..] == attrs[1..][i - 1 := v];
    }
  }

  /** A `size` lookup that yields an integer stops at the first `size=`
      attribute, the one SetSize rewrites. */
  lemma {:induction false} SizeLookup(attrs: seq<string>)
    requires AttrIn(attrs, "size") != "" && AttrIn(attrs, "size") != "size"
    ensures SizeIndex(attrs) < |attrs|
    ensures AttrIn(attrs, "size") == Trim(attrs[SizeIndex(attrs)][5..])
    ensures forall j :: 0 <= j < SizeIndex(attrs) ==> !AttrMatches(attrs[j], "size")
  {
    if !AttrMatches(attrs[0], "size") {
      SizeLookup(attrs[1..]);
    }
  }

  /** The text SetSize writes is an attribute in parsed form. */
  lemma SizeAttrCanonical(n: int)
    ensures CanonicalAttr("size=" + FormatInt(n))
    ensures HasPrefix("size=" + FormatInt(n), "size=")
  {
    var a := "size=" + FormatInt(n);
    FormatIntChars(n);
    assert a[0] == 's';
    assert a[|a| - 1] == FormatInt(n)[|FormatInt(n)| - 1];
    forall i | 0 <= i < |a| ensures a[i] != ',' && a[i] != '\n' && (a[i] == '=' ==> i == 4) {
      if i >= 5 { assert a[i] == FormatInt(n)[i - 5]; }
    }
    assert a[5] == FormatInt(n)[0];
  }

  /** A `size=` attribute matches neither `start` nor `type`. */
  lemma SizeAttrIsNotStartOrType(a: string)
    requires HasPrefix(a, "size=")
    ensures !AttrMatches(a, "start") && !AttrMatches(a, "type")
  {
    assert a[0] == 's' && a[1] == 'i';
  }

  /** SetSize rewrites an attribute that matches neither `start` nor
      `type`, so the start and the type read as before. */
  lemma SetSizeKeepsOthers(e: Entry, n: Int64)
    requires SetSize(e, n).Ok?
    ensures Start(SetSize(e, n).value) == Start(e)
    ensures Type(SetSize(e, n).value) == Type(e)
  {
    var i := SizeIndex(e.attrs);
    var v := "size=" + FormatInt(n);
    assert SetSize(e, n).value.attrs == e.attrs[i := v];
    SizeAttrIsNotStartOrType(e.attrs[i]);
    SizeAttrIsNotStartOrType(v);
    AttrInUpdate(e.attrs, i, v, "start");
    AttrInUpdate(e.attrs, i, v, "type");
  }

  /** After SetSize(n) on an entry whose size reads as an integer, the
      `size` attribute reads as the decimal text of n. */
  lemma SetSizeAttr(e: Entry, n: Int64)
    requires Attr(e, "size") != "" && Attr(e, "size") != "size"
    ensures SetSize(e, n).Ok?
    ensures Attr(SetSize(e, n).value, "size") == FormatInt(n)
  {
    SizeLookup(e.attrs);
    var i := SizeIndex(e.attrs);
    var v := "size=" + FormatInt(n);
    var attrs := e.attrs[i := v];
    assert SetSize(e, n).value.attrs == attrs;
    forall j | 0 <= j < i ensures !AttrMatches(attrs[j], "size") {
      assert attrs[j] == e.attrs[j];
    }
    SizeAttrValue(n);
    AttrFirstMatch(attrs, "size", i);
  }

  /** The attribute SetSize writes matches `size` and reads back as the
      decimal text of n. */
  lemma SizeAttrValue(n: Int64)
    ensures var v := "size=" + FormatInt(n);
      AttrMatches(v, "size") && v != "size" && Trim(v[5..]) == FormatInt(n)
  {
    var v := "size=" + FormatInt(n);
    assert v[..5] == "size=" && v[5..] == FormatInt(n);
    FormatIntTrimmed(n);
  }

  /** The decimal text of a number has no surrounding white space. */
  lemma FormatIntTrimmed(n: Int64)
    ensures Trim(FormatInt(n)) == FormatInt(n)
  {
    var s := FormatInt(n);
    FormatIntChars(n);
    assert !IsSpace(s[0]) && !IsSpace(s[|s| - 1]);
    TrimOfTrimmed(s);
  }

  /** After SetSize(n) on an entry whose size reads as an integer, its size
      reads as n. */
  lemma SetSizeReadsBack(e: Entry, n: Int64)
    requires Size(e).Ok?
    ensures SetSize(e, n).Ok?
    ensures Size(SetSize(e, n).value) == Ok(n)
  {
    var v := Attr(e, "size");
    assert ParseInt64(v).Some?;
    assert "size"[0] == 's';
    SetSizeAttr(e, n);
    ParseFormat(n);
  }

  /** After SetSize(n) on an entry whose size reads as an integer, its size
      reads as n and its start and type read as before. */
  lemma SetSizeThenSize(e: Entry, n: Int64)
    requires Size(e).Ok?
    ensures SetSize(e, n).Ok?
    ensures Size(SetSize(e, n).value) == Ok(n)
    ensures Start(SetSize(e, n).value) == Start(e)
    ensures Type(SetSize(e, n).value) == Type(e)
  {
    SetSizeReadsBack(e, n);
    SetSizeKeepsOthers(e, n);
  }

  /** SetSize keeps an entry in parsed form. */
  lemma SetSizeCanonical(e: Entry, n: Int64)
    requires CanonicalEntry(e) && SetSize(e, n).Ok?
    ensures CanonicalEntry(SetSize(e, n).value)
  {
    SizeAttrCanonical(n);
  }

  /** Every line RemoveMeta keeps was there before. */
  lemma {:induction false} RemoveMetaKeeps(rows: seq<string>, key: string)
    ensures forall i :: 0 <= i < |RemoveMeta(rows, key)| ==> RemoveMeta(rows, key)[i] in rows
  {
    if |rows| > 0 {
      RemoveMetaKeeps(rows[1..], key);
    }
  }

  /** Removing the `key: ` lines does not change the value of a header
      `k` whose lines can never start with `key: `. */
  lemma {:induction false} MetaAfterRemove(rows: seq<string>, k: string, key: string)
    requires forall i :: 0 <= i < |rows| ==> !(HasPrefix(rows[i], k + ":") && HasPrefix(rows[i], key + ": "))
    ensures Meta(RemoveMeta(rows, key), k) == Meta(rows, k)
  {
    if |rows| > 0 {
      MetaAfterRemove(rows[1..], k, key);
    }
  }

  /** No header line starts with both `label:` and `last-lba: `. */
  lemma LabelNotLastLba(s: string)
    ensures !(HasPrefix(s, "label:") && HasPrefix(s, "last-lba: "))
  {
    if HasPrefix(s, "label:") {
      assert s[2] == 'b';
    }
  }
}

=== FILE: sfdisk_roundtrip.dfy ===
/** Writing a partition table and reading it back: the text that
    partitionTable.Write produces parses to the same table, so the script
    handed to `sfdisk -f` describes exactly the table that was edited. */
module SfdiskRoundTrip {
  import opened Text
  import opened Results
  import opened Sfdisk

  // ---------------------------------------------------------------------
  // One partition line
  // ---------------------------------------------------------------------

  /** The trimmed form of a line is the slice between its leading and
      trailing white space. */
  lemma TrimSlice(line: string) returns (a: nat)
    ensures a + |Trim(line)| <= |line|
    ensures Trim(line) == line[a..a + |Trim(line)|]
    ensures forall k :: 0 <= k < a ==> IsSpace(line[k])
    ensures forall k :: a + |Trim(line)| <= k < |line| ==> IsSpace(line[k])
  {
    var u := TrimLeft(line);
    a := |line| - |u|;
    TrimLeftSuffix(line);
    TrimRightPrefix(u);
    var m := |TrimRight(u)|;
    forall k | a + m <= k < |line| ensures IsSpace(line[k]) {
      assert line[k] == u[k - a];
    }
  }

  /** Trimming ignores white space outside `s[lo..hi]`. */
  lemma TrimIgnoresPad(s: string, lo: nat, hi: nat)
    requires lo <= hi <= |s|
    requires forall k :: 0 <= k < lo ==> IsSpace(s[k])
    requires forall k :: hi <= k < |s| ==> IsSpace(s[k])
    ensures Trim(s) == Trim(s[lo..hi])
  {
    var x, y, z := s[..lo], s[lo..hi], s[hi..];
    assert s == x + y + z;
    forall k | 0 <= k < |x| ensures IsSpace(x[k]) {
      assert x[k] == s[k];
    }
    forall k | 0 <= k < |z| ensures IsSpace(z[k]) {
      assert z[k] == s[hi + k];
    }
    TrimPadded(x, y, z);
  }

  /** The first `:` of a line sits at the same place in a slice `t` that
      only leaves out white space, shifted by the `a` characters in front. */
  lemma ColonInSlice(line: string, t: string, a: nat)
    requires ':' in line
    requires a + |t| <= |line| && t == line[a..a + |t|]
    requires forall k :: 0 <= k < a ==> IsSpace(line[k])
    requires forall k :: a + |t| <= k < |line| ==> IsSpace(line[k])
    ensures a <= IndexOf(line, ':') < a + |t|
    ensures IndexOf(t, ':') == IndexOf(line, ':') - a < |t|
    ensures ':' in t
  {
    var i := IndexOf(line, ':');
    assert line[i] == ':' && !IsSpace(line[i]);
    assert a <= i < a + |t|;
    var j := i - a;
    assert t[j] == line[i];
    forall k | 0 <= k < j ensures t[k] != ':' {
      assert t[k] == line[a + k];
    }
    IndexOfAt(t, ':', j);
  }

  /** The device text is the same, up to white space, whether or not the
      line was trimmed first: `t` is the line without its `a` leading and
      some trailing white space, and `i` the position of the `:`. */
  lemma SliceHead(line: string, t: string, a: nat, i: nat, j: nat)
    requires a <= i < a + |t| <= |line| && j == i - a
    requires t == line[a..a + |t|]
    requires forall k :: 0 <= k < a ==> IsSpace(line[k])
    ensures Trim(t[..j]) == Trim(line[..i])
  {
    var head := line[..i];
    assert head[a..i] == t[..j];
    TrimIgnoresPad(head, a, i);
  }

  /** So is the attribute text. */
  lemma SliceTail(line: string, t: string, a: nat, i: nat, j: nat)
    requires a <= i < a + |t| <= |line| && j == i - a
    requires t == line[a..a + |t|]
    requires forall k :: a + |t| <= k < |line| ==> IsSpace(line[k])
    ensures Trim(t[j + 1..]) == Trim(line[i + 1..])
  {
    var m := a + |t|;
    var e := m - i - 1;
    var tail := line[i + 1..];
    assert tail[..e] == t[j + 1..];
    forall k | e <= k < |tail| ensures IsSpace(tail[k]) {
      assert tail[k] == line[i + 1 + k];
    }
    TrimIgnoresPad(tail, 0, e);
    assert tail[0..e] == tail[..e];
  }

  /** White space around a partition line does not change how it parses. */
  lemma ParseEntryOfTrim(line: string)
    requires ':' in line
    ensures ParseEntry(Trim(line)) == ParseEntry(line)
  {
    TrimmedParts(line);
    ParseEntrySameParts(line, Trim(line));
  }

  /** Trimming a line keeps its `:`, and its device and attribute texts up
      to surrounding white space. */
  lemma TrimmedParts(line: string)
    requires ':' in line
    ensures ':' in Trim(line)
    ensures Trim(Trim(line)[..IndexOf(Trim(line), ':')]) == Trim(line[..IndexOf(line, ':')])
    ensures Trim(Trim(line)[IndexOf(Trim(line), ':') + 1..]) == Trim(line[IndexOf(line, ':') + 1..])
  {
    var a := TrimSlice(line);
    SliceParts(line, Trim(line), a);
  }

  /** The device and attribute texts of a slice that only leaves out white
      space agree with the line's, up to surrounding white space. */
  lemma SliceParts(line: string, t: string, a: nat)
    requires ':' in line
    requires a + |t| <= |line| && t == line[a..a + |t|]
    requires forall k :: 0 <= k < a ==> IsSpace(line[k])
    requires forall k :: a + |t| <= k < |line| ==> IsSpace(line[k])
    ensures ':' in t
    ensures Trim(t[..IndexOf(t, ':')]) == Trim(line[..IndexOf(line, ':')])
    ensures Trim(t[IndexOf(t, ':') + 1..]) == Trim(line[IndexOf(line, ':') + 1..])
  {
    ColonInSlice(line, t, a);
    SliceHead(line, t, a, IndexOf(line, ':'), IndexOf(t, ':'));
    SliceTail(line, t, a, IndexOf(line, ':'), IndexOf(t, ':'));
  }

  /** Two lines whose device texts and attribute texts agree up to
      surrounding white space parse alike. */
  lemma ParseEntrySameParts(x: string, y: string)
    requires ':' in x && ':' in y
    requires Trim(y[..IndexOf(y, ':')]) == Trim(x[..IndexOf(x, ':')])
    requires Trim(y[IndexOf(y, ':') + 1..]) == Trim(x[IndexOf(x, ':') + 1..])
    ensures ParseEntry(y) == ParseEntry(x)
  {
    ParseEntryAt(x);
    ParseEntryAt(y);
  }

  /** A line with a `:` parses to the trimmed text before it and the
      normalised pieces after it. */
  lemma ParseEntryAt(line: string)
    requires ':' in line
    ensures ParseEntry(line) == Some(Entry(Trim(line[..IndexOf(line, ':')]),
      NormalizeAttrs(Split(Trim(line[IndexOf(line, ':') + 1..]), ','))))
  {
  }

  /** A white-space character in front of or behind an attribute is
      dropped by normalisation. */
  lemma NormalizeAttrPadded(c: char, p: string)
    requires IsSpace(c)
    ensures NormalizeAttr([c] + p) == NormalizeAttr(p)
    ensures NormalizeAttr(p + [c]) == NormalizeAttr(p)
  {
    TrimConsSpace(c, p);
    TrimSnocSpace(p, c);
  }

  /** A white-space character in front of the attribute text changes no
      parsed attribute. */
  lemma NormalizeConsSpace(c: char, s: string)
    requires IsSpace(c)
    ensures NormalizeAttrs(Split([c] + s, ',')) == NormalizeAttrs(Split(s, ','))
  {
    var ps := Split(s, ',');
    var qs := Split([c] + s, ',');
    SplitCons(c, s, ',');
    NormalizeAttrPadded(c, ps[0]);
    var l := NormalizeAttrs(qs);
    var r := NormalizeAttrs(ps);
    forall k | 0 <= k < |r| ensures l[k] == r[k] {
      if k > 0 { assert qs[k] == ps[k]; }
    }
  }

  /** Likewise for a white-space character at the end. */
  lemma NormalizeSnocSpace(s: string, c: char)
    requires IsSpace(c)
    ensures NormalizeAttrs(Split(s + [c], ',')) == NormalizeAttrs(Split(s, ','))
  {
    SplitSnoc(s, c, ',');
    NormalizeLastPadded(Split(s, ','), Split(s + [c], ','), c);
  }

  /** Padding the last piece with white space changes no parsed
      attribute. */
  lemma NormalizeLastPadded(ps: seq<string>, qs: seq<string>, c: char)
    requires IsSpace(c) && |ps| > 0
    requires qs == ps[..|ps| - 1] + [ps[|ps| - 1] + [c]]
    ensures NormalizeAttrs(qs) == NormalizeAttrs(ps)
  {
    var n := |ps|;
    var l := NormalizeAttrs(qs);
    var r := NormalizeAttrs(ps);
    forall k | 0 <= k < n ensures l[k] == r[k] {
      if k < n - 1 {
        assert qs[k] == ps[k];
      } else {
        assert qs[k] == ps[k] + [c];
        NormalizeAttrPadded(c, ps[k]);
      }
    }
    assert l == r;
  }

  lemma {:induction false} NormalizeTrimLeft(s: string)
    ensures NormalizeAttrs(Split(TrimLeft(s), ',')) == NormalizeAttrs(Split(s, ','))
    decreases |s|
  {
    if |s| > 0 && IsSpace(s[0]) {
      NormalizeTrimLeft(s[1..]);
      assert s == [s[0]] + s[1..];
      NormalizeConsSpace(s[0], s[1..]);
    }
  }

  lemma {:induction false} NormalizeTrimRight(s: string)
    ensures NormalizeAttrs(Split(TrimRight(s), ',')) == NormalizeAttrs(Split(s, ','))
    decreases |s|
  {
    if |s| > 0 && IsSpace(s[|s| - 1]) {
      var p := s[..|s| - 1];
      NormalizeTrimRight(p);
      assert s == p + [s[|s| - 1]];
      NormalizeSnocSpace(p, s[|s| - 1]);
    }
  }

  /** Trimming the whole attribute text first changes no parsed attribute,
      since every piece is trimmed anyway. */
  lemma NormalizeTrim(s: string)
    ensures NormalizeAttrs(Split(Trim(s), ',')) == NormalizeAttrs(Split(s, ','))
  {
    NormalizeTrimLeft(s);
    NormalizeTrimRight(TrimLeft(s));
  }

  /** Attributes in parsed form, joined with ", ", split back into
      themselves. */
  lemma {:induction false} JoinedAttrs(attrs: seq<string>)
    requires |attrs| >= 1
    requires forall i :: 0 <= i < |attrs| ==> CanonicalAttr(attrs[i])
    ensures NormalizeAttrs(Split(Join(attrs, ", "), ',')) == attrs
  {
    if |attrs| == 1 {
      SplitNoSep(attrs[0], ',');
      NormalizeCanonical(attrs[0]);
    } else {
      var j := Join(attrs[1..], ", ");
      assert Join(attrs, ", ") == attrs[0] + [','] + ([' '] + j);
      SplitAtSep(attrs[0], ',', [' '] + j);
      var ps := Split([' '] + j, ',');
      NormalizeConsSpace(' ', j);
      assert forall i :: 0 <= i < |attrs| - 1 ==> attrs[1..][i] == attrs[i + 1];
      JoinedAttrs(attrs[1..]);
      NormalizeConsCanonical(attrs[0], ps);
      assert attrs == [attrs[0]] + attrs[1..];
    }
  }

  /** An attribute in parsed form in front of other pieces survives
      normalisation unchanged. */
  lemma NormalizeConsCanonical(a: string, ps: seq<string>)
    requires CanonicalAttr(a)
    ensures NormalizeAttrs([a] + ps) == [a] + NormalizeAttrs(ps)
  {
    NormalizeCanonical(a);
    var l := NormalizeAttrs([a] + ps);
    var r := [a] + NormalizeAttrs(ps);
    forall k | 0 <= k < |l| ensures l[k] == r[k] {
      if k > 0 {
        assert ([a] + ps)[k] == ps[k - 1];
      }
    }
  }

  /** sfdiskLine.String followed by the parser gives the entry back. */
  lemma EntryLineParses(e: Entry)
    requires CanonicalEntry(e)
    ensures ParseEntry(EntryLine(e)) == Some(e)
    ensures ParseEntry(Trim(EntryLine(e))) == Some(e)
  {
    var j := Join(e.attrs, ", ");
    var x := e.dev + " ";
    var line := EntryLine(e);
    assert line == x + [':'] + ([' '] + j);
    assert ':' !in x;
    IndexOfAfter(x, ':', [' '] + j);
    assert line[..|x|] == x;
    assert line[|x| + 1..] == [' '] + j;
    TrimSnocSpace(e.dev, ' ');
    TrimOfTrimmed(e.dev);
    TrimConsSpace(' ', j);
    NormalizeTrim(j);
    JoinedAttrs(e.attrs);
    assert line[|x|] == ':';
    ParseEntryOfTrim(line);
  }

  // ---------------------------------------------------------------------
  // The whole dump
  // ---------------------------------------------------------------------

  /** The partition lines of a table, as sfdiskLine.String writes them. */
  function EntryLines(ps: seq<Entry>): (r: seq<string>)
    ensures |r| == |ps|
    ensures forall k :: 0 <= k < |ps| ==> r[k] == EntryLine(ps[k])
  {
    seq(|ps|, k requires 0 <= k < |ps| => EntryLine(ps[k]))
  }

  /** Lines each followed by a newline split back into those lines. */
  lemma {:induction false} SplitMetaText(rows: seq<string>, rest: string)
    requires forall i :: 0 <= i < |rows| ==> '\n' !in rows[i]
    ensures Split(MetaText(rows) + rest, '\n') == rows + Split(rest, '\n')
  {
    if |rows| > 0 {
      var more := MetaText(rows[1..]) + rest;
      assert MetaText(rows) + rest == rows[0] + ['\n'] + more;
      SplitAtSep(rows[0], '\n', more);
      SplitMetaText(rows[1..], rest);
      assert rows == [rows[0]] + rows[1..];
    } else {
      assert MetaText(rows) + rest == rest;
    }
  }

  lemma {:induction false} BodyTextLines(ps: seq<Entry>)
    ensures BodyText(ps) == MetaText(EntryLines(ps))
  {
    if |ps| > 0 {
      BodyTextLines(ps[1..]);
      assert EntryLines(ps)[1..] == EntryLines(ps[1..]);
    }
  }

  /** The lines of the written text: the header lines, a blank line, the
      partition lines, and the empty piece after the final newline. */
  lemma WriteLines(t: Table)
    requires WellFormed(t)
    ensures Split(Write(t), '\n') == t.meta + [""] + EntryLines(t.parts) + [""]
  {
    BodyTextLines(t.parts);
    EntryLinesOneLine(t.parts);
    TwoBlocks(t.meta, EntryLines(t.parts));
  }

  /** A partition line in parsed form holds no newline. */
  lemma EntryLinesOneLine(ps: seq<Entry>)
    requires forall i :: 0 <= i < |ps| ==> CanonicalEntry(ps[i])
    ensures forall k :: 0 <= k < |ps| ==> '\n' !in EntryLines(ps)[k]
  {
    forall k | 0 <= k < |ps| ensures '\n' !in EntryLines(ps)[k] {
      var e := ps[k];
      JoinKeepsAbsence(e.attrs, ", ", '\n');
      assert EntryLine(e) == e.dev + " : " + Join(e.attrs, ", ");
    }
  }

  /** Two blocks of lines, each line followed by a newline, with a newline
      between the blocks, split into the first block, an empty line, the
      second block and the empty piece after the final newline. */
  lemma TwoBlocks(xs: seq<string>, ys: seq<string>)
    requires forall i :: 0 <= i < |xs| ==> '\n' !in xs[i]
    requires forall i :: 0 <= i < |ys| ==> '\n' !in ys[i]
    ensures Split(MetaText(xs) + "\n" + MetaText(ys), '\n') == xs + [""] + ys + [""]
  {
    var a := MetaText(xs);
    var b := MetaText(ys);
    var rest := "\n" + b;
    calc {
      Split(a + "\n" + b, '\n');
      { TextAssoc(a, b); }
      Split(a + rest, '\n');
      { SplitMetaText(xs, rest); }
      xs + Split(rest, '\n');
      { SplitNewlineFirst(b); }
      xs + ([""] + Split(b, '\n'));
      { SplitLinesEnd(ys); }
      xs + ([""] + (ys + [""]));
      { BlocksAssoc(xs, ys); }
      xs + [""] + ys + [""];
    }
  }

  /** Regrouping the newline between two texts. */
  lemma TextAssoc(a: string, b: string)
    ensures a + "\n" + b == a + ("\n" + b)
  {
  }

  /** Regrouping the lines of two blocks. */
  lemma BlocksAssoc(xs: seq<string>, ys: seq<string>)
    ensures xs + ([""] + (ys + [""])) == xs + [""] + ys + [""]
  {
  }

  /** A text that starts with a newline splits into an empty line and the
      lines of the rest. */
  lemma SplitNewlineFirst(b: string)
    ensures Split("\n" + b, '\n') == [""] + Split(b, '\n')
  {
    assert "\n" + b == "" + ['\n'] + b;
    SplitAtSep("", '\n', b);
  }

  /** Lines each followed by a newline split into those lines and the empty
      piece after the final newline. */
  lemma SplitLinesEnd(ys: seq<string>)
    requires forall i :: 0 <= i < |ys| ==> '\n' !in ys[i]
    ensures Split(MetaText(ys), '\n') == ys + [""]
  {
    assert MetaText(ys) + "" == MetaText(ys);
    SplitMetaText(ys, "");
    assert Split("", '\n') == [""];
  }

  /** Blank-line skipping over non-blank lines and a final empty one keeps
      every line, trimmed. */
  lemma {:induction false} NonBlankOfLines(ls: seq<string>)
    requires forall k :: 0 <= k < |ls| ==> !IsBlank(ls[k])
    ensures NonBlank(ls + [""]) == seq(|ls|, k requires 0 <= k < |ls| => Trim(ls[k]))
  {
    if |ls| == 0 {
      assert IsBlank("");
      assert NonBlank([""]) == NonBlank([""][1..]);
    } else {
      NonBlankOfLines(ls[1..]);
      assert (ls + [""])[1..] == ls[1..] + [""];
    }
  }

  /** Lines that each parse make the whole sequence parse, in order. */
  lemma {:induction false} ParseEntriesOfParsed(ls: seq<string>, es: seq<Entry>)
    requires ParsedFrom(es, ls)
    ensures ParseEntries(ls) == Ok(es)
  {
    if |ls| > 0 {
      ParsedFromTail(es, ls);
      ParseEntriesOfParsed(ls[1..], es[1..]);
      ParseEntriesCons(ls, es[0], es[1..]);
      assert es == [es[0]] + es[1..];
    }
  }

  /** Dropping the first line and its entry keeps the correspondence. */
  lemma ParsedFromTail(es: seq<Entry>, ls: seq<string>)
    requires ParsedFrom(es, ls) && |ls| > 0
    ensures ParsedFrom(es[1..], ls[1..])
    ensures ParseEntry(ls[0]) == Some(es[0])
  {
    forall k | 0 <= k < |ls| - 1 ensures ParseEntry(ls[1..][k]) == Some(es[1..][k]) {
      assert ls[1..][k] == ls[k + 1];
    }
  }

  /** A parsed first line in front of parsed lines. */
  lemma ParseEntriesCons(ls: seq<string>, e: Entry, es: seq<Entry>)
    requires |ls| > 0 && ParseEntry(ls[0]) == Some(e) && ParseEntries(ls[1..]) == Ok(es)
    ensures ParseEntries(ls) == Ok([e] + es)
  {
  }

  /** partitionTable.Write followed by getPartitionTable gives the table
      back, for every table in the form the parser produces. */
  lemma WriteRoundTrip(t: Table)
    requires WellFormed(t)
    ensures Parse(Write(t)) == Ok(t)
  {
    var el := EntryLines(t.parts);
    WriteLines(t);
    forall i | 0 <= i < |t.meta| ensures Trim(t.meta[i]) == t.meta[i] && !IsBlank(t.meta[i]) {
      TrimOfTrimmed(t.meta[i]);
    }
    forall k | 0 <= k < |el| ensures ParseEntry(Trim(el[k])) == Some(t.parts[k]) && !IsBlank(el[k]) {
      EntryLineParses(t.parts[k]);
    }
    DumpOfLines(t.meta, el, t.parts);
  }

  /** Trimmed header lines, a blank line, partition lines that each parse,
      and a final empty line read as the table of those headers and
      entries. */
  lemma DumpOfLines(meta: seq<string>, el: seq<string>, parts: seq<Entry>)
    requires forall i :: 0 <= i < |meta| ==> Trim(meta[i]) == meta[i] && !IsBlank(meta[i])
    requires |el| == |parts|
    requires forall k :: 0 <= k < |el| ==> ParseEntry(Trim(el[k])) == Some(parts[k]) && !IsBlank(el[k])
    ensures ParseDump(meta + [""] + el + [""]) == Ok(Table(meta, parts))
  {
    var lines := meta + [""] + (el + [""]);
    assert lines == meta + [""] + el + [""];
    HeaderThenBody(meta, el + [""]);
    BodyOfLines(el, parts);
    var r := ParseDump(lines);
    assert r.Ok? && r.value.parts == parts;
    forall i | 0 <= i < |meta| ensures r.value.meta[i] == meta[i] {
      assert lines[i] == meta[i];
    }
    assert r.value.meta == meta;
  }

  /** Non-blank header lines and a blank line: the header ends at the blank
      line and the body is what follows it. */
  lemma HeaderThenBody(meta: seq<string>, rest: seq<string>)
    requires forall i :: 0 <= i < |meta| ==> !IsBlank(meta[i])
    ensures FirstBlank(meta + [""] + rest) == |meta|
    ensures BodyLines(meta + [""] + rest) == rest
  {
    var lines := meta + [""] + rest;
    forall i | 0 <= i < |meta| ensures !IsBlank(lines[i]) {
      assert lines[i] == meta[i];
    }
    assert lines[|meta|] == "";
    assert IsBlank("");
    FirstBlankAt(lines, |meta|);
    assert lines[|meta| + 1..] == rest;
  }

  /** The first blank line is the blank line with no blank line before
      it. */
  lemma {:induction false} FirstBlankAt(lines: seq<string>, k: nat)
    requires k < |lines| && IsBlank(lines[k])
    requires forall j :: 0 <= j < k ==> !IsBlank(lines[j])
    ensures FirstBlank(lines) == k
  {
    if k > 0 {
      FirstBlankAt(lines[1..], k - 1);
    }
  }

  /** Partition lines that each parse, then the empty line after the final
      newline, read as those entries. */
  lemma BodyOfLines(el: seq<string>, parts: seq<Entry>)
    requires |el| == |parts|
    requires forall k :: 0 <= k < |el| ==> ParseEntry(Trim(el[k])) == Some(parts[k]) && !IsBlank(el[k])
    ensures ParseBody(el + [""]) == Ok(parts)
  {
    NonBlankOfLines(el);
    var nb := NonBlank(el + [""]);
    assert ParsedFrom(parts, nb) by {
      forall k | 0 <= k < |nb| ensures ParseEntry(nb[k]) == Some(parts[k]) {
        assert nb[k] == Trim(el[k]);
      }
    }
    ParseEntriesOfParsed(nb, parts);
  }

  /** Reading a dump, writing it and reading it again gives the same table. */
  lemma ParseWriteParse(text: string)
    requires Parse(text).Ok?
    ensures Parse(Write(Parse(text).value)) == Parse(text)
  {
    WriteRoundTrip(Parse(text).value);
  }
}

=== FILE: text.dfy ===
/** String helpers with the meaning of the Go standard-library calls that
    resize.go makes: strings.TrimSpace, strings.Split, strings.Join,
    strings.HasPrefix, strings.Contains, strings.Fields, and the
    regular-expression replacement of `\s*=\s*` by `=`. */
module Text {

  /** Go's unicode.IsSpace, the separator of strings.TrimSpace and
      strings.Fields: the Unicode White_Space characters. */
  predicate IsSpace(c: char) {
    || c == ' '
    || ('\t' <= c <= '\r')
    || c == '\U{85}' || c == '\U{A0}' || c == '\U{1680}'
    || ('\U{2000}' <= c <= '\U{200A}')
    || c == '\U{2028}' || c == '\U{2029}' || c == '\U{202F}'
    || c == '\U{205F}' || c == '\U{3000}'
  }

  /** `\s` of Go's regular expressions: [\t\n\f\r ] (no vertical tab). */
  predicate IsRegexSpace(c: char) {
    c == ' ' || c == '\t' || c == '\n' || c == '\U{0C}' || c == '\r'
  }

  predicate HasPrefix(s: string, p: string) {
    |p| <= |s| && s[..|p|] == p
  }

  /** True when no character of `s` is white space. */
  predicate NoSpace(s: string) {
    forall i :: 0 <= i < |s| ==> !IsSpace(s[i])
  }

  /** The result of strings.TrimSpace: empty, or neither end is white space. */
  predicate Trimmed(s: string) {
    |s| == 0 || (!IsSpace(s[0]) && !IsSpace(s[|s| - 1]))
  }

  // ---------------------------------------------------------------------
  // Trimming
  // ---------------------------------------------------------------------

  /** Drops the leading white space: the result is the suffix of `s` that
      starts at its first non-space character. */
  function TrimLeft(s: string): (r: string)
    ensures |r| <= |s|
    ensures |r| == 0 || !IsSpace(r[0])
  {
    if |s| > 0 && IsSpace(s[0]) then TrimLeft(s[1..]) else s
  }

  /** TrimLeft keeps a suffix and drops only white space. */
  lemma TrimLeftSuffix(s: string)
    ensures TrimLeft(s) == s[|s| - |TrimLeft(s)|..]
    ensures forall i :: 0 <= i < |s| - |TrimLeft(s)| ==> IsSpace(s[i])
  {
    if |s| > 0 && IsSpace(s[0]) {
      TrimLeftSuffix(s[1..]);
    }
  }

  /** Drops the trailing white space: the result is the prefix of `s` that
      ends at its last non-space character. */
  function TrimRight(s: string): (r: string)
    ensures |r| <= |s|
    ensures |r| == 0 || !IsSpace(r[|r| - 1])
  {
    if |s| > 0 && IsSpace(s[|s| - 1]) then TrimRight(s[..|s| - 1]) else s
  }

  /** TrimRight keeps a prefix and drops only white space. */
  lemma TrimRightPrefix(s: string)
    ensures TrimRight(s) == s[..|TrimRight(s)|]
    ensures forall i :: |TrimRight(s)| <= i < |s| ==> IsSpace(s[i])
  {
    if |s| > 0 && IsSpace(s[|s| - 1]) {
      TrimRightPrefix(s[..|s| - 1]);
    }
  }

  /** strings.TrimSpace. */
  function Trim(s: string): (r: string)
    ensures Trimmed(r)
    ensures |r| <= |s|
  {
    var u := TrimLeft(s);
    TrimRightPrefix(u);
    TrimRight(u)
  }

  lemma TrimOfTrimmed(s: string)
    requires Trimmed(s)
    ensures Trim(s) == s
  {
  }

  /** Trimming removes characters only: a character absent from `s` is
      absent from its trimmed form. */
  lemma TrimKeepsAbsence(s: string, c: char)
    requires c !in s
    ensures c !in Trim(s)
  {
    var u := TrimLeft(s);
    TrimLeftSuffix(s);
    assert u == s[|s| - |u|..];
    assert c !in u by {
      forall i | 0 <= i < |u| ensures u[i] != c {
        assert u[i] == s[|s| - |u| + i];
      }
    }
    var w := TrimRight(u);
    TrimRightPrefix(u);
    forall i | 0 <= i < |w| ensures w[i] != c {
      assert w[i] == u[i];
    }
  }

  lemma TrimLeftAllSpace(x: string, y: string)
    requires forall i :: 0 <= i < |x| ==> IsSpace(x[i])
    ensures TrimLeft(x) == []
    ensures TrimLeft(x + y) == TrimLeft(y)
    decreases |x|
  {
    if |x| > 0 {
      assert (x + y)[1..] == x[1..] + y;
      TrimLeftAllSpace(x[1..], y);
    } else {
      assert x + y == y;
    }
  }

  lemma {:induction false} TrimLeftAppend(x: string, y: string)
    requires exists i :: 0 <= i < |x| && !IsSpace(x[i])
    ensures TrimLeft(x + y) == TrimLeft(x) + y
    decreases |x|
  {
    if IsSpace(x[0]) {
      var i :| 0 <= i < |x| && !IsSpace(x[i]);
      assert x[1..][i - 1] == x[i];
      assert (x + y)[1..] == x[1..] + y;
      TrimLeftAppend(x[1..], y);
    }
  }

  lemma TrimRightAllSpace(x: string, y: string)
    requires forall i :: 0 <= i < |y| ==> IsSpace(y[i])
    ensures TrimRight(y) == []
    ensures TrimRight(x + y) == TrimRight(x)
    decreases |y|
  {
    if |y| > 0 {
      assert (x + y)[..|x + y| - 1] == x + y[..|y| - 1];
      TrimRightAllSpace(x, y[..|y| - 1]);
    } else {
      assert x + y == x;
    }
  }

  lemma {:induction false} TrimRightAppend(x: string, y: string)
    requires exists i :: 0 <= i < |y| && !IsSpace(y[i])
    ensures TrimRight(x + y) == x + TrimRight(y)
    decreases |y|
  {
    if IsSpace(y[|y| - 1]) {
      var i :| 0 <= i < |y| && !IsSpace(y[i]);
      assert i < |y| - 1;
      assert y[..|y| - 1][i] == y[i];
      assert (x + y)[..|x + y| - 1] == x + y[..|y| - 1];
      TrimRightAppend(x, y[..|y| - 1]);
    }
  }

  lemma TrimConsSpace(c: char, x: string)
    requires IsSpace(c)
    ensures Trim([c] + x) == Trim(x)
  {
    assert ([c] + x)[1..] == x;
  }

  lemma TrimSnocSpace(x: string, c: char)
    requires IsSpace(c)
    ensures Trim(x + [c]) == Trim(x)
  {
    if exists i :: 0 <= i < |x| && !IsSpace(x[i]) {
      TrimLeftAppend(x, [c]);
      var u := TrimLeft(x);
      assert (u + [c])[..|u + [c]| - 1] == u;
    } else {
      TrimLeftAllSpace(x, [c]);
      assert TrimLeft([c]) == TrimLeft([c][1..]);
    }
  }

  lemma TrimOfTrimLeft(s: string)
    ensures Trim(TrimLeft(s)) == Trim(s)
  {
  }

  lemma {:induction false} TrimOfTrimRight(s: string)
    ensures Trim(TrimRight(s)) == Trim(s)
    decreases |s|
  {
    if |s| > 0 && IsSpace(s[|s| - 1]) {
      var t, c := s[..|s| - 1], s[|s| - 1];
      assert TrimRight(s) == TrimRight(t);
      TrimOfTrimRight(t);
      assert s == t + [c];
      TrimSnocSpace(t, c);
    }
  }

  /** White space around `y` does not change its trimmed form. */
  lemma TrimPadded(x: string, y: string, z: string)
    requires forall i :: 0 <= i < |x| ==> IsSpace(x[i])
    requires forall i :: 0 <= i < |z| ==> IsSpace(z[i])
    ensures Trim(x + y + z) == Trim(y)
  {
    assert x + y + z == x + (y + z);
    TrimOfTrimLeft(x + (y + z));
    TrimLeftAllSpace(x, y + z);
    TrimOfTrimLeft(y + z);
    TrimOfTrimRight(y + z);
    TrimRightAllSpace(y, z);
    TrimOfTrimRight(y);
  }

  // ---------------------------------------------------------------------
  // Subsequences
  // ---------------------------------------------------------------------

  /** `a` is `b` with some elements left out, the rest in the same order. */
  predicate IsSubsequence(a: seq<string>, b: seq<string>)
    decreases |b|
  {
    if |a| == 0 then true
    else if |b| == 0 then false
    else if a[0] == b[0] then IsSubsequence(a[1..], b[1..])
    else IsSubsequence(a, b[1..])
  }

  /** A subsequence of `b[1..]` is a subsequence of `b`. */
  lemma {:induction false} SubsequenceSkip(a: seq<string>, b: seq<string>)
    requires |b| > 0 && IsSubsequence(a, b[1..])
    ensures IsSubsequence(a, b)
    decreases |b|, 0
  {
    if |a| > 0 && a[0] == b[0] {
      SubsequenceTail(a, b[1..]);
    }
  }

  /** Dropping the first element of a subsequence keeps it a subsequence. */
  lemma {:induction false} SubsequenceTail(a: seq<string>, c: seq<string>)
    requires |a| > 0 && IsSubsequence(a, c)
    ensures IsSubsequence(a[1..], c)
    decreases |c|, 1
  {
    if a[0] == c[0] {
      SubsequenceSkip(a[1..], c);
    } else {
      SubsequenceTail(a, c[1..]);
      SubsequenceSkip(a[1..], c);
    }
  }

  // ---------------------------------------------------------------------
  // Searching
  // ---------------------------------------------------------------------

  /** Position of the first `c` in `s`, or |s| when there is none. */
  function IndexOf(s: string, c: char): (i: nat)
    ensures i <= |s|
    ensures i < |s| ==> s[i] == c
    ensures forall j :: 0 <= j < i ==> s[j] != c
  {
    if |s| == 0 then 0
    else if s[0] == c then 0
    else 1 + IndexOf(s[1..], c)
  }

  /** `sub` occurs in `s` at position `i`. */
  predicate OccursAt(s: string, sub: string, i: int) {
    0 <= i <= |s| - |sub| && s[i..i + |sub|] == sub
  }

  /** strings.Contains: `sub` occurs somewhere in `s`. */
  function Contains(s: string, sub: string): (b: bool)
    ensures b <==> exists i :: OccursAt(s, sub, i)
    decreases |s|
  {
    if HasPrefix(s, sub) then
      assert OccursAt(s, sub, 0);
      true
    else if |s| == 0 then
      false
    else
      var b := Contains(s[1..], sub);
      assert b ==> OccursAt(s, sub, 0) || exists i :: OccursAt(s, sub, i) by {
        if b {
          var i :| OccursAt(s[1..], sub, i);
          assert s[i + 1..i + 1 + |sub|] == s[1..][i..i + |sub|];
          assert OccursAt(s, sub, i + 1);
        }
      }
      assert (exists i :: OccursAt(s, sub, i)) ==> b by {
        if exists i :: OccursAt(s, sub, i) {
          var i :| OccursAt(s, sub, i);
          assert i != 0;
          assert s[1..][i - 1..i - 1 + |sub|] == s[i..i + |sub|];
          assert OccursAt(s[1..], sub, i - 1);
        }
      }
      b
  }

  // ---------------------------------------------------------------------
  // Splitting and joining
  // ---------------------------------------------------------------------

  /** strings.Split(s, sep) for a one-character separator: the pieces
      between separators, always at least one. */
  function Split(s: string, sep: char): (r: seq<string>)
    ensures |r| >= 1
    ensures forall i :: 0 <= i < |r| ==> sep !in r[i]
    decreases |s|
  {
    if |s| == 0 then [""]
    else
      var rest := Split(s[1..], sep);
      if s[0] == sep then [""] + rest
      else [[s[0]] + rest[0]] + rest[1..]
  }

  /** strings.Join. */
  function Join(xs: seq<string>, sep: string): string
  {
    if |xs| == 0 then ""
    else if |xs| == 1 then xs[0]
    else xs[0] + sep + Join(xs[1..], sep)
  }

  lemma SplitNoSep(s: string, sep: char)
    requires sep !in s
    ensures Split(s, sep) == [s]
    decreases |s|
  {
    if |s| > 0 {
      SplitNoSep(s[1..], sep);
      assert [s[0]] + s[1..] == s;
    }
  }

  /** Text up to the first separator becomes the first piece. */
  lemma {:induction false} SplitAtSep(a: string, sep: char, b: string)
    requires sep !in a
    ensures Split(a + [sep] + b, sep) == [a] + Split(b, sep)
    decreases |a|
  {
    if |a| == 0 {
      assert a + [sep] + b == [sep] + b;
      assert ([sep] + b)[1..] == b;
    } else {
      assert (a + [sep] + b)[1..] == a[1..] + [sep] + b;
      SplitAtSep(a[1..], sep, b);
      assert [a[0]] + a[1..] == a;
    }
  }

  /** Splitting only cuts the text: a character absent from `s` is absent
      from every piece. */
  lemma {:induction false} SplitKeepsAbsence(s: string, sep: char, c: char)
    requires c !in s
    ensures forall i :: 0 <= i < |Split(s, sep)| ==> c !in Split(s, sep)[i]
    decreases |s|
  {
    if |s| > 0 {
      assert c !in s[1..] by {
        forall i | 0 <= i < |s[1..]| ensures s[1..][i] != c {
          assert s[1..][i] == s[i + 1];
        }
      }
      SplitKeepsAbsence(s[1..], sep, c);
    }
  }

  /** Joining only adds the separator: a character absent from the pieces
      and the separator is absent from the result. */
  lemma {:induction false} JoinKeepsAbsence(xs: seq<string>, sep: string, c: char)
    requires forall i :: 0 <= i < |xs| ==> c !in xs[i]
    requires c !in sep
    ensures c !in Join(xs, sep)
    decreases |xs|
  {
    if |xs| > 1 {
      JoinKeepsAbsence(xs[1..], sep, c);
    }
  }

  /** A `c` with no `c` before it is the first one. */
  lemma IndexOfAt(s: string, c: char, i: nat)
    requires i < |s| && s[i] == c
    requires forall k :: 0 <= k < i ==> s[k] != c
    ensures IndexOf(s, c) == i
  {
  }

  /** The first `c` of `x + [c] + y` is the one after `x` when `x` has none. */
  lemma IndexOfAfter(x: string, c: char, y: string)
    requires c !in x
    ensures IndexOf(x + [c] + y, c) == |x|
  {
    var s := x + [c] + y;
    var i := IndexOf(s, c);
    assert s[|x|] == c;
  }

  /** A non-separator character prepended to the text joins the first piece. */
  lemma SplitCons(c: char, s: string, sep: char)
    requires c != sep
    ensures Split([c] + s, sep) == [[c] + Split(s, sep)[0]] + Split(s, sep)[1..]
  {
    assert ([c] + s)[1..] == s;
  }

  /** A separator appended to the text closes the last piece and opens an
      empty one. */
  lemma {:induction false} SplitSepSnoc(s: string, sep: char)
    ensures Split(s + [sep], sep) == Split(s, sep) + [""]
    decreases |s|
  {
    if |s| == 0 {
      assert s + [sep] == "" + [sep] + "";
      SplitAtSep("", sep, "");
    } else {
      var t := s[1..];
      assert (s + [sep])[1..] == t + [sep];
      SplitSepSnoc(t, sep);
      var p' := Split(t, sep);
      assert Split(t + [sep], sep) == p' + [""];
      if s[0] != sep {
        assert (p' + [""])[0] == p'[0];
        assert (p' + [""])[1..] == p'[1..] + [""];
      }
    }
  }

  /** A non-separator character appended to the text joins the last piece. */
  lemma {:induction false} SplitSnoc(s: string, c: char, sep: char)
    requires c != sep
    ensures var p := Split(s, sep);
      Split(s + [c], sep) == p[..|p| - 1] + [p[|p| - 1] + [c]]
    decreases |s|
  {
    if |s| == 0 {
      assert s + [c] == [c] + "";
      SplitCons(c, "", sep);
      assert Split("", sep) == [""];
      assert [c] + "" == "" + [c];
    } else {
      var t := s[1..];
      assert (s + [c])[1..] == t + [c];
      SplitSnoc(t, c, sep);
      var p' := Split(t, sep);
      var q := Split(t + [c], sep);
      var n := |p'|;
      assert q == p'[..n - 1] + [p'[n - 1] + [c]];
      if s[0] == sep {
        LastGrowsAfterFront([""], p', c);
      } else {
        LastGrowsAfterGlue(s[0], p', c);
      }
    }
  }

  /** Growing the last piece commutes with putting pieces in front. */
  lemma LastGrowsAfterFront(f: seq<string>, p: seq<string>, c: char)
    requires |p| >= 1
    ensures var q := p[..|p| - 1] + [p[|p| - 1] + [c]];
      f + q == (f + p)[..|f + p| - 1] + [(f + p)[|f + p| - 1] + [c]]
  {
  }

  /** Growing the last piece commutes with gluing a character to the first. */
  lemma LastGrowsAfterGlue(h: char, p: seq<string>, c: char)
    requires |p| >= 1
    ensures var q := p[..|p| - 1] + [p[|p| - 1] + [c]];
      var g := [[h] + p[0]] + p[1..];
      [[h] + q[0]] + q[1..] == g[..|g| - 1] + [g[|g| - 1] + [c]]
  {
    var n := |p|;
    var q := p[..n - 1] + [p[n - 1] + [c]];
    if n == 1 {
      assert [h] + (p[0] + [c]) == ([h] + p[0]) + [c];
    } else {
      assert q[0] == p[0];
      assert q[1..] == p[1..n - 1] + [p[n - 1] + [c]];
    }
  }

  /** strings.Join undoes strings.Split. */
  lemma {:induction false} JoinSplit(s: string, sep: char)
    ensures Join(Split(s, sep), [sep]) == s
    decreases |s|
  {
    if |s| > 0 {
      JoinSplit(s[1..], sep);
      var rest := Split(s[1..], sep);
      if s[0] == sep {
        assert Split(s, sep) == [""] + rest;
        assert ([""] + rest)[1..] == rest;
      } else {
        assert [s[0]] + s[1..] == s;
        if |rest| > 1 {
          assert Join(rest, [sep]) == rest[0] + [sep] + Join(rest[1..], [sep]);
          assert ([[s[0]] + rest[0]] + rest[1..])[1..] == rest[1..];
        }
      }
    }
  }

  /** strings.Split undoes strings.Join when no piece holds the separator. */
  lemma {:induction false} SplitJoin(xs: seq<string>, sep: char)
    requires |xs| >= 1
    requires forall i :: 0 <= i < |xs| ==> sep !in xs[i]
    ensures Split(Join(xs, [sep]), sep) == xs
    decreases |xs|
  {
    if |xs| == 1 {
      SplitNoSep(xs[0], sep);
    } else {
      SplitJoin(xs[1..], sep);
      SplitAtSep(xs[0], sep, Join(xs[1..], [sep]));
      assert [xs[0]] + xs[1..] == xs;
    }
  }

  // ---------------------------------------------------------------------
  // strings.Fields
  // ---------------------------------------------------------------------

  /** Length of the leading run of non-space characters. */
  function WordLength(s: string): (k: nat)
    ensures k <= |s|
    ensures forall j :: 0 <= j < k ==> !IsSpace(s[j])
    ensures k < |s| ==> IsSpace(s[k])
  {
    if |s| > 0 && !IsSpace(s[0]) then 1 + WordLength(s[1..]) else 0
  }

  /** strings.Fields: the maximal runs of non-space characters, in order. */
  function Fields(s: string): (r: seq<string>)
    ensures forall i :: 0 <= i < |r| ==> |r[i]| > 0 && NoSpace(r[i])
    decreases |s|
  {
    if |s| == 0 then []
    else if IsSpace(s[0]) then Fields(s[1..])
    else
      var k := WordLength(s);
      [s[..k]] + Fields(s[k..])
  }

  /** strings.Fields undoes joining words with single spaces. */
  lemma {:induction false} FieldsOfJoin(ws: seq<string>)
    requires forall i :: 0 <= i < |ws| ==> |ws[i]| > 0 && NoSpace(ws[i])
    ensures Fields(Join(ws, " ")) == ws
    decreases |ws|
  {
    if |ws| == 1 {
      var w := ws[0];
      assert WordLength(w) == |w| by { WordLengthOfWord(w, ""); assert w + "" == w; }
      assert w[|w|..] == [];
      assert w[..|w|] == w;
    } else if |ws| > 1 {
      var w := ws[0];
      var rest := Join(ws[1..], " ");
      var s := w + " " + rest;
      WordLengthOfWord(w, " " + rest);
      assert s == w + (" " + rest);
      assert s[..|w|] == w;
      assert s[|w|..] == " " + rest;
      assert (" " + rest)[1..] == rest;
      FieldsOfJoin(ws[1..]);
      assert [w] + ws[1..] == ws;
    }
  }

  lemma {:induction false} WordLengthOfWord(w: string, rest: string)
    requires NoSpace(w)
    requires |rest| == 0 || IsSpace(rest[0])
    ensures WordLength(w + rest) == |w|
    decreases |w|
  {
    if |w| > 0 {
      assert (w + rest)[1..] == w[1..] + rest;
      WordLengthOfWord(w[1..], rest);
    } else {
      assert w + rest == rest;
    }
  }

  // ---------------------------------------------------------------------
  // Replacing `\s*=\s*` by `=`
  // ---------------------------------------------------------------------

  /** Length of the leading run of regular-expression white space. */
  function RegexSpaceRun(s: string): (k: nat)
    ensures k <= |s|
    ensures forall j :: 0 <= j < k ==> IsRegexSpace(s[j])
    ensures k < |s| ==> !IsRegexSpace(s[k])
  {
    if |s| > 0 && IsRegexSpace(s[0]) then 1 + RegexSpaceRun(s[1..]) else 0
  }

  /** A match of `\s*=\s*` starts at the front of `s`. */
  predicate StartsWithEquals(s: string) {
    var k := RegexSpaceRun(s);
    k < |s| && s[k] == '='
  }

  /** What follows a match of `\s*=\s*` at the front of `s`: the trailing
      white-space run is taken greedily. */
  function AfterMatch(s: string): (r: string)
    requires StartsWithEquals(s)
    ensures |r| < |s| && r == s[|s| - |r|..]
    ensures |r| == 0 || !IsRegexSpace(r[0])
    ensures |r| == 0 ==> s[|s| - 1] == '=' || IsRegexSpace(s[|s| - 1])
  {
    var k := RegexSpaceRun(s);
    var t := s[k + 1..];
    var j := RegexSpaceRun(t);
    assert j > 0 ==> t[j - 1] == s[|s| - 1] || j < |t|;
    t[j..]
  }

  /** No `=` has regular-expression white space right beside it. */
  predicate EqualsTight(s: string) {
    forall i :: 0 <= i < |s| && s[i] == '=' ==>
      (i == 0 || !IsRegexSpace(s[i - 1])) && (i == |s| - 1 || !IsRegexSpace(s[i + 1]))
  }

  /** regexp.MustCompile(`\s*=\s*`).ReplaceAllString(s, "="): scanning left
      to right, each leftmost match (a white-space run, `=`, a white-space
      run, both runs taken greedily) is replaced by a single `=`, and the
      scan resumes after the match. */
  function CollapseEquals(s: string): (r: string)
    decreases |s|
  {
    if |s| == 0 then ""
    else if StartsWithEquals(s) then "=" + CollapseEquals(AfterMatch(s))
    else [s[0]] + CollapseEquals(s[1..])
  }

  lemma CollapseFirst(s: string)
    requires |s| > 0
    ensures |CollapseEquals(s)| > 0
    ensures StartsWithEquals(s) ==> CollapseEquals(s)[0] == '='
    ensures !StartsWithEquals(s) ==> CollapseEquals(s)[0] == s[0]
  {
  }

  lemma {:induction false} CollapseLast(s: string)
    requires |s| > 0 && !IsRegexSpace(s[|s| - 1])
    ensures |CollapseEquals(s)| > 0
    ensures CollapseEquals(s)[|CollapseEquals(s)| - 1] == s[|s| - 1]
    decreases |s|
  {
    if StartsWithEquals(s) {
      var u := AfterMatch(s);
      if |u| > 0 {
        assert u[|u| - 1] == s[|s| - 1];
        CollapseLast(u);
      }
    } else if |s| > 1 {
      assert s[1..][|s| - 2] == s[|s| - 1];
      CollapseLast(s[1..]);
    }
  }

  /** Prepending one character keeps a tight text tight when it does not
      put white space beside an `=`. */
  lemma TightCons(x: char, c: string)
    requires EqualsTight(c)
    requires |c| > 0 && c[0] == '=' ==> !IsRegexSpace(x)
    requires |c| > 0 && x == '=' ==> !IsRegexSpace(c[0])
    ensures EqualsTight([x] + c)
  {
    var r := [x] + c;
    forall i | 0 <= i < |r| && r[i] == '='
      ensures (i == 0 || !IsRegexSpace(r[i - 1])) && (i == |r| - 1 || !IsRegexSpace(r[i + 1]))
    {
      if i > 0 {
        assert r[i] == c[i - 1];
        assert i < |r| - 1 ==> r[i + 1] == c[i];
      }
    }
  }

  /** The replacement leaves no white space beside any `=`. */
  lemma {:induction false} CollapseIsTight(s: string)
    ensures EqualsTight(CollapseEquals(s))
    decreases |s|
  {
    if |s| > 0 {
      if StartsWithEquals(s) {
        var u := AfterMatch(s);
        CollapseIsTight(u);
        if |u| > 0 {
          CollapseFirst(u);
        }
        TightCons('=', CollapseEquals(u));
      } else {
        var u := s[1..];
        CollapseIsTight(u);
        if |u| > 0 {
          CollapseFirst(u);
          if IsRegexSpace(s[0]) {
            assert RegexSpaceRun(u) == RegexSpaceRun(s) - 1;
            assert !StartsWithEquals(u);
          }
        }
        TightCons(s[0], CollapseEquals(u));
      }
    }
  }

  /** In tight text a match of `\s*=\s*` can only start at an `=`. */
  lemma TightRun(s: string)
    requires EqualsTight(s)
    ensures StartsWithEquals(s) ==> RegexSpaceRun(s) == 0
  {
    var k := RegexSpaceRun(s);
    if 0 < k < |s| {
      assert IsRegexSpace(s[k - 1]);
    }
  }

  /** Text that has no white space beside any `=` is left unchanged. */
  lemma {:induction false} CollapseOfTight(s: string)
    requires EqualsTight(s)
    ensures CollapseEquals(s) == s
    decreases |s|
  {
    if |s| > 0 {
      var t := s[1..];
      assert EqualsTight(t) by {
        forall i | 0 <= i < |t| && t[i] == '='
          ensures (i == 0 || !IsRegexSpace(t[i - 1])) && (i == |t| - 1 || !IsRegexSpace(t[i + 1]))
        {
          assert s[i + 1] == '=';
        }
      }
      if StartsWithEquals(s) {
        TightRun(s);
        assert RegexSpaceRun(t) == 0 by {
          if |t| > 0 { assert !IsRegexSpace(s[1]); }
        }
        assert AfterMatch(s) == t;
      }
      CollapseOfTight(t);
      assert [s[0]] + t == s;
    }
  }

  /** The replacement only deletes characters and writes `=`. */
  lemma {:induction false} CollapseKeepsAbsence(s: string, c: char)
    requires c != '=' && c !in s
    ensures c !in CollapseEquals(s)
    decreases |s|
  {
    if |s| > 0 {
      var u := if StartsWithEquals(s) then AfterMatch(s) else s[1..];
      assert u == s[|s| - |u|..];
      assert c !in u by {
        forall i | 0 <= i < |u| ensures u[i] != c {
          assert u[i] == s[|s| - |u| + i];
        }
      }
      CollapseKeepsAbsence(u, c);
    }
  }

  /** The replacement keeps trimmed text trimmed. */
  lemma CollapseKeepsTrimmed(s: string)
    requires Trimmed(s)
    ensures Trimmed(CollapseEquals(s))
  {
    if |s| > 0 {
      CollapseFirst(s);
      CollapseLast(s);
    }
  }
}
